=== FILE: README.md ===
# Library front end: schema dialogs, validators and report views

This project models, in Dafny, the core of a library-management web front end. The front end is a React/Next.js
application in which staff add, edit and look up members, books and borrowing transactions, and read reports. The
model covers these parts of it.

- **Validators.** The zod schemas for members, books and transactions, the shared field checks and the
  problem-details body, `handleZodError`, and the model wrappers (`wrap`, `parse`, `fullName`, `displayTitle`,
  `isOverdue`, `daysUntilDue`, `borrowDuration`, `toJSON`).
- **The schema form dialog factory** (`createSchemaDialog` in `test/SchemaFormDialog.tsx`):
  - the input kind it infers from a schema;
  - how it merges defaults;
  - how a typed text becomes a form value and back;
  - how a submit validates, filters, calls the caller's `onSubmit`, resets and closes;
  - when the form is reset to new defaults.
- **The lookup wrapper** `withLookup`: a two-screen dialog that first asks for an id, fetches the resource and
  then shows an edit dialog for it. Its member and book instances are modelled as well.
- **The entity dialogs:** add, edit and "flexible" edit for members and books, and the add and return dialogs for
  transactions.
- **`DisplayResourceDialog`:** how a record is shown. This covers `formatKey`, `formatValue` with `JSON.stringify`,
  and the title, hidden, empty and row states.
- **`ReportTables`:** the report view, covering:
  - which of loading, error, empty and table wins;
  - the display names;
  - which card table each report type selects;
  - the card each row becomes, with its colour, alert and badges.

**How effects are modelled.** Everything the browser or the server does is a parameter of the model:
- the API calls (`fetch`, `create`, `update`, `delete`);
- the email and ISO-datetime checks and `new Date(s).getTime()`, gathered in `Schemas.Formats`;
- `Number(text)`;
- the clock and the locale date text.

A component's work is a pure transition. It returns the new state and the list of observable effects in order:
- callback calls (`onSubmit`, `onOpenChange`, `onSuccess`);
- API calls;
- toasts.

A JavaScript value is a `Values.Value`. `Num` holds an integer and `NaN` stands for every other number. A form record
is a map from key to value. In that map, a key bound to `undefined` is different from a missing key, because object
spread treats the two differently.

**How the flows compose.** Where the composed flows behave in ways the components' comments do not suggest, the model
proves what the code does. Examples:
- a confirmed book return reports "Saved successfully" even when the delete failed;
- the member edit dialog offers username and password fields that its update schema strips before sending;
- a saved edit in the book lookup returns to the lookup screen through the factory's own close request.

The dialogs here are built by the factory in `test/SchemaFormDialog.tsx`. The component files import a sibling
`components/dialogs/SchemaFormDialog.tsx`, and that file is not part of this model. The test copy is taken as its
definition. That factory accepts an `onSuccess` prop but never calls it. The model does the same, so `onSuccess` is
reached only where a dialog's own `onSubmit` calls it.

## Model

| member | source | states |
|---|---|---|
| Schemas.FieldIssues | app/lib/schemas/common.ts:4-5 | a field reports no issue exactly when its check (and optionality) accepts the value |
| Schemas.ShapeIssues | app/lib/schemas/member.ts:5-10 | an object reports no field issue exactly when every declared field accepts the value under its key |
| Schemas.RefinementIssues | app/lib/schemas/transaction.ts:11-17 | a refined object reports no refinement issue exactly when every refinement holds |
| Schemas.SafeParse | test/SchemaFormDialog.tsx:135 | `safeParse` never throws, succeeds exactly when the input is valid, returns only the declared keys with their input values, and a rejection carries at least one issue |
| Schemas.SafeParseIssues | test/SchemaFormDialog.tsx:135 | a rejection lists the fields' issues, then, unless some field has the wrong type or is missing, the issues of every failing refinement, even after a failed format, length or range check |
| Schemas.Strip | app/lib/schemas/member.ts:5-10 | parsing keeps exactly the input keys the schema declares, unchanged |
| Schemas.Omit | app/lib/schemas/member.ts:16 | `.omit` keeps exactly the entries whose key is not omitted and drops refinements |
| Schemas.Pick | components/dialogs/transactionDialogs.tsx:61 | `.pick` keeps exactly the entries whose key is picked and drops refinements |
| Schemas.Partial | app/lib/schemas/member.ts:22 | `.partial` keeps the keys and checks, makes every field optional, and drops refinements |
| Schemas.Extend | app/lib/schemas/member.ts:16-19 | `.extend` adds the new fields, replaces same-named ones, and carries no refinements |
| Schemas.Filter | app/lib/schemas/member.ts:16 | the filtered shape holds exactly the entries whose key passes |
| Schemas.Describe | test/SchemaFormDialog.tsx:34-46 | the shape the field inference sees has exactly the schema's keys |
| Schemas.FormatFieldsInferText | test/SchemaFormDialog.tsx:38-75 | without an explicit input type, an `email()` or `iso.datetime()` field is a text input, because zod 4 gives them classes the switch does not list, and no schema field is ever inferred as an email input |
| Common.PositiveIntegerAccepts | app/lib/schemas/common.ts:4 | the positive-integer check accepts exactly the safe integers `0 < n <= 2^53 - 1`: 2^53 - 1 passes and 2^53 fails |
| Common.NonEmptyStringAccepts | app/lib/schemas/common.ts:5 | the non-empty check accepts exactly strings of length at least one (a single blank passes); `""` yields one issue with the source's "This field is required" message, and `undefined` yields a type issue instead |
| Common.ProblemDetailsAccepts | app/lib/schemas/common.ts:8-15 | the problem-details schema accepts exactly the records with string `type`, `title` and `detail`, a numeric `status`, and an optional list of strings under `invalid-params` |
| MemberSchemas.MemberSchemaAccepts | app/lib/schemas/member.ts:5-10 | a member record is valid exactly when its id is a positive safe integer, the names are non-empty and the email is an email |
| MemberSchemas.CreateMemberKeys | app/lib/schemas/member.ts:16-19 | the create schema declares the names, the email, the username and the password, and no id |
| MemberSchemas.CreateMemberAccepts | app/lib/schemas/member.ts:16-19 | a create request is valid exactly when the names are non-empty, the email is an email, the username has at least 3 characters and the password at least 6 |
| MemberSchemas.UpdateMemberKeys | app/lib/schemas/member.ts:22 | the update schema declares only the names and the email |
| MemberSchemas.UpdateMemberAccepts | app/lib/schemas/member.ts:22 | an update request is valid exactly when each of the three fields is absent or valid |
| MemberSchemas.CreateValidIsUpdateValid | app/lib/schemas/member.ts:16-22 | every valid create request, and its name/email part, is a valid update request |
| MemberSchemas.WrapToJsonIdentity | app/lib/schemas/member.ts:35-50 | `toJSON` after `wrap` gives the member back |
| MemberSchemas.FullName | app/lib/schemas/member.ts:44-46 | the full name is the first name, one space, the last name |
| MemberSchemas.Parse | app/lib/schemas/member.ts:40-42 | `parse` succeeds exactly for valid records and holds the declared fields of the input |
| MemberSchemas.ParseRoundTrip | app/lib/schemas/member.ts:40-42 | parsing a member's record gives the wrapped member when it is valid, and nothing otherwise |
| MemberSchemas.MemberObjectFields | app/lib/schemas/member.ts:5-10 | reading the fields of a member object gives the member's values |
| BookSchemas.BookSchemaAccepts | app/lib/schemas/book.ts:5-10 | a book record is valid exactly when its id is a positive safe integer and isbn, title and author are non-empty |
| BookSchemas.RequestKeys | app/lib/schemas/book.ts:16-19 | the create and update schemas both declare exactly isbn, title and author |
| BookSchemas.CreateBookAccepts | app/lib/schemas/book.ts:16 | a create request is valid exactly when the three fields are non-empty strings |
| BookSchemas.UpdateBookAccepts | app/lib/schemas/book.ts:19 | an update request is valid exactly when each field is absent or a non-empty string |
| BookSchemas.CreateValidIsUpdateValid | app/lib/schemas/book.ts:16-19 | every valid create request is a valid update request |
| BookSchemas.BookObjectFields | app/lib/schemas/book.ts:5-10 | reading the fields of a book object gives the book's values |
| BookSchemas.WrapToJsonIdentity | app/lib/schemas/book.ts:32-47 | `toJSON` after `wrap` gives the book back |
| BookSchemas.DisplayTitle | app/lib/schemas/book.ts:41-43 | the display title is the title, " by ", the author |
| BookSchemas.Parse | app/lib/schemas/book.ts:37-39 | `parse` succeeds exactly for valid records and holds the declared fields of the input |
| BookSchemas.ParseRoundTrip | app/lib/schemas/book.ts:37-39 | parsing a book's record gives the wrapped book when it is valid, and nothing otherwise |
| TransactionSchemas.TransactionAccepts | app/lib/schemas/transaction.ts:5-17 | a transaction record is valid exactly when the ids are positive safe integers, both dates are ISO datetimes and the due date is after the borrow date |
| TransactionSchemas.BadDueDateAlsoReportsRefinement | app/lib/schemas/transaction.ts:5-17 | a due date that is text but not an ISO datetime is reported twice on `dueDate`: by its format check and by the refinement |
| TransactionSchemas.DueDateIssue | app/lib/schemas/transaction.ts:11-17 | fields that pass with a due date not after the borrow date give exactly one issue, on `dueDate`, with the source's message |
| TransactionSchemas.CreateTransactionAccepts | app/lib/schemas/transaction.ts:23-26 | a checkout request declares book and member ids and is valid exactly when both are positive safe integers |
| TransactionSchemas.UpdateTransactionAccepts | app/lib/schemas/transaction.ts:29 | the update schema has no date refinement and accepts each field absent or valid, the ids as positive safe integers |
| TransactionSchemas.CeilDiv | app/lib/schemas/transaction.ts:59 | `Math.ceil(a / d)` is the least multiple count not below `a` |
| TransactionSchemas.WrapToJsonIdentity | app/lib/schemas/transaction.ts:42-71 | `toJSON` after `wrap` gives the transaction back |
| TransactionSchemas.IsOverdue | app/lib/schemas/transaction.ts:51-53 | a transaction is overdue exactly when its due date reads as a time before now |
| TransactionSchemas.DaysUntilDue | app/lib/schemas/transaction.ts:55-60 | the days left are the whole days, rounded up, between now and the due time, and undefined for an unreadable date |
| TransactionSchemas.BorrowDuration | app/lib/schemas/transaction.ts:62-67 | the duration is the whole days, rounded up, between borrow and due time, when both dates read |
| TransactionSchemas.OverdueMeansNoDaysLeft | app/lib/schemas/transaction.ts:51-60 | an overdue transaction has no days left and one that is not overdue has none negative |
| TransactionSchemas.BorrowDurationAtLeastOneDay | app/lib/schemas/transaction.ts:11-17 | a transaction the schema accepts has a borrow duration of at least one day |
| TransactionSchemas.RecordValidIffValid | app/lib/schemas/transaction.ts:5-17 | for readable ISO dates, the schema accepts a transaction's record exactly when the transaction is valid |
| ZodErrors.HandleZodError | app/lib/schemas/index.ts:12-24 | a validation error becomes a 400 problem-details body of type `validation-error`, titled "Validation Failed" with the detail "The request contains invalid data", and one `invalid-params` entry per issue in order; any other error is rethrown unchanged |
| ZodErrors.InvalidParams | app/lib/schemas/index.ts:20 | there is one "path: message" entry per issue, in issue order |
| ZodErrors.SegmentTexts | app/lib/schemas/index.ts:20 | each path segment is written as its key or its decimal index |
| ZodErrors.HandledBodyIsProblemDetails | app/lib/schemas/index.ts:12-22 | the body built for a validation error is accepted by the problem-details schema |
| ZodErrors.RejectionIsReported | app/lib/schemas/index.ts:12-22 | every rejection by any schema is reported as a 400 with its issues |
| ZodErrors.InvalidParamPathReadBack | app/lib/schemas/index.ts:20 | when keys contain neither '.' nor ':', the path can be read back from an entry |
| FieldInference.ResolveKind | test/SchemaFormDialog.tsx:185 | an explicit field type wins over the inferred one |
| FieldInference.OnlyOneLayerUnwrapped | test/SchemaFormDialog.tsx:43-46 | only one optional or nullable layer is looked through; two layers fall back to text |
| FieldInference.ClassifyBaseTypes | test/SchemaFormDialog.tsx:50-75 | numbers give number inputs, emails email inputs, booleans checkboxes, enums selects, other strings and types text |
| FieldInference.BrandRule | test/SchemaFormDialog.tsx:61-68 | a `password` brand gives a password input; any other brand is looked through |
| FieldInference.PasswordOnlyThroughBrand | test/SchemaFormDialog.tsx:61-68 | a password input is inferred exactly when the type reaches a `password` brand |
| FieldInference.KindNameInjective | test/SchemaFormDialog.tsx:51-75 | different input kinds have different names |
| FormDialog.FieldDefaults | test/SchemaFormDialog.tsx:109-114 | every declared field starts as `undefined`, and no other key is present |
| FormDialog.MergedDefaults | test/SchemaFormDialog.tsx:116-121 | the merged defaults hold the field names, the factory's and the instance's defaults |
| FormDialog.DefaultsPrecedence | test/SchemaFormDialog.tsx:116-121 | instance defaults win over factory defaults, which win over the undefined field defaults |
| FormDialog.SetDialogOpen | test/SchemaFormDialog.tsx:105-106 | an open request goes to the caller's handler when there is one, and to the internal state otherwise, leaving the form untouched |
| FormDialog.OpenRequestVisibility | test/SchemaFormDialog.tsx:105-106 | a controlled dialog shows the caller's `open`; an uncontrolled one shows the last request |
| FormDialog.OpenRequestsKeepForm | test/SchemaFormDialog.tsx:103-106 | any number of open and close requests leave the form values and errors unchanged |
| FormDialog.FindOption | test/SchemaFormDialog.tsx:205-207 | the chosen option is the first whose text matches, and none matches when none is found |
| FormDialog.Normalise | test/SchemaFormDialog.tsx:199-234 | an empty text is stored as `undefined`; number inputs store the number; selects store the matched option's value or the text; other inputs store the text |
| FormDialog.SelectStoresOption | test/SchemaFormDialog.tsx:202-209 | picking an option with a distinct text stores exactly that option's value |
| FormDialog.PlaceholderChoice | test/SchemaFormDialog.tsx:183-226 | each configured field is drawn, in order, under its name and label; a select shows its prompt and options; any other input has its resolved type and shows a non-empty instance placeholder over the field's own |
| FormDialog.EmptyPlaceholderIsNone | test/SchemaFormDialog.tsx:188 | an empty instance placeholder draws the same form as no instance placeholder |
| FormDialog.PlaceholdersOnlyChangePlaceholders | test/SchemaFormDialog.tsx:183-226 | the placeholders prop changes nothing but the inputs' placeholders |
| FormDialog.ShownText | test/SchemaFormDialog.tsx:226 | falsy values show as empty text |
| FormDialog.ShownTextRoundTrip | test/SchemaFormDialog.tsx:226-234 | typing back the shown text of a non-empty string or non-zero number gives the value back, and 0 comes back `undefined` |
| FormDialog.IssueErrors | test/SchemaFormDialog.tsx:138-149 | every issue that names a field leaves an error on that field |
| FormDialog.IssueErrorsAreLastMessages | test/SchemaFormDialog.tsx:138-149 | a field's error is the message of the last issue naming it, and only named fields have errors |
| FormDialog.DropUndefined | test/SchemaFormDialog.tsx:155-158 | the filtered data holds exactly the defined entries, unchanged |
| FormDialog.Submit | test/SchemaFormDialog.tsx:132-182 | react-hook-form's `handleSubmit` wrapper first clears every configured field's error and the form-level error, and does nothing more while an error on another key survives; otherwise a rejected form only sets field errors and a toast, valid data calls `onSubmit` first, then on success resets to the merged defaults, toasts and closes, and a throw only toasts |
| FormDialog.FieldErrorsDoNotBlock | test/SchemaFormDialog.tsx:182-193 | errors only on configured fields never stop a submit, since every configured field is registered through `FormField` |
| FormDialog.BlockedSubmitDoesNothing | test/SchemaFormDialog.tsx:182 | a blocked submit calls nothing and shows nothing, keeps the values and the open state, and leaves exactly the errors on keys outside the configured fields |
| FormDialog.UnconfiguredIssueBlocksNextSubmit | test/SchemaFormDialog.tsx:139-182 | an issue whose first path segment is not a configured field leaves an error that blocks every later submit, whatever the values |
| FormDialog.ValidationBlocksSubmit | test/SchemaFormDialog.tsx:135-153 | a rejected form never reaches `onSubmit` and keeps the values and open state; when the submit is not blocked, every field an issue names gets an error |
| FormDialog.FailedSubmitKeepsInput | test/SchemaFormDialog.tsx:164-182 | when `onSubmit` throws, the values and open state stay as they were, no configured field keeps an error, nobody is asked to close, and the last effect is the failure toast |
| FormDialog.SuccessfulSubmitCloses | test/SchemaFormDialog.tsx:160-163 | a save closes an uncontrolled dialog and resets the form |
| FormDialog.SubmitCallsFirst | test/SchemaFormDialog.tsx:155-160 | valid data always calls `onSubmit`, before any other effect |
| FormDialog.SavedSubmitEffects | test/SchemaFormDialog.tsx:160-163 | a save under the caller's handler emits the submit, its calls, the toast and exactly one close request |
| FormDialog.PayloadIsDefinedData | test/SchemaFormDialog.tsx:155-160 | `onSubmit` receives exactly the parsed entries that are defined |
| FormDialog.ResyncShowsNewDefaults | test/SchemaFormDialog.tsx:127-130 | after changed instance defaults, every instance default is shown |
| FormDialog.UndefinedEntriesDoNotResync | test/SchemaFormDialog.tsx:130 | adding an `undefined` entry does not reset the form |
| LookupEdit.SetIsOpen | components/dialogs/LookupEditDialog.tsx:30-31 | an open request goes to the caller's handler or to the internal state, and the screen is unchanged |
| LookupEdit.HandleIdSubmit | components/dialogs/LookupEditDialog.tsx:34-44 | a successful fetch holds the resource and moves to edit; a failed one toasts and rethrows |
| LookupEdit.HandleDialogClose | components/dialogs/LookupEditDialog.tsx:64-70 | a close request returns to lookup without a resource; an open request keeps the screen; either is forwarded |
| LookupEdit.EditDone | components/dialogs/LookupEditDialog.tsx:57-61 | the edit callback returns to lookup, drops the resource and closes |
| LookupEdit.Render | components/dialogs/LookupEditDialog.tsx:73-89 | lookup shows the id screen; edit with a resource shows the edit screen with its defaults; both route open changes through the close handler |
| LookupEdit.IdDialogConfig | components/dialogs/LookupEditDialog.tsx:47-54 | the id screen has one numeric `id` field and the titled "– Select ID" heading |
| LookupEdit.RunKeepsConsistent | components/dialogs/LookupEditDialog.tsx:25-70 | under any event sequence with truthy fetch results the wrapper never reaches the blank screen |
| LookupEdit.InitialIsConsistent | components/dialogs/LookupEditDialog.tsx:25-27 | the wrapper starts closed on the lookup screen without a resource |
| LookupEdit.OpenRequestKeepsScreen | components/dialogs/LookupEditDialog.tsx:64-70 | an open request does not change the screen shown |
| LookupEdit.Dispatch | components/dialogs/LookupEditDialog.tsx:74-87 | effects that are no open change or success pass through without changing the wrapper |
| LookupEdit.DispatchEndsInLookup | components/dialogs/LookupEditDialog.tsx:64-70 | after a close request, with no later open request, the wrapper is back in lookup |
| LookupEdit.DispatchKeepsLookup | components/dialogs/LookupEditDialog.tsx:64-70 | the lookup screen stays when no open request arrives |
| LookupEdit.DispatchAppend | components/dialogs/LookupEditDialog.tsx:74-87 | routing two effect lists in turn equals routing them joined |
| LookupEdit.LookupSuccessReturnsToLookup | components/dialogs/LookupEditDialog.tsx:34-79 | a successful lookup moves to edit, but the id dialog's own close request right after it returns the wrapper to lookup |
| LookupEdit.QuietSaveDispatch | components/dialogs/LookupEditDialog.tsx:80-88 | a save whose `onSubmit` calls no callback returns to lookup through the factory's close request alone |
| LookupEdit.ReportingSaveDispatch | components/dialogs/LookupEditDialog.tsx:57-61 | a save whose `onSubmit` reports success runs the edit callback and then the factory's close |
| LookupEdit.EditSaveReturnsToLookup | components/dialogs/LookupEditDialog.tsx:57-70 | every accepted edit save ends in lookup without a resource |
| EntityDialogs.EditDialog | components/dialogs/memberDialogs.tsx:50-70 | an edit dialog validates with its schema and updates the fixed id with the payload |
| EntityDialogs.EditSendsDeclaredValues | components/dialogs/memberDialogs.tsx:45-62 | an edit save sends the update for the fixed id with only declared, defined values |
| EntityDialogs.Memo | components/dialogs/memberDialogs.tsx:50-70 | the memoised dialog is rebuilt exactly when the id changes |
| EntityDialogs.WrapperDialogProps | components/dialogs/memberDialogs.tsx:79-91 | the wrapper always passes an open handler to the dialog |
| EntityDialogs.Handler | components/dialogs/memberDialogs.tsx:79-91 | the caller's handler is used exactly when the caller gives one |
| EntityDialogs.SpreadOverrides | components/dialogs/memberDialogs.tsx:79-91 | the caller's `open`, defaults, placeholders and handler override the wrapper's |
| EntityDialogs.HandleOpenChange | components/dialogs/memberDialogs.tsx:73-76 | the table refreshes exactly when the dialog closes and a refresh is given |
| EntityDialogs.FlexibleSubmit | components/dialogs/memberDialogs.tsx:105-109 | the flexible save updates the id first, and calls `onSuccess` exactly when given and the update succeeded |
| EntityDialogs.FlexibleDialog | components/dialogs/memberDialogs.tsx:111-122 | the flexible dialog validates with its schema and submits through the flexible save |
| EntityDialogs.FlexibleDefaults | components/dialogs/memberDialogs.tsx:133-138 | explicit defaults win over the entity's values, key by key |
| EntityDialogs.FlexibleFormStart | components/dialogs/memberDialogs.tsx:124-143 | the flexible form starts with the explicit defaults, then the entity's values |
| EntityDialogs.FlexibleSuccessAfterUpdate | components/dialogs/memberDialogs.tsx:105-109 | on a save, `onSuccess` follows the update call |
| MemberDialogs.FieldNames | components/dialogs/memberDialogs.tsx:25-31 | the add and edit member dialogs both show names, email, username and password |
| MemberDialogs.CredentialFieldsOffered | components/dialogs/memberDialogs.tsx:55-61 | the edit dialog offers username and password fields |
| MemberDialogs.AddMemberDialog | components/dialogs/memberDialogs.tsx:22-33 | the add dialog validates with the create schema and creates with the payload |
| MemberDialogs.AddMemberFieldsDeclared | components/dialogs/memberDialogs.tsx:22-33 | the add dialog's fields are exactly the create schema's keys |
| MemberDialogs.SameIdKeepsDefaults | components/dialogs/memberDialogs.tsx:50-70 | a new member with the same id keeps the first member's defaults |
| MemberDialogs.CredentialsNeverSent | components/dialogs/memberDialogs.tsx:52-61 | the update schema strips username and password, so an edit never sends them |
| MemberDialogs.FlexibleFormStartsFromMember | components/dialogs/memberDialogs.tsx:133-138 | without an explicit default, a name or email field starts from the member |
| MemberDialogs.FlexibleUnsuppliedFieldStartsUndefined | components/dialogs/memberDialogs.tsx:114-138 | a declared field nobody supplies starts `undefined` |
| BookDialogs.FieldNames | components/dialogs/bookDialogs.tsx:25-29 | the book dialogs show title, author and isbn |
| BookDialogs.AddBookDialog | components/dialogs/bookDialogs.tsx:22-31 | the add dialog validates with the create schema and creates with the payload |
| BookDialogs.BookFieldsDeclared | components/dialogs/bookDialogs.tsx:22-31 | the book fields are exactly the keys of both request schemas |
| BookDialogs.BookDefaults | components/dialogs/bookDialogs.tsx:59-63 | the edit defaults are the book's title, author and isbn |
| BookDialogs.SameIdKeepsDefaults | components/dialogs/bookDialogs.tsx:48-66 | a new book with the same id keeps the first book's defaults |
| BookDialogs.FlexibleFormStartsFromBook | components/dialogs/bookDialogs.tsx:127-132 | without an explicit default, a field starts from the book |
| TransactionDialogs.AddTransactionDialog | components/dialogs/transactionDialogs.tsx:20-28 | the checkout dialog validates with the create schema and creates with the payload |
| TransactionDialogs.AddTransactionFieldsDeclared | components/dialogs/transactionDialogs.tsx:20-28 | the checkout fields are exactly book id and member id |
| TransactionDialogs.HandleDelete | components/dialogs/transactionDialogs.tsx:41-53 | a return deletes the transaction first; success closes and notifies the caller, failure changes nothing else |
| TransactionDialogs.HandleOpenChange | components/dialogs/transactionDialogs.tsx:55-58 | an open change is kept and forwarded when the caller has a handler |
| TransactionDialogs.EmptySchemaAcceptsAll | components/dialogs/transactionDialogs.tsx:61 | the empty schema accepts any form with no data |
| TransactionDialogs.PickNothingIsEmpty | components/dialogs/transactionDialogs.tsx:61 | picking no key gives the empty schema |
| TransactionDialogs.ConfirmDialog | components/dialogs/transactionDialogs.tsx:60-68 | the confirmation has no fields and its submit runs the delete and always returns |
| TransactionDialogs.ConfirmProps | components/dialogs/transactionDialogs.tsx:70-80 | the confirmation is shown open as the caller or the state says |
| TransactionDialogs.Route | components/dialogs/transactionDialogs.tsx:70-80 | effects that are no open change pass through unchanged |
| TransactionDialogs.ConfirmStep | components/dialogs/transactionDialogs.tsx:60-68 | confirming runs the delete, toasts "Saved successfully" and requests a close |
| TransactionDialogs.ConfirmReturnRoutesOwnCalls | components/dialogs/transactionDialogs.tsx:60-80 | the confirmation's effects are the delete's effects followed by the saved toast and its close |
| TransactionDialogs.ReturnAlwaysReportsSaved | components/dialogs/transactionDialogs.tsx:41-68 | every confirmed return toasts "Saved successfully" |
| TransactionDialogs.EmptyConfirmReturn | components/dialogs/transactionDialogs.tsx:60-68 | any fieldless schema gives the same confirmation |
| TransactionDialogs.FailedReturnReportsSaved | components/dialogs/transactionDialogs.tsx:41-53 | a failed delete still toasts "Saved successfully" |
| TransactionDialogs.SuccessfulReturnClosesTwice | components/dialogs/transactionDialogs.tsx:41-58 | a successful return asks the caller to close twice |
| MemberLookupEdit.BuildEditDialog | components/dialogs/MemberLookupEdit.tsx:9-24 | the member edit screen updates the fetched member's id with the payload and nothing else |
| MemberLookupEdit.FetchedMemberDefaults | components/dialogs/MemberLookupEdit.tsx:30-34 | the edit screen starts from the same values as the member edit dialog, under the fetched id |
| MemberLookupEdit.SaveReturnsToLookup | components/dialogs/MemberLookupEdit.tsx:20-23 | an accepted save returns to lookup, never calls `onSuccess`, and sends one close request |
| BookLookupEdit.BuildEditDialog | components/dialogs/BookLookupEdit.tsx:9-23 | the book edit screen updates the fetched book's id, and on success calls the edit callback |
| BookLookupEdit.FetchedBookDefaults | components/dialogs/BookLookupEdit.tsx:28-32 | the edit screen starts from the same values as the book edit dialog, under the fetched id |
| BookLookupEdit.SaveReturnsToLookup | components/dialogs/BookLookupEdit.tsx:17-21 | an accepted save returns to lookup with the exact effect sequence, closing twice under a caller's handler |
| BookLookupEdit.FailedSaveStays | components/dialogs/BookLookupEdit.tsx:17-21 | a rejected update leaves the wrapper on the edit screen and only toasts |
| Json.Stringify | components/dialogs/DisplayResourceDialog.tsx:49 | `JSON.stringify` yields text for every value except `undefined` |
| Json.Members | components/dialogs/DisplayResourceDialog.tsx:49 | an object prints at most one member per entry |
| Json.UnescapeEscape | components/dialogs/DisplayResourceDialog.tsx:49 | reading back an escaped string gives the string |
| Json.UnquoteQuote | components/dialogs/DisplayResourceDialog.tsx:49 | parsing a quoted string gives the string |
| Json.UndefinedEntryVanishes | components/dialogs/DisplayResourceDialog.tsx:49 | an `undefined` entry leaves no trace in the printed object |
| Json.ElementsFollowItems | components/dialogs/DisplayResourceDialog.tsx:49 | each array element prints as its own JSON text, and `undefined` as `null` |
| Json.MembersAreDefinedEntries | components/dialogs/DisplayResourceDialog.tsx:49 | an object prints one `"key":value` member per defined entry, in the entries' order |
| Json.StringifyStringRoundTrip | components/dialogs/DisplayResourceDialog.tsx:49 | a printed string reads back as that string |
| Text.Trim | components/dialogs/DisplayResourceDialog.tsx:64 | trimming removes exactly the leading and trailing white space |
| Text.IntDecimalRoundTrip | components/dialogs/DisplayResourceDialog.tsx:37 | a number's decimal text reads back as the number |
| DisplayResource.SpaceCamel | components/dialogs/DisplayResourceDialog.tsx:59 | a space is inserted at each lower-upper boundary and nowhere else |
| DisplayResource.SpaceCamelKeepsSpaced | components/dialogs/DisplayResourceDialog.tsx:59 | spacing a key that has no lower-upper boundary leaves it unchanged |
| DisplayResource.SpaceCamelOfLowerUpper | components/dialogs/DisplayResourceDialog.tsx:59 | a run of lower-case letters followed by a run of capitals gets exactly one space, at the boundary |
| DisplayResource.BlankUnderscores | components/dialogs/DisplayResourceDialog.tsx:61 | every underscore becomes a space and nothing else changes |
| DisplayResource.CapitalizeFirst | components/dialogs/DisplayResourceDialog.tsx:63 | only the first character is upper-cased |
| DisplayResource.FormatKey | components/dialogs/DisplayResourceDialog.tsx:55-65 | a formatted key has no leading or trailing blank, no underscore and no lower-upper boundary left |
| DisplayResource.FormatKeyKeepsCharacters | components/dialogs/DisplayResourceDialog.tsx:55-65 | formatting keeps the key's visible characters in order (the first upper-cased), and an all-blank key formats to "" |
| DisplayResource.FormatKeyCamelExample | components/dialogs/DisplayResourceDialog.tsx:55-65 | `memberID` shows as "Member ID" |
| DisplayResource.FormatKeyUnderscoreExample | components/dialogs/DisplayResourceDialog.tsx:55-65 | `_id` shows as "id": the blank first character is capitalised and then trimmed |
| DisplayResource.FormatValue | components/dialogs/DisplayResourceDialog.tsx:23-53 | null, undefined and booleans become badges; NaN the text "NaN"; strings themselves; an array its elements' texts (null and undefined empty) joined by ", "; objects their JSON |
| DisplayResource.FormatArrayReadsBack | components/dialogs/DisplayResourceDialog.tsx:44-46 | a non-empty array whose element texts have no comma splits at its commas back into those texts, each after the first behind one space |
| DisplayResource.FormatValueReadsBack | components/dialogs/DisplayResourceDialog.tsx:32-38 | a formatted number reads back as the number, and a boolean badge says "true" exactly for `true` |
| DisplayResource.FormatShortArrays | components/dialogs/DisplayResourceDialog.tsx:44-46 | an empty array shows nothing and a one-string array shows its string |
| DisplayResource.Render | components/dialogs/DisplayResourceDialog.tsx:67-111 | a missing resource renders nothing, an empty one the empty message, otherwise one row per entry under the given or default title |
| DisplayResource.RowsOf | components/dialogs/DisplayResourceDialog.tsx:96-106 | there is one row per entry |
| DisplayResource.RowsFollowEntries | components/dialogs/DisplayResourceDialog.tsx:96-106 | each row shows its entry's formatted key and value, in entry order |
| ReportTables.Classify | app/lib/api/reports.ts:3-14 | a recognised text names the report whose wire name it is |
| ReportTables.ReportName | components/staff/ReportTables.tsx:81-93 | every report has a non-empty display name |
| ReportTables.DisplayName | components/staff/ReportTables.tsx:80-95 | a known report shows its name; any other text shows itself, and the name is empty only for the empty text |
| ReportTables.DisplayNameOfReport | components/staff/ReportTables.tsx:80-95 | a report's wire name shows its display name |
| ReportTables.TableFor | components/staff/ReportTables.tsx:97-123 | a recognised report selects its table; any other text selects none |
| ReportTables.TableByPrefix | components/staff/ReportTables.tsx:97-112 | the transactions, members and books tables are selected exactly by their wire-name prefixes |
| ReportTables.DaysOverdue | components/staff/ReportTables.tsx:131-132 | the days overdue are the whole days, rounded down, since the due time, and there is no count (shown as NaN) for an unreadable date |
| ReportTables.OverdueTextReadsBack | components/staff/ReportTables.tsx:151 | the badge text reads back as the day count, and says "day" exactly for one day |
| ReportTables.TransactionCard | components/staff/ReportTables.tsx:125-169 | a transaction card is red, alerting and badged exactly for the overdue report, with the days-overdue badge |
| ReportTables.BookCard | components/staff/ReportTables.tsx:171-216 | a book card has two badges: the report's status badge and an outline badge; its colour follows the report |
| ReportTables.MemberCard | components/staff/ReportTables.tsx:218-262 | a member card has two badges: the report's status badge and an outline badge; its colour follows the report |
| ReportTables.OverdueSummaryCard | components/staff/ReportTables.tsx:264-302 | an overdue summary card is red, alerting and carries a destructive badge |
| ReportTables.BorrowingSummaryCard | components/staff/ReportTables.tsx:304-339 | a borrowing summary card is blue, with no alert and no badge |
| ReportTables.TableContent | components/staff/ReportTables.tsx:97-123 | an unknown report shows the unsupported message naming it; a known one shows its table's cards |
| ReportTables.CardsFor | components/staff/ReportTables.tsx:130 | a table shows one card per row |
| ReportTables.CardsFollowRows | components/staff/ReportTables.tsx:130 | appending rows appends their cards |
| ReportTables.RedMeansOverdue | components/staff/ReportTables.tsx:126-290 | a card is red exactly when its report is an overdue report, and red cards carry a destructive badge |
| ReportTables.ReportCardsMarkOverdue | components/staff/ReportTables.tsx:97-123 | every card of an overdue report is red and carries a destructive badge |
| ReportTables.Render | components/staff/ReportTables.tsx:39-77 | the debug log's probe of the first row throws first, even while loading, for a null or undefined row or one with its own `hasOwnProperty` entry; then loading wins over error, error over empty data, and a known report throws on any null or undefined row, or on a row with an object among the fields its cards show; otherwise the table is drawn, and the messages name the error and the report |
| ReportTables.NullRowsThrow | components/staff/ReportTables.tsx:41-143 | a null or undefined row is never drawn: as the first row it throws whatever `loading` and `error` say, and anywhere in a known report it throws once the data is shown |
| ReportTables.ObjectFieldThrows | components/staff/ReportTables.tsx:125-339 | a shown report whose card field holds an object, even inside an array, throws instead of drawing its cards |
| ReportTables.EmptyReportNamesKind | components/staff/ReportTables.tsx:65-71 | the empty message names the report by its display name |

## Left out

- Schemas.SafeParse: like zod, the model skips the refinements after a field of the wrong type or a missing field,
  and otherwise runs them after the fields' own checks. Library default messages (type mismatch, too short) are stand-in texts; only the messages the source writes are
  exact.
- Schemas.Extend: an overridden key is listed after the kept ones, where `{...shape, ...added}` keeps it in place.
  Only the order of issues could change, and no schema here overrides a key. zod 4.0 drops the refinements on
  `.extend` and the model follows it. zod 4.1 and later throw on a refined schema instead, and the source extends
  only an unrefined one.
- Values.Value: every non-integer number, fractions included, is `NaN`, and integers are unbounded. The id fields
  use `.int()`, which a fraction fails just as `NaN` does. The problem-details `status` is a plain `z.number()`,
  which a fraction passes (next line).
- Common.ProblemDetailsAccepts: a fractional `status` such as 400.5 passes `z.number()` in the source but reads as
  `NaN` here and is rejected. The model's numbers are integers throughout: their text, their JSON and the date
  arithmetic are integer operations.
- DisplayResource.FormatValue: a number prints as its exact decimal digits. JavaScript's `toString` prints
  magnitudes of 10^21 and above in exponent form (`1e+21`), and integers above 2^53 only up to the digits that
  identify the floating-point value. The same holds for numbers in `Json.Stringify` and in the report cards.
- TransactionSchemas.DaysUntilDue: JavaScript divides milliseconds in floating point and then rounds. The model
  divides exactly. The two agree whenever the span is at most 2^53 ms, about 104 million days. With the clock at the
  present, every valid JavaScript date is within that span, because a date is at most 8.64 × 10^15 ms from 1970.
  The model's date oracle is not bounded to that range.
- ReportTables.DaysOverdue: the same floating-point note as for `DaysUntilDue`, which covers its unvalidated rows
  too. `Date.now()` is read once per render, not once per row.
- FieldInference.Classify: the zod internals are reduced to the type tags the inference reads. Reading a tag
  cannot fail in the model, so the `catch` fallback at test/SchemaFormDialog.tsx:76-79 has no counterpart.
- The id lookup schema (`IdLookupSchema`) is imported from `app/lib/schemas/common.ts`, which does not define it. It
  is a parameter of the lookup wrapper.
- react-hook-form itself is not part of this model. Its submit wrapper is modelled only as far as this form uses it: the fields carry no rules, so re-validation clears their errors, and an error left on any other key stops the submit. The form-level "root" key follows react-hook-form 7, which drops it before deciding. The lemmas about a submit's calls and closing are stated for a submit that is not blocked; `FormDialog.BlockedSubmitDoesNothing` covers the blocked one.
  The submitting flag, the "Saving…" label, icons, class names and layout are left out.
- React keys (`transactionID || index`) and element identity are left out. This is visible: the flexible edit
  dialogs (components/dialogs/memberDialogs.tsx:111, components/dialogs/bookDialogs.tsx:107), the return dialog
  (components/dialogs/transactionDialogs.tsx:60) and `withLookup`'s id and edit dialogs
  (components/dialogs/LookupEditDialog.tsx:47-58) call `createSchemaDialog` during render. So every re-render of
  their parent mounts a new dialog component. An open uncontrolled dialog then closes, and typed values go back to
  the defaults. The model keeps one dialog state across renders.
- `toast`, `console.log`, `console.warn` and `console.error`: a toast is an effect with its kind and text, and
  console output is left out. The TypeError that `ReportTable`'s debug log can throw is modelled.
- FormDialog.Resync: the effect's dependency is the `JSON.stringify` text of both defaults. The model compares their
  defined entries instead. Both ignore `undefined` entries, but the model ignores key order and tells apart values
  that print alike (`NaN` and `null`, a nested `undefined` and an absent key).
- FormDialog.Placeholder: a field named after an `Object.prototype` member (such as `"constructor"`) would find a
  function in the placeholders object. The model treats such a name as having no instance placeholder.
- `toLocaleDateString` and `Date.now` are clock parameters, because their results depend on the locale and the
  time.
- `toUpperCase` is modelled for ASCII letters only. Other characters are left as they are.
- Json.Stringify: lone surrogates, `toJSON` methods, cycles and `-0` are left out.
- Strings are sequences of Unicode scalar values, where JavaScript counts UTF-16 code units. This shows in lengths:
  `.min(3)` in `MemberSchemas.CreateMemberAccepts` counts "a😀" as 2 characters, where zod counts 3.
- ReportTables.DisplayName: keys inherited from `Object.prototype` (such as `"constructor"`) would find a function
  in the name table. The model treats them as unknown texts.
- ReportTables.TransactionCard: the card functions show an object-valued field as empty text, where React would
  throw. `ReportTables.Render` throws before any card with such a field is drawn.
- ReportTables: badge class names other than the card's colour, alert and badge variants are left out.
- EntityDialogs.EditSendsDeclaredValues: this is stated once for any schema. There is no separate lemma that
  instantiates it on each constant member or book schema.
- The data-fetching hooks and API wrappers (`use-report-data`, `app/lib/api/*`) are parameters. Their HTTP
  behaviour is left out.
- `components/dialogs/SchemaFormDialog.tsx` is not part of this model. Its copy under `test/` is modelled in its
  place.

=== FILE: badges.dfy ===
/** The badge component the detail and report views show: a variant and its text. */
module Badges {

  datatype Variant = Default | Secondary | Destructive | Outline

  datatype Badge = Badge(variant: Variant, text: string)
}

=== FILE: book.dfy ===
/** Books: the entity schema, the create and update request schemas built from it,
    and the `BookModel` wrapper (app/lib/schemas/book.ts). */
module BookSchemas {
  import opened Wrappers
  import opened Values
  import opened Schemas
  import opened Common

  datatype Book = Book(bookID: int, isbn: string, bookName: string, authorName: string)

  const BookIdField := ("bookID", Field(PositiveInteger, false))
  const IsbnField := ("isbn", Field(NonEmptyString, false))
  const BookNameField := ("bookName", Field(NonEmptyString, false))
  const AuthorNameField := ("authorName", Field(NonEmptyString, false))

  const BookSchema := ObjectSchema([BookIdField, IsbnField, BookNameField, AuthorNameField], [])

  /** `BookSchema.omit({bookID})`. */
  const CreateBookSchema := Omit(BookSchema, {"bookID"})

  /** `BookSchema.partial().omit({bookID})`. */
  const UpdateBookSchema := Omit(Partial(BookSchema), {"bookID"})

  lemma BookEntries()
    ensures forall e :: e in BookSchema.shape <==>
      e == BookIdField || e == IsbnField || e == BookNameField || e == AuthorNameField
    ensures Keys(BookSchema) == {"bookID", "isbn", "bookName", "authorName"}
  {
    var shape := BookSchema.shape;
    assert shape[0] in shape && shape[1] in shape && shape[2] in shape && shape[3] in shape;
  }

  ghost predicate HasCreateEntries(s: ObjectSchema) {
    && s.refinements == []
    && forall e :: e in s.shape <==> e == IsbnField || e == BookNameField || e == AuthorNameField
  }

  ghost predicate HasUpdateEntries(s: ObjectSchema) {
    && s.refinements == []
    && forall e :: e in s.shape <==>
      e == ("isbn", Field(NonEmptyString, true)) || e == ("bookName", Field(NonEmptyString, true))
      || e == ("authorName", Field(NonEmptyString, true))
  }

  lemma CreateBookEntries()
    ensures HasCreateEntries(CreateBookSchema)
  {
    BookEntries();
  }

  lemma UpdateBookEntries()
    ensures HasUpdateEntries(UpdateBookSchema)
  {
    BookEntries();
    var p := Partial(BookSchema);
    assert forall e :: e in p.shape <==>
      e == ("bookID", Field(PositiveInteger, true)) || e == ("isbn", Field(NonEmptyString, true))
      || e == ("bookName", Field(NonEmptyString, true)) || e == ("authorName", Field(NonEmptyString, true));
  }

  lemma BookSchemaAccepts(r: Rec, fm: Formats)
    ensures Valid(BookSchema, r, fm) <==>
      && At(r, "bookID").Num? && SafePositive(At(r, "bookID").n)
      && NonEmptyText(At(r, "isbn")) && NonEmptyText(At(r, "bookName")) && NonEmptyText(At(r, "authorName"))
  {
    BookEntries();
  }

  lemma CreateEntriesKeys(s: ObjectSchema)
    requires HasCreateEntries(s)
    ensures Keys(s) == {"isbn", "bookName", "authorName"}
  {
    assert IsbnField in s.shape && BookNameField in s.shape && AuthorNameField in s.shape;
  }

  lemma UpdateEntriesKeys(s: ObjectSchema)
    requires HasUpdateEntries(s)
    ensures Keys(s) == {"isbn", "bookName", "authorName"}
  {
    assert ("isbn", Field(NonEmptyString, true)) in s.shape;
    assert ("bookName", Field(NonEmptyString, true)) in s.shape;
    assert ("authorName", Field(NonEmptyString, true)) in s.shape;
  }

  /** Both request schemas declare the three texts and no id. */
  lemma RequestKeys()
    ensures Keys(CreateBookSchema) == {"isbn", "bookName", "authorName"}
    ensures Keys(UpdateBookSchema) == {"isbn", "bookName", "authorName"}
  {
    CreateBookEntries();
    CreateEntriesKeys(CreateBookSchema);
    UpdateBookEntries();
    UpdateEntriesKeys(UpdateBookSchema);
  }

  lemma CreateEntriesFacts(s: ObjectSchema, r: Rec, fm: Formats)
    requires HasCreateEntries(s)
    ensures Keys(s) == {"isbn", "bookName", "authorName"}
    ensures Valid(s, r, fm) <==>
      NonEmptyText(At(r, "isbn")) && NonEmptyText(At(r, "bookName")) && NonEmptyText(At(r, "authorName"))
  {
    assert IsbnField in s.shape && BookNameField in s.shape && AuthorNameField in s.shape;
  }

  lemma UpdateEntriesFacts(s: ObjectSchema, r: Rec, fm: Formats)
    requires HasUpdateEntries(s)
    ensures Keys(s) == {"isbn", "bookName", "authorName"}
    ensures Valid(s, r, fm) <==>
      && (At(r, "isbn") == Undefined || NonEmptyText(At(r, "isbn")))
      && (At(r, "bookName") == Undefined || NonEmptyText(At(r, "bookName")))
      && (At(r, "authorName") == Undefined || NonEmptyText(At(r, "authorName")))
  {
    assert ("isbn", Field(NonEmptyString, true)) in s.shape;
    assert ("bookName", Field(NonEmptyString, true)) in s.shape;
    assert ("authorName", Field(NonEmptyString, true)) in s.shape;
  }

  /** Creating a book takes the three texts, all required, and no id. */
  lemma CreateBookAccepts(r: Rec, fm: Formats)
    ensures Keys(CreateBookSchema) == {"isbn", "bookName", "authorName"}
    ensures Valid(CreateBookSchema, r, fm) <==>
      NonEmptyText(At(r, "isbn")) && NonEmptyText(At(r, "bookName")) && NonEmptyText(At(r, "authorName"))
  {
    CreateBookEntries();
    CreateEntriesFacts(CreateBookSchema, r, fm);
  }

  /** Updating a book takes the same three texts, each optional but checked when present. */
  lemma UpdateBookAccepts(r: Rec, fm: Formats)
    ensures Keys(UpdateBookSchema) == {"isbn", "bookName", "authorName"}
    ensures Valid(UpdateBookSchema, r, fm) <==>
      && (At(r, "isbn") == Undefined || NonEmptyText(At(r, "isbn")))
      && (At(r, "bookName") == Undefined || NonEmptyText(At(r, "bookName")))
      && (At(r, "authorName") == Undefined || NonEmptyText(At(r, "authorName")))
  {
    UpdateBookEntries();
    UpdateEntriesFacts(UpdateBookSchema, r, fm);
  }

  /** Every record the create schema accepts, the update schema accepts too. */
  lemma CreateValidIsUpdateValid(r: Rec, fm: Formats)
    requires Valid(CreateBookSchema, r, fm)
    ensures Valid(UpdateBookSchema, r, fm)
  {
    CreateBookAccepts(r, fm);
    UpdateBookAccepts(r, fm);
  }

  function BookRecord(b: Book): Rec {
    map["bookID" := Num(b.bookID), "isbn" := Str(b.isbn),
        "bookName" := Str(b.bookName), "authorName" := Str(b.authorName)]
  }

  /** A book as a JavaScript object, with the keys in declaration order. */
  function BookObject(b: Book): Value {
    Obj([("bookID", Num(b.bookID)), ("isbn", Str(b.isbn)),
         ("bookName", Str(b.bookName)), ("authorName", Str(b.authorName))])
  }

  /** Reading a field off a book object gives that field of the book. */
  lemma BookObjectFields(b: Book)
    ensures Get(BookObject(b), "bookID") == Num(b.bookID)
    ensures Get(BookObject(b), "isbn") == Str(b.isbn)
    ensures Get(BookObject(b), "bookName") == Str(b.bookName)
    ensures Get(BookObject(b), "authorName") == Str(b.authorName)
  {
    var e := BookObject(b).entries;
    LookupFindsFirst(e, "bookID", 0);
    LookupFindsFirst(e, "isbn", 1);
    LookupFindsFirst(e, "bookName", 2);
    LookupFindsFirst(e, "authorName", 3);
  }

  predicate BookValid(b: Book) {
    SafePositive(b.bookID) && b.isbn != "" && b.bookName != "" && b.authorName != ""
  }

  /** `BookModel`: a validated book behind accessors. */
  datatype BookModel = BookModel(props: Book)

  function Wrap(b: Book): BookModel {
    BookModel(b)
  }

  function ToJson(model: BookModel): Book {
    model.props
  }

  /** `toJSON` gives back exactly the book that was wrapped. */
  lemma WrapToJsonIdentity(b: Book)
    ensures ToJson(Wrap(b)) == b
  {
  }

  /** `displayTitle`: the title, " by ", the author. */
  function DisplayTitle(model: BookModel): (r: string)
    ensures |r| == |model.props.bookName| + 4 + |model.props.authorName|
    ensures r[..|model.props.bookName|] == model.props.bookName
    ensures r[|model.props.bookName|..|model.props.bookName| + 4] == " by "
    ensures r[|model.props.bookName| + 4..] == model.props.authorName
  {
    model.props.bookName + " by " + model.props.authorName
  }

  /** `BookModel.parse`: a model, or None where the library throws. */
  function Parse(raw: Rec, fm: Formats): (r: Option<BookModel>)
    ensures r.Some? <==> Valid(BookSchema, raw, fm)
    ensures r.Some? ==> BookValid(r.value.props)
    ensures r.Some? ==> BookRecord(r.value.props) == map k | k in raw && k in Keys(BookSchema) :: raw[k]
  {
    BookSchemaAccepts(raw, fm);
    if !Valid(BookSchema, raw, fm) then None
    else
      BookEntries();
      var b := Book(raw["bookID"].n, raw["isbn"].s, raw["bookName"].s, raw["authorName"].s);
      assert BookRecord(b) == map k | k in raw && k in Keys(BookSchema) :: raw[k];
      Some(Wrap(b))
  }

  /** Parsing a book's own record succeeds exactly for valid books and gives it back. */
  lemma ParseRoundTrip(b: Book, fm: Formats)
    ensures Parse(BookRecord(b), fm) == (if BookValid(b) then Some(Wrap(b)) else None)
  {
    BookSchemaAccepts(BookRecord(b), fm);
  }
}

=== FILE: book_dialogs.dfy ===
/** The book dialogs (components/dialogs/bookDialogs.tsx): the add dialog, the edit
    wrapper's dialog, and the flexible edit dialog. The API calls `createBook` and
    `updateBook` are parameters. */
module BookDialogs {
  import opened Wrappers
  import opened Values
  import opened Effects
  import opened FieldInference
  import opened Schemas
  import opened BookSchemas
  import opened EntityDialogs
  import FormDialog

  /** The add and edit forms share these three fields. */
  const BookFields := [
    Plain("bookName", "Book Name", "Enter book title"),
    Plain("authorName", "Author Name", "Enter author name"),
    Plain("isbn", "ISBN", "Enter ISBN")]

  lemma FieldNames()
    ensures FormDialog.Names(BookFields) == {"bookName", "authorName", "isbn"}
  {
    var fs := BookFields;
    assert fs[0] in fs && fs[1] in fs && fs[2] in fs;
  }

  /** `AddBookDialog`: creates a book from the create schema's payload. */
  function AddBookDialog(fm: Formats, create: Rec -> Outcome): (cfg: FormDialog.Config)
    ensures cfg.title == "Add Book" && cfg.fields == BookFields && cfg.defaults.None?
    ensures forall r :: cfg.schema(r) == SafeParse(CreateBookSchema, r, fm)
    ensures forall p :: cfg.onSubmit(p) == Invocation([CreateCalled(p)], create(p))
  {
    FormDialog.Config(Validator(CreateBookSchema, fm), Describe(CreateBookSchema), BookFields,
      "Add Book", p => Invocation([CreateCalled(p)], create(p)), None)
  }

  /** Every configured book field is declared by both the create and the update
      schema, and each schema declares nothing else. */
  lemma BookFieldsDeclared()
    ensures FormDialog.Names(BookFields) == Keys(CreateBookSchema)
    ensures FormDialog.Names(BookFields) == Keys(UpdateBookSchema)
  {
    FieldNames();
    CreateBookEntries();
    UpdateBookEntries();
    FieldsMatchEntries(BookFields, CreateBookSchema, UpdateBookSchema);
  }

  lemma FieldsMatchEntries(fields: seq<FormDialog.FieldConfig>, c: ObjectSchema, u: ObjectSchema)
    requires FormDialog.Names(fields) == {"bookName", "authorName", "isbn"}
    requires HasCreateEntries(c) && HasUpdateEntries(u)
    ensures FormDialog.Names(fields) == Keys(c) && FormDialog.Names(fields) == Keys(u)
  {
    CreateEntriesKeys(c);
    UpdateEntriesKeys(u);
  }

  /** The factory defaults the edit form takes from a book. */
  function BookDefaults(b: Book): (r: Rec)
    ensures r.Keys == {"bookName", "authorName", "isbn"}
    ensures r["bookName"] == Str(b.bookName) && r["authorName"] == Str(b.authorName) && r["isbn"] == Str(b.isbn)
  {
    BookFieldsRecord(Str(b.bookName), Str(b.authorName), Str(b.isbn))
  }

  /** The record of a book's title, author and ISBN that the edit forms start from. */
  function BookFieldsRecord(bookName: Value, authorName: Value, isbn: Value): Rec {
    map["bookName" := bookName, "authorName" := authorName, "isbn" := isbn]
  }

  lemma BookFieldsRecordAgrees(n: Value, a: Value, i: Value, n': Value, a': Value, i': Value)
    requires n == n' && a == a' && i == i'
    ensures BookFieldsRecord(n, a, i) == BookFieldsRecord(n', a', i')
  {
  }

  /** The dialog `EditBookDialogWrapper` builds for book `b`. */
  function EditBookDialog(b: Book, fm: Formats, update: (Value, Rec) -> Outcome): FormDialog.Config {
    EditDialog(UpdateBookSchema, "Edit Book", BookFields, Num(b.bookID), Some(BookDefaults(b)), fm, update)
  }

  /** The wrapper's memo: a dialog built for a book keeps that book's fields as
      defaults while the id stays the same. */
  lemma SameIdKeepsDefaults(first: Book, later: Book, fm: Formats, update: (Value, Rec) -> Outcome)
    requires first.bookID == later.bookID
    ensures var kept := Memo(Some((first.bookID, first)), later.bookID, later).1;
      EditBookDialog(kept, fm, update).defaults == Some(BookDefaults(first))
  {
  }

  /** `FlexibleEditBookDialog`'s dialog. */
  function FlexibleEditBookDialog(b: Book, fm: Formats, update: (Value, Rec) -> Outcome, hasOnSuccess: bool): FormDialog.Config {
    FlexibleDialog(UpdateBookSchema, "Edit Book", BookFields, Num(b.bookID), fm, update, hasOnSuccess)
  }

  /** The flexible form starts from the caller's defaults over the book's fields. */
  lemma FlexibleFormStartsFromBook(b: Book, fm: Formats, update: (Value, Rec) -> Outcome, hasOnSuccess: bool,
                                   defaults: Option<Rec>, placeholders: Option<map<string, string>>,
                                   open: Option<bool>, hasOnOpenChange: bool, k: string)
    requires k in BookDefaults(b)
    ensures var merged := FormDialog.MergedDefaults(FlexibleEditBookDialog(b, fm, update, hasOnSuccess),
                                                    FlexibleProps(BookDefaults(b), defaults, placeholders, open, hasOnOpenChange));
      merged[k] == if k in defaults.GetOr(map[]) then defaults.GetOr(map[])[k] else BookDefaults(b)[k]
  {
    FlexibleFormStart(UpdateBookSchema, "Edit Book", BookFields, Num(b.bookID), fm, update, hasOnSuccess,
      BookDefaults(b), defaults, placeholders, open, hasOnOpenChange, k);
  }
}

=== FILE: book_lookup_edit.dfy ===
/** `EditBookByIdDialog` (components/dialogs/BookLookupEdit.tsx): the lookup wrapper
    over `getBook`, with an edit dialog that updates the fetched book and then calls
    the wrapper's `onSuccess`. `getBook` and `updateBook` are parameters. */
module BookLookupEdit {
  import opened Wrappers
  import opened Values
  import opened Effects
  import opened Schemas
  import opened BookSchemas
  import opened EntityDialogs
  import FormDialog
  import LookupEdit
  import BookDialogs

  /** `buildBookEditDialog`: the update schema, the three book fields, and a submit that
      updates the book under the fetched object's `bookID` and, once that succeeds,
      calls `onSuccess`. */
  function BuildEditDialog(book: Value, fm: Formats, update: (Value, Rec) -> Outcome): (cfg: FormDialog.Config)
    ensures cfg.title == "Edit Book" && cfg.fields == BookDialogs.BookFields && cfg.defaults.None?
    ensures forall p :: cfg.onSubmit(p).outcome == update(Get(book, "bookID"), p)
    ensures forall p :: update(Get(book, "bookID"), p).Returned? ==>
      cfg.onSubmit(p).effects == [UpdateCalled(Get(book, "bookID"), p), SuccessCalled]
    ensures forall p :: update(Get(book, "bookID"), p).Raised? ==>
      cfg.onSubmit(p).effects == [UpdateCalled(Get(book, "bookID"), p)]
  {
    FlexibleDialog(UpdateBookSchema, "Edit Book", BookDialogs.BookFields, Get(book, "bookID"), fm, update, true)
  }

  /** `defaultsFrom`: the title, author and ISBN read off the fetched object. */
  function DefaultsFrom(book: Value): Rec {
    BookDialogs.BookFieldsRecord(Get(book, "bookName"), Get(book, "authorName"), Get(book, "isbn"))
  }

  /** For a fetched book, the edit screen starts from the same values the book edit
      dialog takes as defaults, and submits to that book's id. */
  lemma FetchedBookDefaults(b: Book)
    ensures DefaultsFrom(BookObject(b)) == BookDialogs.BookDefaults(b)
    ensures Get(BookObject(b), "bookID") == Num(b.bookID)
  {
    var o := BookObject(b);
    BookObjectFields(b);
    BookDialogs.BookFieldsRecordAgrees(Get(o, "bookName"), Get(o, "authorName"), Get(o, "isbn"),
      Str(b.bookName), Str(b.authorName), Str(b.isbn));
  }

  /** The lookup: `getBook` under the wrapper's title. */
  function SubmitLookup(props: LookupEdit.Props, st: LookupEdit.State, dialog: FormDialog.DialogState,
                        idSchema: Rec -> ParseOutcome, idShape: FieldInference.Shape, getBook: Value -> Outcome): LookupEdit.Transition
  {
    LookupEdit.SubmitIdDialog(props, st, dialog, "Edit Book", idSchema, idShape, getBook)
  }

  /** Saving the edit screen: the wrapper's edit dialog built from the held book. */
  function SubmitEdit(props: LookupEdit.Props, st: LookupEdit.State, dialog: FormDialog.DialogState,
                      fm: Formats, update: (Value, Rec) -> Outcome): LookupEdit.Transition
  {
    LookupEdit.SubmitEditDialog(props, st, dialog, BuildEditDialog(st.resource, fm, update), DefaultsFrom)
  }

  /** A book save the API accepts brings the wrapper back to the lookup screen. The
      dialog's `onSuccess` resets the wrapper before the save is reported, so a caller
      with its own `onOpenChange` is asked to close twice: once by that reset and once
      by the factory. Without one, the wrapper closes itself and nothing is forwarded. */
  lemma SaveReturnsToLookup(props: LookupEdit.Props, st: LookupEdit.State, dialog: FormDialog.DialogState,
                            fm: Formats, update: (Value, Rec) -> Outcome)
    requires !FormDialog.Blocked(BookDialogs.BookFields, dialog.errors)
    requires SafeParse(UpdateBookSchema, dialog.values, fm).Parsed?
    requires update(Get(st.resource, "bookID"), FormDialog.DropUndefined(SafeParse(UpdateBookSchema, dialog.values, fm).data)).Returned?
    ensures var r := SubmitEdit(props, st, dialog, fm, update);
      r.state.phase == LookupEdit.LookupPhase && r.state.resource == Null
    ensures var payload := FormDialog.DropUndefined(SafeParse(UpdateBookSchema, dialog.values, fm).data);
      var r := SubmitEdit(props, st, dialog, fm, update);
      props.hasOnOpenChange ==>
        r.effects == [SubmitCalled(payload), UpdateCalled(Get(st.resource, "bookID"), payload), OpenChangeCalled(false),
                      Notify(SuccessNotice, FormDialog.SavedNotice), OpenChangeCalled(false)]
    ensures var payload := FormDialog.DropUndefined(SafeParse(UpdateBookSchema, dialog.values, fm).data);
      var r := SubmitEdit(props, st, dialog, fm, update);
      !props.hasOnOpenChange ==>
        && r.effects == [SubmitCalled(payload), UpdateCalled(Get(st.resource, "bookID"), payload),
                         Notify(SuccessNotice, FormDialog.SavedNotice)]
        && !r.state.dialogOpen
  {
    SaveForSchema(UpdateBookSchema, props, st, dialog, fm, update);
    var payload := FormDialog.DropUndefined(SafeParse(UpdateBookSchema, dialog.values, fm).data);
    ResetThenClose(props, st, SubmitCalled(payload), UpdateCalled(Get(st.resource, "bookID"), payload),
      Notify(SuccessNotice, FormDialog.SavedNotice));
  }

  lemma SaveForSchema(s: ObjectSchema, props: LookupEdit.Props, st: LookupEdit.State, dialog: FormDialog.DialogState,
                      fm: Formats, update: (Value, Rec) -> Outcome)
    requires !FormDialog.Blocked(BookDialogs.BookFields, dialog.errors)
    requires SafeParse(s, dialog.values, fm).Parsed?
    requires update(Get(st.resource, "bookID"), FormDialog.DropUndefined(SafeParse(s, dialog.values, fm).data)).Returned?
    ensures var payload := FormDialog.DropUndefined(SafeParse(s, dialog.values, fm).data);
      var id := Get(st.resource, "bookID");
      var done := LookupEdit.EditDone(props, st);
      var closed := LookupEdit.HandleDialogClose(props, done.state, false);
      LookupEdit.SubmitEditDialog(props, st, dialog, FlexibleDialog(s, "Edit Book", BookDialogs.BookFields, id, fm, update, true), DefaultsFrom)
        == LookupEdit.Transition(closed.state, [SubmitCalled(payload), UpdateCalled(id, payload)] + done.effects
                                               + [Notify(SuccessNotice, FormDialog.SavedNotice)] + closed.effects)
  {
    var id := Get(st.resource, "bookID");
    var cfg := FlexibleDialog(s, "Edit Book", BookDialogs.BookFields, id, fm, update, true);
    var payload := FormDialog.DropUndefined(SafeParse(s, dialog.values, fm).data);
    assert cfg.schema(dialog.values) == SafeParse(s, dialog.values, fm);
    assert cfg.onSubmit(payload) == Invocation([UpdateCalled(id, payload)] + [SuccessCalled], update(id, payload));
    LookupEdit.ReportingSaveDispatch(props, st, dialog, cfg, DefaultsFrom, [UpdateCalled(id, payload)]);
    assert [SubmitCalled(payload)] + [UpdateCalled(id, payload)] == [SubmitCalled(payload), UpdateCalled(id, payload)];
  }

  /** The reset by `onSuccess` followed by the factory's close request, after the
      submit and update calls `a` and `b` and around the notice `n`. */
  lemma ResetThenClose(props: LookupEdit.Props, st: LookupEdit.State, a: Effect, b: Effect, n: Effect)
    ensures var done := LookupEdit.EditDone(props, st);
      var closed := LookupEdit.HandleDialogClose(props, done.state, false);
      && closed.state.phase == LookupEdit.LookupPhase && closed.state.resource == Null
      && (props.hasOnOpenChange ==> [a, b] + done.effects + [n] + closed.effects == [a, b, OpenChangeCalled(false), n, OpenChangeCalled(false)])
      && (!props.hasOnOpenChange ==> [a, b] + done.effects + [n] + closed.effects == [a, b, n] && !closed.state.dialogOpen)
  {
  }

  /** A book save the API refuses leaves the wrapper exactly as it was, on the edit
      screen with the book still held, and never calls `onSuccess`. */
  lemma FailedSaveStays(props: LookupEdit.Props, st: LookupEdit.State, dialog: FormDialog.DialogState,
                        fm: Formats, update: (Value, Rec) -> Outcome)
    requires !FormDialog.Blocked(BookDialogs.BookFields, dialog.errors)
    requires SafeParse(UpdateBookSchema, dialog.values, fm).Parsed?
    requires update(Get(st.resource, "bookID"), FormDialog.DropUndefined(SafeParse(UpdateBookSchema, dialog.values, fm).data)).Raised?
    ensures var payload := FormDialog.DropUndefined(SafeParse(UpdateBookSchema, dialog.values, fm).data);
      SubmitEdit(props, st, dialog, fm, update)
        == LookupEdit.Transition(st, [SubmitCalled(payload), UpdateCalled(Get(st.resource, "bookID"), payload),
                                      Notify(ErrorNotice, FormDialog.FailureNotice)])
  {
    FailureForSchema(UpdateBookSchema, props, st, dialog, fm, update);
  }

  lemma FailureForSchema(s: ObjectSchema, props: LookupEdit.Props, st: LookupEdit.State, dialog: FormDialog.DialogState,
                         fm: Formats, update: (Value, Rec) -> Outcome)
    requires !FormDialog.Blocked(BookDialogs.BookFields, dialog.errors)
    requires SafeParse(s, dialog.values, fm).Parsed?
    requires update(Get(st.resource, "bookID"), FormDialog.DropUndefined(SafeParse(s, dialog.values, fm).data)).Raised?
    ensures var payload := FormDialog.DropUndefined(SafeParse(s, dialog.values, fm).data);
      var id := Get(st.resource, "bookID");
      LookupEdit.SubmitEditDialog(props, st, dialog, FlexibleDialog(s, "Edit Book", BookDialogs.BookFields, id, fm, update, true), DefaultsFrom)
        == LookupEdit.Transition(st, [SubmitCalled(payload), UpdateCalled(id, payload), Notify(ErrorNotice, FormDialog.FailureNotice)])
  {
    var id := Get(st.resource, "bookID");
    var cfg := FlexibleDialog(s, "Edit Book", BookDialogs.BookFields, id, fm, update, true);
    var payload := FormDialog.DropUndefined(SafeParse(s, dialog.values, fm).data);
    assert cfg.schema(dialog.values) == SafeParse(s, dialog.values, fm);
    assert cfg.onSubmit(payload) == Invocation([UpdateCalled(id, payload)], update(id, payload));
  }
}

=== FILE: common.dfy ===
/** The shared validators of app/lib/schemas/common.ts. */
module Common {
  import opened Values
  import opened Schemas

  /** `number().int().positive()`. */
  const PositiveInteger: Check := PositiveInt

  /** `string().min(1, 'This field is required')`. */
  const RequiredMessage := "This field is required"
  const NonEmptyString: Check := MinLength(1, RequiredMessage)

  /** The problem-details response body of section 3.1 of RFC 7807, with its `data`
      and `invalid-params` extension members. */
  const ProblemDetailsSchema := ObjectSchema([
    ("type", Field(AnyString, false)),
    ("title", Field(AnyString, false)),
    ("status", Field(AnyNumber, false)),
    ("detail", Field(AnyString, false)),
    ("data", Field(Anything, true)),
    ("invalid-params", Field(StringArray, true))
  ], [])

  /** Exactly the safe integers above zero pass; NaN, fractions, zero, integers beyond
      2^53 - 1 and non-numbers fail. */
  lemma PositiveIntegerAccepts(v: Value, fm: Formats)
    ensures CheckPasses(PositiveInteger, v, fm) <==> exists n :: 0 < n <= MaxSafeInteger && v == Num(n)
    ensures CheckPasses(PositiveInteger, Num(MaxSafeInteger), fm)
    ensures !CheckPasses(PositiveInteger, Num(MaxSafeInteger + 1), fm)
  {
    if v.Num? && SafePositive(v.n) {
      assert v == Num(v.n);
    }
  }

  /** Exactly the strings of length at least one pass, with no trimming: " " passes. A
      short string is reported with the field's message, a missing value is not. */
  lemma NonEmptyStringAccepts(key: string, v: Value, fm: Formats)
    ensures CheckPasses(NonEmptyString, v, fm) <==> NonEmptyText(v)
    ensures CheckPasses(NonEmptyString, Str(" "), fm)
    ensures FieldIssues(key, Field(NonEmptyString, false), Str(""), fm) == [Issue([Key(key)], RequiredMessage)]
    ensures FieldIssues(key, Field(NonEmptyString, false), Undefined, fm)[0].message != RequiredMessage
  {
  }

  /** A value `NonEmptyString` accepts. */
  predicate NonEmptyText(v: Value) {
    v.Str? && v.s != ""
  }

  /** What a problem-details body must hold. */
  predicate IsProblemDetails(r: Rec) {
    && At(r, "type").Str?
    && At(r, "title").Str?
    && At(r, "status").Num?
    && At(r, "detail").Str?
    && (var p := At(r, "invalid-params");
        p == Undefined || (p.Arr? && forall i :: 0 <= i < |p.items| ==> p.items[i].Str?))
  }

  /** The schema accepts a body exactly when it has string `type`, `title` and `detail`,
      a numeric `status`, anything or nothing as `data`, and no `invalid-params` or an
      array of strings there. */
  lemma ProblemDetailsAccepts(r: Rec, fm: Formats)
    ensures Valid(ProblemDetailsSchema, r, fm) <==> IsProblemDetails(r)
  {
    var shape := ProblemDetailsSchema.shape;
    if IsProblemDetails(r) {
      forall e | e in shape ensures FieldPasses(e.1, At(r, e.0), fm) {
      }
    } else {
      assert shape[0] in shape && shape[1] in shape && shape[2] in shape;
      assert shape[3] in shape && shape[5] in shape;
    }
  }
}

=== FILE: display_resource.dfy ===
/** `DisplayResourceDialog` (components/dialogs/DisplayResourceDialog.tsx): one row per
    entry of a record, the key made readable and the value formatted. */
module DisplayResource {
  import opened Wrappers
  import opened Text
  import opened Values
  import opened Badges
  import Json

  /** No ASCII lower-case letter is directly followed by an upper-case one. */
  predicate NoCamelBoundary(s: string) {
    forall i :: 0 <= i < |s| - 1 ==> !(IsLower(s[i]) && IsUpper(s[i + 1]))
  }

  /** The number of places where a lower-case letter is directly followed by an
      upper-case one. */
  function CamelBoundaries(s: string): nat {
    if |s| < 2 then 0
    else (if IsLower(s[0]) && IsUpper(s[1]) then 1 else 0) + CamelBoundaries(s[1..])
  }

  /** The first `replace`, `/([a-z])([A-Z])/g` to `'$1 $2'`: a space between every
      lower-case letter and the upper-case letter right after it. Two matches never
      overlap, since a match ends on an upper-case letter and starts on a lower-case
      one, so each boundary is handled on its own. */
  function SpaceCamel(s: string): (r: string)
    ensures |r| == |s| + CamelBoundaries(s)
    ensures |s| > 0 ==> |r| > 0 && r[0] == s[0]
    ensures NoCamelBoundary(r)
    decreases |s|
  {
    if |s| < 2 then s
    else if IsLower(s[0]) && IsUpper(s[1]) then [s[0], ' '] + SpaceCamel(s[1..])
    else [s[0]] + SpaceCamel(s[1..])
  }

  /** The second `replace`, `/_/g` to `' '`. */
  function BlankUnderscores(s: string): (r: string)
    ensures |r| == |s|
    ensures forall i :: 0 <= i < |s| ==> r[i] == (if s[i] == '_' then ' ' else s[i])
    ensures '_' !in r
  {
    if |s| == 0 then "" else [if s[0] == '_' then ' ' else s[0]] + BlankUnderscores(s[1..])
  }

  /** The third `replace`, `/^./` to its upper case. The dot does not match a line
      terminator, but upper-casing leaves those unchanged, so the first character is
      upper-cased in every case. */
  function CapitalizeFirst(s: string): (r: string)
    ensures |r| == |s|
    ensures |s| > 0 ==> r[0] == UpperChar(s[0]) && !IsLower(r[0]) && r[1..] == s[1..]
  {
    if |s| == 0 then s else [UpperChar(s[0])] + s[1..]
  }

  /** `formatKey`: the three replacements, then `trim`. */
  function FormatKey(key: string): (r: string)
    ensures |r| == 0 || (!IsWhiteSpace(r[0]) && !IsWhiteSpace(r[|r| - 1]))
    ensures '_' !in r
    ensures NoCamelBoundary(r)
  {
    var spaced := SpaceCamel(key);
    var blanked := BlankUnderscores(spaced);
    NoBoundaryAfterBlanking(spaced);
    CapitalizedStaysClean(blanked);
    TrimStaysClean(CapitalizeFirst(blanked));
    Trim(CapitalizeFirst(blanked))
  }

  /** Upper-casing the first character of a text without underscores or boundaries
      adds neither. */
  lemma CapitalizedStaysClean(blanked: string)
    requires '_' !in blanked && NoCamelBoundary(blanked)
    ensures '_' !in CapitalizeFirst(blanked) && NoCamelBoundary(CapitalizeFirst(blanked))
  {
    var capital := CapitalizeFirst(blanked);
    forall i | 0 <= i < |capital| - 1 ensures !(IsLower(capital[i]) && IsUpper(capital[i + 1])) {
      if i > 0 {
        assert capital[i] == blanked[i] && capital[i + 1] == blanked[i + 1];
      }
    }
    if |blanked| > 0 {
      assert blanked[0] != '_';
      assert forall j :: 1 <= j < |capital| ==> capital[j] == blanked[j];
    }
  }

  /** Trimming keeps a text free of underscores and boundaries. */
  lemma TrimStaysClean(capital: string)
    requires '_' !in capital && NoCamelBoundary(capital)
    ensures '_' !in Trim(capital) && NoCamelBoundary(Trim(capital))
  {
    var r := Trim(capital);
    var lead := LeadingWhiteSpace(capital);
    assert forall j :: 0 <= j < |r| ==> r[j] == capital[lead + j];
  }

  /** Turning underscores into spaces creates no lower/upper boundary. */
  lemma NoBoundaryAfterBlanking(s: string)
    requires NoCamelBoundary(s)
    ensures NoCamelBoundary(BlankUnderscores(s))
  {
    var r := BlankUnderscores(s);
    forall i | 0 <= i < |r| - 1 ensures !(IsLower(r[i]) && IsUpper(r[i + 1])) {
      assert r[i] == (if s[i] == '_' then ' ' else s[i]);
      assert r[i + 1] == (if s[i + 1] == '_' then ' ' else s[i + 1]);
    }
  }

  /** A key that already has a space at every boundary goes through the first
      replacement unchanged, so formatting text twice inserts nothing more. */
  lemma {:induction false} SpaceCamelKeepsSpaced(s: string)
    requires NoCamelBoundary(s)
    ensures SpaceCamel(s) == s
    decreases |s|
  {
    if |s| >= 2 {
      assert !(IsLower(s[0]) && IsUpper(s[1]));
      assert NoCamelBoundary(s[1..]) by {
        forall i | 0 <= i < |s[1..]| - 1 ensures !(IsLower(s[1..][i]) && IsUpper(s[1..][i + 1])) {
          assert s[1..][i] == s[i + 1] && s[1..][i + 1] == s[i + 2];
        }
      }
      SpaceCamelKeepsSpaced(s[1..]);
      assert [s[0]] + s[1..] == s;
    }
  }

  /** Characters `formatKey` may add or drop: white space and the underscore. */
  predicate Blank(c: char) {
    IsWhiteSpace(c) || c == '_'
  }

  /** What is left of a text once its blanks are removed. */
  function Visible(s: string): string {
    if |s| == 0 then "" else (if Blank(s[0]) then "" else [s[0]]) + Visible(s[1..])
  }

  lemma {:induction false} VisibleAppend(a: string, b: string)
    ensures Visible(a + b) == Visible(a) + Visible(b)
    decreases |a|
  {
    if |a| > 0 {
      var head := if Blank(a[0]) then "" else [a[0]];
      assert (a + b)[0] == a[0] && (a + b)[1..] == a[1..] + b;
      assert Visible(a + b) == head + Visible(a[1..] + b);
      VisibleAppend(a[1..], b);
      assert head + (Visible(a[1..]) + Visible(b)) == (head + Visible(a[1..])) + Visible(b);
    } else {
      assert a + b == b;
    }
  }

  lemma {:induction false} VisibleOfBlanks(s: string)
    requires forall i :: 0 <= i < |s| ==> IsWhiteSpace(s[i])
    ensures Visible(s) == ""
    decreases |s|
  {
    if |s| > 0 {
      VisibleOfBlanks(s[1..]);
    }
  }

  lemma {:induction false} VisibleSpaceCamel(s: string)
    ensures Visible(SpaceCamel(s)) == Visible(s)
    decreases |s|
  {
    if |s| >= 2 {
      VisibleSpaceCamel(s[1..]);
      if IsLower(s[0]) && IsUpper(s[1]) {
        VisibleAppend([s[0], ' '], SpaceCamel(s[1..]));
        VisibleAppend([s[0]], [' ']);
      } else {
        VisibleAppend([s[0]], SpaceCamel(s[1..]));
      }
      VisibleAppend([s[0]], s[1..]);
      assert [s[0]] + s[1..] == s;
    }
  }

  lemma {:induction false} VisibleBlankUnderscores(s: string)
    ensures Visible(BlankUnderscores(s)) == Visible(s)
    decreases |s|
  {
    if |s| > 0 {
      VisibleBlankUnderscores(s[1..]);
    }
  }

  lemma VisibleTrim(s: string)
    ensures Visible(Trim(s)) == Visible(s)
  {
    var lead := LeadingWhiteSpace(s);
    var r := Trim(s);
    assert s == s[..lead] + r + s[lead + |r|..];
    VisibleAppend(s[..lead] + r, s[lead + |r|..]);
    VisibleAppend(s[..lead], r);
    VisibleOfBlanks(s[..lead]);
    VisibleOfBlanks(s[lead + |r|..]);
  }

  /** `formatKey` only adds and removes white space and underscores, and upper-cases
      the key's first character when that character is kept: every other character
      survives, in order. */
  lemma FormatKeyKeepsCharacters(key: string)
    ensures |key| > 0 && !Blank(key[0]) ==>
      Visible(FormatKey(key)) == [UpperChar(key[0])] + Visible(key[1..])
    ensures (|key| == 0 || Blank(key[0])) ==> Visible(FormatKey(key)) == Visible(key)
  {
    var spaced := SpaceCamel(key);
    var blanked := BlankUnderscores(spaced);
    FormatKeyStages(key);
    VisibleSpaceCamel(key);
    VisibleBlankUnderscores(spaced);
    VisibleTrim(CapitalizeFirst(blanked));
    VisibleCapitalized(key, blanked);
  }

  lemma FormatKeyStages(key: string)
    ensures FormatKey(key) == Trim(CapitalizeFirst(BlankUnderscores(SpaceCamel(key))))
  {
  }

  /** Capitalising the first character keeps the visible characters, but for the
      first one when that is kept. */
  lemma VisibleCapitalized(key: string, blanked: string)
    requires |blanked| == 0 <==> |key| == 0
    requires |key| > 0 ==> blanked[0] == (if key[0] == '_' then ' ' else key[0])
    requires Visible(blanked) == Visible(key)
    ensures |key| > 0 && !Blank(key[0]) ==>
      Visible(CapitalizeFirst(blanked)) == [UpperChar(key[0])] + Visible(key[1..])
    ensures (|key| == 0 || Blank(key[0])) ==> Visible(CapitalizeFirst(blanked)) == Visible(key)
  {
    if |key| > 0 {
      var capital := CapitalizeFirst(blanked);
      assert capital == [UpperChar(blanked[0])] + blanked[1..];
      if !Blank(key[0]) {
        KeptFirstCharacter(key, blanked, capital);
      } else {
        assert Blank(blanked[0]) && UpperChar(blanked[0]) == blanked[0];
        assert capital == [blanked[0]] + blanked[1..] == blanked;
      }
    }
  }

  lemma KeptFirstCharacter(key: string, blanked: string, capital: string)
    requires |key| > 0 && |blanked| > 0 && blanked[0] == key[0] && !Blank(key[0])
    requires capital == [UpperChar(key[0])] + blanked[1..]
    requires Visible(blanked) == Visible(key)
    ensures Visible(capital) == [UpperChar(key[0])] + Visible(key[1..])
  {
    var c := key[0];
    var tail := blanked[1..];
    assert blanked == [c] + tail;
    assert key == [c] + key[1..];
    VisibleCons(c, tail);
    VisibleCons(c, key[1..]);
    ConsCancel(c, Visible(tail), Visible(key[1..]));
    UpperKeepsBlank(c);
    VisibleCons(UpperChar(c), tail);
  }

  lemma UpperKeepsBlank(c: char)
    ensures Blank(UpperChar(c)) <==> Blank(c)
  {
    if IsLower(c) {
      assert 'A' <= UpperChar(c) <= 'Z';
    }
  }

  lemma ConsCancel(c: char, x: string, y: string)
    requires [c] + x == [c] + y
    ensures x == y
  {
    assert x == ([c] + x)[1..];
    assert y == ([c] + y)[1..];
  }

  lemma VisibleCons(c: char, s: string)
    ensures Visible([c] + s) == (if Blank(c) then "" else [c]) + Visible(s)
  {
    assert ([c] + s)[0] == c && ([c] + s)[1..] == s;
  }

  /** Example: an id suffix is split off and the first letter upper-cased. */
  lemma FormatKeyCamelExample()
    ensures FormatKey("memberID") == "Member ID"
  {
    SpaceCamelExample();
    CapitalizeExample();
    NoUnderscoreExample();
    TrimmedExample();
    FormatKeyOfTrimmed("memberID", "member ID", "Member ID");
  }

  lemma NoUnderscoreExample()
    ensures '_' !in "member ID"
  {
  }

  lemma TrimmedExample()
    ensures !IsWhiteSpace("Member ID"[0]) && !IsWhiteSpace("Member ID"[|"Member ID"| - 1])
  {
    assert "Member ID"[0] == 'M' && "Member ID"[8] == 'D';
  }

  /** `formatKey` of a key with no underscore whose capitalised spacing needs no trim. */
  lemma FormatKeyOfTrimmed(key: string, spaced: string, capital: string)
    requires SpaceCamel(key) == spaced && '_' !in spaced && CapitalizeFirst(spaced) == capital
    requires |capital| > 0 && !IsWhiteSpace(capital[0]) && !IsWhiteSpace(capital[|capital| - 1])
    ensures FormatKey(key) == capital
  {
    BlankUnderscoresWithout(spaced);
    TrimOfTrimmed(capital);
  }

  lemma CapitalizeExample()
    ensures CapitalizeFirst("member ID") == "Member ID"
  {
    assert UpperChar('m') == 'M';
    assert "member ID"[1..] == "ember ID";
  }

  lemma SpaceCamelExample()
    ensures SpaceCamel("memberID") == "member ID"
  {
    SpaceCamelOfLowerUpper("member", "ID");
    assert "member" + "ID" == "memberID";
    assert "member" + " " + "ID" == "member ID";
  }

  /** A run of lower-case letters followed by a run of upper-case ones gets exactly one
      space, at the boundary. */
  lemma {:induction false} SpaceCamelOfLowerUpper(w: string, u: string)
    requires |w| >= 1 && |u| >= 1
    requires forall i :: 0 <= i < |w| ==> IsLower(w[i])
    requires forall i :: 0 <= i < |u| ==> IsUpper(u[i])
    ensures SpaceCamel(w + u) == w + " " + u
    decreases |w|
  {
    var s := w + u;
    assert s[0] == w[0];
    if |w| == 1 {
      assert s[1] == u[0] && s[1..] == u;
      SpaceCamelKeepsSpaced(u);
      assert [w[0], ' '] + u == w + " " + u;
    } else {
      assert s[1] == w[1] && s[1..] == w[1..] + u;
      SpaceCamelOfLowerUpper(w[1..], u);
      assert [w[0]] + (w[1..] + " " + u) == w + " " + u;
    }
  }

  /** Example: a leading underscore becomes a space that is trimmed away, so the first
      letter stays in lower case. */
  lemma FormatKeyUnderscoreExample()
    ensures FormatKey("_id") == "id"
  {
    var s := "_id";
    assert SpaceCamel(s[1..]) == "id";
    assert SpaceCamel(s) == "_id";
    assert BlankUnderscores(s) == " id";
    assert CapitalizeFirst(" id") == " id";
    assert LeadingWhiteSpace(" id") == 1;
    TrimOfTrimmed("id");
    assert " id"[1..] == "id";
  }

  lemma BlankUnderscoresWithout(s: string)
    requires '_' !in s
    ensures BlankUnderscores(s) == s
  {
  }

  lemma TrimOfTrimmed(s: string)
    requires |s| > 0 && !IsWhiteSpace(s[0]) && !IsWhiteSpace(s[|s| - 1])
    ensures Trim(s) == s
  {
    assert LeadingWhiteSpace(s) == 0;
    assert s[0..] == s;
  }

  /** What a row shows for a value: a badge, or text. */
  datatype Shown = Badged(badge: Badge) | Plain(text: string)

  /** An element's text inside `Array.prototype.join`: empty for null and undefined. */
  function ElementText(v: Value): string {
    if v.Undefined? || v.Null? then "" else JsString(v)
  }

  /** The element texts of an array, in order. */
  function ElementTexts(items: seq<Value>): (r: seq<string>)
    ensures |r| == |items|
    ensures forall i :: 0 <= i < |items| ==> r[i] == ElementText(items[i])
  {
    seq(|items|, i requires 0 <= i < |items| => ElementText(items[i]))
  }

  /** `formatValue`. */
  function FormatValue(v: Value): (r: Shown)
    ensures r.Badged? <==> v.Null? || v.Undefined? || v.Bool?
    ensures v.Null? ==> r == Badged(Badge(Secondary, "null"))
    ensures v.Undefined? ==> r == Badged(Badge(Secondary, "undefined"))
    ensures v.Bool? ==> r.badge.variant == (if v.b then Default else Destructive)
    ensures v.NaN? ==> r == Plain("NaN")
    ensures v.Str? ==> r == Plain(v.s)
    ensures v.Arr? ==> r == Plain(Join(ElementTexts(v.items), ", "))
    ensures v.Obj? ==> Some(r.text) == Json.Stringify(v)
  {
    match v
    case Null => Badged(Badge(Secondary, "null"))
    case Undefined => Badged(Badge(Secondary, "undefined"))
    case Bool(b) => Badged(Badge(if b then Default else Destructive, if b then "true" else "false"))
    case Num(n) => Plain(IntToDecimal(n))
    case NaN => Plain("NaN")
    case Str(s) => Plain(s)
    case Arr(items) => Plain(Join(ElementTexts(items), ", "))
    case Obj(_) => Plain(Json.Stringify(v).value)
  }

  /** A number is shown as decimal text that reads back as the same number, and a
      boolean badge reads back as the boolean. */
  lemma FormatValueReadsBack(v: Value)
    ensures v.Num? ==> ParseInt(FormatValue(v).text) == Some(v.n)
    ensures v.Bool? ==> (FormatValue(v).badge.text == "true" <==> v.b)
  {
    if v.Num? {
      IntDecimalRoundTrip(v.n);
    }
  }

  /** An array of one element shows that element's own text; the empty array shows
      nothing. */
  lemma FormatShortArrays(x: Value)
    ensures FormatValue(Arr([])) == Plain("")
    ensures FormatValue(Arr([x])) == Plain(ElementText(x))
  {
    assert ElementTexts([x]) == [ElementText(x)];
  }

  /** An array's text splits at its commas back into its elements' texts, each after the
      first with the separator's space in front, when no element's text has a comma. */
  lemma FormatArrayReadsBack(items: seq<Value>)
    requires |items| >= 1
    requires forall i :: 0 <= i < |items| ==> ',' !in ElementText(items[i])
    ensures var parts := Split(FormatValue(Arr(items)).text, ',');
      && |parts| == |items|
      && parts[0] == ElementText(items[0])
      && forall i :: 1 <= i < |items| ==> parts[i] == " " + ElementText(items[i])
  {
    var texts := ElementTexts(items);
    assert ", " == [','] + " ";
    JoinLongSeparator(texts, ',', " ");
    SplitJoin(PadTail(texts, " "), ',');
  }

  /** What the dialog renders. */
  datatype View = Hidden | Empty(title: string, message: string) | Rows(title: string, rows: seq<(string, Shown)>)

  const DefaultTitle := "Resource Details"
  const EmptyMessage := "No data to display"

  /** The dialog for a resource (`None` for null or undefined) and an optional title. */
  function Render(resource: Option<seq<(string, Value)>>, title: Option<string>): (r: View)
    ensures r.Hidden? <==> resource.None?
    ensures r.Empty? <==> resource == Some([])
    ensures !r.Hidden? ==> r.title == title.GetOr(DefaultTitle)
    ensures r.Empty? ==> r.message == EmptyMessage
    ensures r.Rows? ==> |r.rows| == |resource.value|
  {
    match resource
    case None => Hidden
    case Some(entries) =>
      if |entries| == 0 then Empty(title.GetOr(DefaultTitle), EmptyMessage)
      else Rows(title.GetOr(DefaultTitle), RowsOf(entries))
  }

  /** One row: the readable key and the formatted value. */
  function Row(entry: (string, Value)): (string, Shown) {
    (FormatKey(entry.0), FormatValue(entry.1))
  }

  function RowsOf(entries: seq<(string, Value)>): (rows: seq<(string, Shown)>)
    ensures |rows| == |entries|
  {
    MapAll(Row, entries)
  }

  /** `f` applied to each element, in order. */
  function MapAll<A, B>(f: A -> B, s: seq<A>): (r: seq<B>)
    ensures |r| == |s|
    ensures forall i :: 0 <= i < |s| ==> r[i] == f(s[i])
  {
    seq(|s|, i requires 0 <= i < |s| => f(s[i]))
  }

  lemma MapAllAppend<A, B>(f: A -> B, a: seq<A>, b: seq<A>)
    ensures MapAll(f, a + b) == MapAll(f, a) + MapAll(f, b)
  {
    var all := MapAll(f, a + b);
    var joined := MapAll(f, a) + MapAll(f, b);
    forall i | 0 <= i < |all| ensures all[i] == joined[i] {
      if i < |a| {
        assert (a + b)[i] == a[i];
      } else {
        assert (a + b)[i] == b[i - |a|];
      }
    }
  }

  /** The rows follow the entries: those of `a + b` are the rows of `a`, then those of
      `b`, and row `i` shows entry `i`. */
  lemma RowsFollowEntries(a: seq<(string, Value)>, b: seq<(string, Value)>)
    ensures RowsOf(a + b) == RowsOf(a) + RowsOf(b)
    ensures forall i :: 0 <= i < |a| ==> RowsOf(a)[i] == (FormatKey(a[i].0), FormatValue(a[i].1))
  {
    MapAllAppend(Row, a, b);
  }
}

=== FILE: effects.dfy ===
/** The observable calls the dialogs make, and the outcomes of the calls they make
    into code this model does not see (the API, the validation library, callbacks). */
module Effects {
  import opened Values

  datatype NoticeKind = SuccessNotice | ErrorNotice

  /** One observable call, in the order the component makes it. */
  datatype Effect =
    | Notify(kind: NoticeKind, text: string)   // a toast notice
    | SubmitCalled(payload: Rec)               // the factory calls its `onSubmit`
    | OpenChangeCalled(open: bool)             // the caller's `onOpenChange`
    | SuccessCalled                            // the `onSuccess` callback the component was given
    | RefreshCalled                            // a table-refresh callback
    | CreateCalled(payload: Rec)               // create request to the API
    | UpdateCalled(id: Value, payload: Rec)    // update request to the API
    | DeleteCalled(id: Value)                  // delete request to the API
    | FetchCalled(id: Value)                   // fetch-by-id request to the API

  /** How an awaited call ended: it resolved with a value, or it threw. */
  datatype Outcome = Returned(value: Value) | Raised(error: Value)

  /** What calling an asynchronous handler did: the calls it made, then how it ended. */
  datatype Invocation = Invocation(effects: seq<Effect>, outcome: Outcome)

  /** The result of `schema.safeParse(values)`, or an exception escaping it. */
  datatype ParseOutcome = Parsed(data: Rec) | Rejected(issues: seq<Issue>) | ParseThrew
}

=== FILE: entity_dialogs.dfy ===
/** What the member and book dialog modules share (components/dialogs/memberDialogs.tsx
    and components/dialogs/bookDialogs.tsx are written alike): field descriptors, the
    edit dialog that updates one entity by id, the memo keyed on that id, the
    wrapper's refresh-on-close handler and prop spread, and the flexible variant that
    calls `onSuccess` after a successful update. */
module EntityDialogs {
  import opened Wrappers
  import opened Values
  import opened Effects
  import opened FieldInference
  import opened Schemas
  import FormDialog

  /** A field whose input type is inferred. */
  function Plain(name: string, caption: string, placeholder: string): FormDialog.FieldConfig {
    FormDialog.FieldConfig(name, caption, Some(placeholder), None, [])
  }

  /** A field with an explicit input type. */
  function Typed(name: string, caption: string, kind: InputKind, placeholder: string): FormDialog.FieldConfig {
    FormDialog.FieldConfig(name, caption, Some(placeholder), Some(kind), [])
  }

  /** A schema's `safeParse` as the factory receives it. */
  function Validator(s: ObjectSchema, fm: Formats): Rec -> ParseOutcome {
    r => SafeParse(s, r, fm)
  }

  /** `update(id, data)`, returning what it returns. */
  function UpdateAction(id: Value, update: (Value, Rec) -> Outcome): Rec -> Invocation {
    p => Invocation([UpdateCalled(id, p)], update(id, p))
  }

  /** An edit dialog over update schema `s` that updates the entity with id `id`. */
  function EditDialog(s: ObjectSchema, title: string, fields: seq<FormDialog.FieldConfig>, id: Value,
                      defaults: Option<Rec>, fm: Formats, update: (Value, Rec) -> Outcome): (cfg: FormDialog.Config)
    ensures cfg.title == title && cfg.fields == fields && cfg.defaults == defaults
    ensures forall r :: cfg.schema(r) == SafeParse(s, r, fm)
    ensures forall p :: cfg.onSubmit(p) == Invocation([UpdateCalled(id, p)], update(id, p))
  {
    FormDialog.Config(Validator(s, fm), Describe(s), fields, title, UpdateAction(id, update), defaults)
  }

  /** A successful edit submit updates the entity with exactly the defined values the
      schema declares: a form value the schema does not declare is never sent. */
  lemma EditSendsDeclaredValues(s: ObjectSchema, title: string, fields: seq<FormDialog.FieldConfig>, id: Value,
                                defaults: Option<Rec>, fm: Formats, update: (Value, Rec) -> Outcome,
                                props: FormDialog.Props, st: FormDialog.DialogState)
    requires !FormDialog.Blocked(fields, st.errors)
    requires SafeParse(s, st.values, fm).Parsed?
    ensures var r := FormDialog.Submit(EditDialog(s, title, fields, id, defaults, fm, update), props, st);
      && |r.effects| >= 2
      && r.effects[1].UpdateCalled? && r.effects[1].id == id
      && (forall k :: k in r.effects[1].payload <==> k in st.values && k in Keys(s) && st.values[k] != Undefined)
      && (forall k :: k in r.effects[1].payload ==> r.effects[1].payload[k] == st.values[k])
  {
    var cfg := EditDialog(s, title, fields, id, defaults, fm, update);
    var parsed := SafeParse(s, st.values, fm);
    assert cfg.schema(st.values) == parsed;
    var payload := FormDialog.DropUndefined(parsed.data);
    assert cfg.onSubmit(payload).effects == [UpdateCalled(id, payload)];
    FormDialog.SubmitCallsFirst(cfg, props, st, 0);
  }

  /** `useMemo` keyed on the entity id: the dialog built for an id is kept while the
      id stays the same, and rebuilt from the current entity when it changes. */
  function Memo<T>(built: Option<(int, T)>, id: int, current: T): (r: (int, T))
    ensures r.0 == id
    ensures built.Some? && built.value.0 == id ==> r == built.value
    ensures (built.None? || built.value.0 != id) ==> r == (id, current)
  {
    if built.Some? && built.value.0 == id then built.value else (id, current)
  }

  /** The props a wrapper's caller may pass besides the entity, `trigger` and
      `onSuccess`; `None` means the prop is absent. */
  datatype Rest = Rest(open: Option<bool>, onOpenChange: bool, defaults: Option<Rec>, placeholders: Option<map<string, string>>)

  /** Whose `onOpenChange` the dialog calls. */
  datatype OpenHandler = WrapperHandler | CallerHandler

  /** The props a wrapper renders its dialog with: its own `open` and
      `handleOpenChange`, then the caller's remaining props spread over them. */
  function WrapperDialogProps(open: bool, rest: Rest): (r: FormDialog.Props)
    ensures r.hasOnOpenChange
  {
    FormDialog.Props(rest.defaults.GetOr(map[]), rest.placeholders.GetOr(map[]), Some(rest.open.GetOr(open)), true)
  }

  function Handler(rest: Rest): (h: OpenHandler)
    ensures h == CallerHandler <==> rest.onOpenChange
  {
    if rest.onOpenChange then CallerHandler else WrapperHandler
  }

  /** Without caller props the dialog follows the wrapper's own state; every prop the
      caller passes replaces the wrapper's, because the rest is spread last. */
  lemma SpreadOverrides(open: bool, rest: Rest)
    ensures rest.open.Some? ==> WrapperDialogProps(open, rest).open == rest.open
    ensures rest.open.None? ==> WrapperDialogProps(open, rest).open == Some(open)
    ensures rest.defaults.Some? ==> WrapperDialogProps(open, rest).defaults == rest.defaults.value
    ensures rest.defaults.None? ==> WrapperDialogProps(open, rest).defaults == map[]
    ensures rest.placeholders.Some? ==> WrapperDialogProps(open, rest).placeholders == rest.placeholders.value
    ensures rest.onOpenChange ==> Handler(rest) == CallerHandler
  {
  }

  /** `handleOpenChange`: refresh the table on a close request when a refresh callback
      was given, and store the requested state either way. */
  function HandleOpenChange(hasRefresh: bool, o: bool): (r: (bool, seq<Effect>))
    ensures r.0 == o
    ensures RefreshCalled in r.1 <==> !o && hasRefresh
    ensures forall e :: e in r.1 ==> e == RefreshCalled
  {
    (o, if !o && hasRefresh then [RefreshCalled] else [])
  }

  /** The flexible dialogs' submit: update, then `onSuccess` if given, then return the
      updated entity; a failed update skips `onSuccess` and throws. */
  function FlexibleSubmit(id: Value, update: (Value, Rec) -> Outcome, hasOnSuccess: bool, p: Rec): (inv: Invocation)
    ensures inv.outcome == update(id, p)
    ensures |inv.effects| >= 1 && inv.effects[0] == UpdateCalled(id, p)
    ensures SuccessCalled in inv.effects <==> hasOnSuccess && update(id, p).Returned?
  {
    match update(id, p)
    case Returned(v) => Invocation([UpdateCalled(id, p)] + (if hasOnSuccess then [SuccessCalled] else []), Returned(v))
    case Raised(err) => Invocation([UpdateCalled(id, p)], Raised(err))
  }

  /** A flexible dialog: no factory defaults, the flexible submit. */
  function FlexibleDialog(s: ObjectSchema, title: string, fields: seq<FormDialog.FieldConfig>, id: Value,
                          fm: Formats, update: (Value, Rec) -> Outcome, hasOnSuccess: bool): (cfg: FormDialog.Config)
    ensures cfg.title == title && cfg.fields == fields && cfg.defaults.None?
    ensures forall r :: cfg.schema(r) == SafeParse(s, r, fm)
    ensures forall p :: cfg.onSubmit(p) == FlexibleSubmit(id, update, hasOnSuccess, p)
  {
    FormDialog.Config(Validator(s, fm), Describe(s), fields, title, p => FlexibleSubmit(id, update, hasOnSuccess, p), None)
  }

  /** The flexible dialogs' instance defaults: the entity's fields, overridden by the
      caller's. */
  function FlexibleDefaults(entity: Rec, defaults: Option<Rec>): (r: Rec)
    ensures r.Keys == entity.Keys + defaults.GetOr(map[]).Keys
    ensures forall k :: k in defaults.GetOr(map[]) ==> r[k] == defaults.GetOr(map[])[k]
    ensures forall k :: k in entity && k !in defaults.GetOr(map[]) ==> r[k] == entity[k]
  {
    entity + defaults.GetOr(map[])
  }

  /** The props a flexible dialog is rendered with. An absent `placeholders` prop falls
      back to the factory's empty default. */
  function FlexibleProps(entity: Rec, defaults: Option<Rec>, placeholders: Option<map<string, string>>,
                         open: Option<bool>, hasOnOpenChange: bool): FormDialog.Props
  {
    FormDialog.Props(FlexibleDefaults(entity, defaults), placeholders.GetOr(map[]), open, hasOnOpenChange)
  }

  /** What a flexible form starts from: a caller default wins, then the entity's value,
      then undefined for a configured field neither gives. */
  lemma FlexibleFormStart(s: ObjectSchema, title: string, fields: seq<FormDialog.FieldConfig>, id: Value,
                          fm: Formats, update: (Value, Rec) -> Outcome, hasOnSuccess: bool,
                          entity: Rec, defaults: Option<Rec>, placeholders: Option<map<string, string>>,
                          open: Option<bool>, hasOnOpenChange: bool, k: string)
    ensures var merged := FormDialog.MergedDefaults(FlexibleDialog(s, title, fields, id, fm, update, hasOnSuccess),
                                                    FlexibleProps(entity, defaults, placeholders, open, hasOnOpenChange));
      && (k in defaults.GetOr(map[]) ==> merged[k] == defaults.GetOr(map[])[k])
      && (k !in defaults.GetOr(map[]) && k in entity ==> merged[k] == entity[k])
      && (k !in defaults.GetOr(map[]) && k !in entity && k in FormDialog.Names(fields) ==> merged[k] == Undefined)
  {
    var cfg := FlexibleDialog(s, title, fields, id, fm, update, hasOnSuccess);
    var props := FlexibleProps(entity, defaults, placeholders, open, hasOnOpenChange);
    assert cfg.defaults.GetOr(map[]) == map[];
    FormDialog.DefaultsPrecedence(cfg, props, k);
  }

  /** In a flexible dialog `onSuccess` runs only once the update has succeeded: after
      the update call and before the factory reports the save. */
  lemma FlexibleSuccessAfterUpdate(s: ObjectSchema, title: string, fields: seq<FormDialog.FieldConfig>, id: Value,
                                   fm: Formats, update: (Value, Rec) -> Outcome,
                                   props: FormDialog.Props, st: FormDialog.DialogState)
    requires !FormDialog.Blocked(fields, st.errors)
    requires SafeParse(s, st.values, fm).Parsed?
    ensures var payload := FormDialog.DropUndefined(SafeParse(s, st.values, fm).data);
      var r := FormDialog.Submit(FlexibleDialog(s, title, fields, id, fm, update, true), props, st);
      update(id, payload).Returned? ==>
        r.effects[..4] == [SubmitCalled(payload), UpdateCalled(id, payload), SuccessCalled,
                           Notify(SuccessNotice, FormDialog.SavedNotice)]
    ensures var payload := FormDialog.DropUndefined(SafeParse(s, st.values, fm).data);
      var r := FormDialog.Submit(FlexibleDialog(s, title, fields, id, fm, update, true), props, st);
      update(id, payload).Raised? ==> SuccessCalled !in r.effects
  {
  }
}

=== FILE: field_inference.dfy ===
/** How the dialog factory picks an HTML input type for a field: an explicit type
    wins, otherwise it is read from the schema's declared type for that field
    (test/SchemaFormDialog.tsx, `getFieldTypeFromSchema`). */
module FieldInference {
  import opened Wrappers

  /** The validation library's runtime description of a field's type, as far as the
      inference reads it. For `Branded`, `brand` is the brand tag the inference reads
      from the wrapped type's definition ("" when there is none). */
  datatype SchemaType =
    | Optional(inner: SchemaType)
    | Nullable(inner: SchemaType)
    | NumberType
    | StringType(emailCheck: bool)
    | Branded(brand: string, inner: SchemaType)
    | BooleanType
    | EnumType
    | OtherType

  /** The object schema's shape: declared field name to its type. */
  type Shape = map<string, SchemaType>

  datatype InputKind = TextInput | EmailInput | PasswordInput | NumberInput | SelectInput | CheckboxInput

  /** The HTML `type` attribute the kind stands for. */
  function KindName(k: InputKind): string {
    match k
    case TextInput => "text"
    case EmailInput => "email"
    case PasswordInput => "password"
    case NumberInput => "number"
    case SelectInput => "select"
    case CheckboxInput => "checkbox"
  }

  lemma KindNameInjective(a: InputKind, b: InputKind)
    ensures KindName(a) == KindName(b) ==> a == b
  {
  }

  /** Inference for a field of the shape; a field the shape does not declare is plain text. */
  function Infer(shape: Shape, name: string): (k: InputKind)
    ensures name !in shape ==> k == TextInput
    ensures name in shape ==> k == Classify(shape[name])
  {
    if name !in shape then TextInput else Classify(shape[name])
  }

  /** Classifies a declared type after unwrapping at most one optional or nullable layer. */
  function Classify(t: SchemaType): InputKind
    decreases t, 1
  {
    match t
    case Optional(inner) => ClassifyUnwrapped(inner)
    case Nullable(inner) => ClassifyUnwrapped(inner)
    case _ => ClassifyUnwrapped(t)
  }

  function ClassifyUnwrapped(t: SchemaType): InputKind
    decreases t, 0
  {
    match t
    case NumberType => NumberInput
    case StringType(email) => if email then EmailInput else TextInput
    case Branded(brand, inner) =>
      // a non-password brand: inferred again as a one-field shape holding the wrapped type,
      // which is `Classify` of that type
      if brand == "password" then PasswordInput else Classify(inner)
    case BooleanType => CheckboxInput
    case EnumType => SelectInput
    case _ => TextInput
  }

  /** The input type a field is rendered with: its explicit type if it has one. */
  function ResolveKind(explicit: Option<InputKind>, shape: Shape, name: string): (k: InputKind)
    ensures explicit.Some? ==> k == explicit.value
    ensures explicit.None? ==> k == Infer(shape, name)
    ensures explicit.None? && name !in shape ==> k == TextInput
  {
    match explicit
    case Some(kind) => kind
    case None => Infer(shape, name)
  }

  /** Exactly one optional/nullable layer is removed: a doubly wrapped type is never
      recognised and falls back to text. */
  lemma OnlyOneLayerUnwrapped(t: SchemaType)
    ensures Classify(Optional(Optional(t))) == TextInput
    ensures Classify(Optional(Nullable(t))) == TextInput
    ensures Classify(Nullable(Optional(t))) == TextInput
    ensures Classify(Nullable(Nullable(t))) == TextInput
  {
  }

  /** The base classification after the single unwrap. */
  lemma ClassifyBaseTypes(email: bool)
    ensures Classify(NumberType) == NumberInput && Classify(Optional(NumberType)) == NumberInput
    ensures Classify(StringType(email)) == (if email then EmailInput else TextInput)
    ensures Classify(Nullable(StringType(email))) == Classify(StringType(email))
    ensures Classify(BooleanType) == CheckboxInput && Classify(EnumType) == SelectInput
    ensures Classify(OtherType) == TextInput
  {
  }

  /** A password brand yields a password input whatever it wraps; any other brand is
      transparent, so the wrapped type decides. */
  lemma BrandRule(brand: string, t: SchemaType)
    ensures brand == "password" ==> Classify(Branded(brand, t)) == PasswordInput
    ensures brand != "password" ==> Classify(Branded(brand, t)) == Classify(t)
    ensures brand != "password" ==> Classify(Optional(Branded(brand, t))) == Classify(t)
  {
  }

  /** A password input is inferred only through a password brand: stripping the outer
      optional layer and every non-password brand (each followed by at most one more
      optional layer) must reach a `"password"` brand. */
  predicate ReachesPasswordBrand(t: SchemaType)
    decreases t, 1
  {
    match t
    case Optional(inner) => UnwrappedReachesPasswordBrand(inner)
    case Nullable(inner) => UnwrappedReachesPasswordBrand(inner)
    case _ => UnwrappedReachesPasswordBrand(t)
  }

  predicate UnwrappedReachesPasswordBrand(t: SchemaType)
    decreases t, 0
  {
    t.Branded? && (t.brand == "password" || ReachesPasswordBrand(t.inner))
  }

  lemma {:induction false} PasswordOnlyThroughBrand(t: SchemaType)
    ensures Classify(t) == PasswordInput <==> ReachesPasswordBrand(t)
    decreases t, 1
  {
    match t
    case Optional(inner) => PasswordOnlyThroughBrandUnwrapped(inner);
    case Nullable(inner) => PasswordOnlyThroughBrandUnwrapped(inner);
    case _ => PasswordOnlyThroughBrandUnwrapped(t);
  }

  lemma {:induction false} PasswordOnlyThroughBrandUnwrapped(t: SchemaType)
    ensures ClassifyUnwrapped(t) == PasswordInput <==> UnwrappedReachesPasswordBrand(t)
    decreases t, 0
  {
    if t.Branded? && t.brand != "password" {
      PasswordOnlyThroughBrand(t.inner);
    }
  }
}

=== FILE: form_dialog.dfy ===
/** The schema dialog factory `createSchemaDialog` (test/SchemaFormDialog.tsx): the
    configuration it is built from, the default values and placeholders it computes,
    how raw input text becomes a form value, and the submit protocol as a transition
    on the dialog's state that also lists the calls it makes. */
module FormDialog {
  import opened Wrappers
  import opened Text
  import opened Values
  import opened Effects
  import opened FieldInference

  /** The value of a select option: a string or a number. */
  datatype OptionValue = OptText(text: string) | OptNumber(n: int)

  datatype SelectOption = SelectOption(value: OptionValue, labelText: string)

  /** One configured field; `kind` is the explicit input type, if any. */
  datatype FieldConfig = FieldConfig(
    name: string, labelText: string, placeholder: Option<string>, kind: Option<InputKind>, options: seq<SelectOption>)

  /** The factory's argument. `schema` is the validator's `safeParse`, `shape` the
      runtime type description the field-type inference reads, `onSubmit` the
      submit action with the calls it makes and how it ends. */
  datatype Config = Config(
    schema: Rec -> ParseOutcome,
    shape: Shape,
    fields: seq<FieldConfig>,
    title: string,
    onSubmit: Rec -> Invocation,
    defaults: Option<Rec>)

  /** The props of one dialog instance (`trigger` is presentation only). */
  datatype Props = Props(
    defaults: Rec, placeholders: map<string, string>, open: Option<bool>, hasOnOpenChange: bool)

  /** The instance state: the internal open flag and the form's values and field errors. */
  datatype DialogState = DialogState(internalOpen: bool, values: Rec, errors: map<string, string>)

  function Names(fields: seq<FieldConfig>): set<string> {
    set f | f in fields :: f.name
  }

  /** Every configured field name mapped to undefined. */
  function FieldDefaults(fields: seq<FieldConfig>): (r: Rec)
    ensures r.Keys == Names(fields)
    ensures forall k :: k in r ==> r[k] == Undefined
  {
    if |fields| == 0 then map[]
    else
      var prev := FieldDefaults(fields[..|fields| - 1]);
      assert fields == fields[..|fields| - 1] + [fields[|fields| - 1]];
      prev[fields[|fields| - 1].name := Undefined]
  }

  /** Field defaults, overridden by the factory's, overridden by the instance's. */
  function MergedDefaults(cfg: Config, props: Props): (r: Rec)
    ensures r.Keys == Names(cfg.fields) + cfg.defaults.GetOr(map[]).Keys + props.defaults.Keys
  {
    FieldDefaults(cfg.fields) + cfg.defaults.GetOr(map[]) + props.defaults
  }

  /** Where a merged default comes from: the instance if it has the key, else the
      factory if it has it, else the field list (undefined). Keys the fields do not
      name are kept. */
  lemma DefaultsPrecedence(cfg: Config, props: Props, k: string)
    ensures k in props.defaults ==> MergedDefaults(cfg, props)[k] == props.defaults[k]
    ensures k !in props.defaults && k in cfg.defaults.GetOr(map[]) ==>
      MergedDefaults(cfg, props)[k] == cfg.defaults.GetOr(map[])[k]
    ensures k !in props.defaults && k !in cfg.defaults.GetOr(map[]) && k in Names(cfg.fields) ==>
      MergedDefaults(cfg, props)[k] == Undefined
    ensures k in MergedDefaults(cfg, props) <==>
      k in Names(cfg.fields) || k in cfg.defaults.GetOr(map[]) || k in props.defaults
  {
  }

  /** The input type a configured field is rendered with. */
  function KindOf(cfg: Config, f: FieldConfig): InputKind {
    ResolveKind(f.kind, cfg.shape, f.name)
  }

  /** The instance's placeholder if it gives a non-empty one, else the field's own. */
  function Placeholder(props: Props, f: FieldConfig): (r: Option<string>)
    ensures f.name in props.placeholders && props.placeholders[f.name] != "" ==> r == Some(props.placeholders[f.name])
    ensures !(f.name in props.placeholders && props.placeholders[f.name] != "") ==> r == f.placeholder
  {
    if f.name in props.placeholders && props.placeholders[f.name] != "" then Some(props.placeholders[f.name])
    else f.placeholder
  }

  /** One drawn field: a `<select>` with its prompt option and the configured options,
      or an `<input>` of the resolved type with its placeholder. */
  datatype FieldView =
    | SelectView(name: string, labelText: string, prompt: string, options: seq<SelectOption>)
    | InputView(name: string, labelText: string, kind: InputKind, placeholder: Option<string>)

  function ViewOf(cfg: Config, props: Props, f: FieldConfig): FieldView {
    var kind := KindOf(cfg, f);
    if kind == SelectInput then SelectView(f.name, f.labelText, "Select " + f.labelText + "...", f.options)
    else InputView(f.name, f.labelText, kind, Placeholder(props, f))
  }

  /** The form's fields, one per configured field, in configuration order. */
  function FieldViews(cfg: Config, props: Props): (views: seq<FieldView>)
    ensures |views| == |cfg.fields|
  {
    seq(|cfg.fields|, i requires 0 <= i < |cfg.fields| => ViewOf(cfg, props, cfg.fields[i]))
  }

  /** Each configured field is drawn under its own name and label. A select shows its
      prompt and options and no placeholder; any other input shows the instance's
      placeholder when that is a non-empty text, and the field's own otherwise. */
  lemma PlaceholderChoice(cfg: Config, props: Props, i: nat)
    requires i < |cfg.fields|
    ensures var v := FieldViews(cfg, props)[i]; var f := cfg.fields[i];
      && v.name == f.name && v.labelText == f.labelText
      && (v.SelectView? <==> KindOf(cfg, f) == SelectInput)
      && (v.SelectView? ==> v.prompt == "Select " + f.labelText + "..." && v.options == f.options)
      && (v.InputView? ==> v.kind == KindOf(cfg, f))
      && (v.InputView? && f.name in props.placeholders && props.placeholders[f.name] != "" ==>
            v.placeholder == Some(props.placeholders[f.name]))
      && (v.InputView? && (f.name !in props.placeholders || props.placeholders[f.name] == "") ==>
            v.placeholder == f.placeholder)
  {
  }

  /** An empty instance placeholder draws the same form as none at all: `||` skips the
      empty text, so the field's own placeholder shows. */
  lemma EmptyPlaceholderIsNone(cfg: Config, props: Props, k: string)
    ensures FieldViews(cfg, props.(placeholders := props.placeholders[k := ""]))
         == FieldViews(cfg, props.(placeholders := props.placeholders - {k}))
  {
    var a := FieldViews(cfg, props.(placeholders := props.placeholders[k := ""]));
    var b := FieldViews(cfg, props.(placeholders := props.placeholders - {k}));
    forall i | 0 <= i < |cfg.fields| ensures a[i] == b[i] {
    }
  }

  /** The placeholders prop changes only what the inputs' placeholders say: names,
      labels, input types and select options are the same whatever it holds. */
  lemma PlaceholdersOnlyChangePlaceholders(cfg: Config, props: Props, other: map<string, string>, i: nat)
    requires i < |cfg.fields|
    ensures var v := FieldViews(cfg, props)[i];
      var w := FieldViews(cfg, props.(placeholders := other))[i];
      && v.name == w.name && v.labelText == w.labelText && v.SelectView? == w.SelectView?
      && (v.SelectView? ==> v == w)
      && (v.InputView? ==> v.kind == w.kind)
  {
  }

  /** Whether the dialog shows: the `open` prop when the caller gives one, else the internal flag. */
  function Visible(props: Props, st: DialogState): bool {
    match props.open
    case Some(o) => o
    case None => st.internalOpen
  }

  datatype Step = Step(state: DialogState, effects: seq<Effect>)

  /** `setDialogOpen`: the caller's `onOpenChange` when given, else the internal setter. */
  function SetDialogOpen(props: Props, st: DialogState, o: bool): (r: Step)
    ensures r.state.values == st.values && r.state.errors == st.errors
    ensures props.hasOnOpenChange ==> r == Step(st, [OpenChangeCalled(o)])
    ensures !props.hasOnOpenChange ==> r.effects == [] && r.state.internalOpen == o
  {
    if props.hasOnOpenChange then Step(st, [OpenChangeCalled(o)])
    else Step(st.(internalOpen := o), [])
  }

  /** Without an `open` prop and without a handler the dialog shows exactly what was
      requested; with an `open` prop it shows the prop whatever was requested. */
  lemma OpenRequestVisibility(props: Props, st: DialogState, o: bool)
    ensures props.open.None? && !props.hasOnOpenChange ==> Visible(props, SetDialogOpen(props, st, o).state) == o
    ensures props.open.Some? ==> Visible(props, SetDialogOpen(props, st, o).state) == props.open.value
  {
  }

  /** A sequence of open and close requests, in order. */
  function OpenRequests(props: Props, st: DialogState, requests: seq<bool>): Step
    decreases |requests|
  {
    if |requests| == 0 then Step(st, [])
    else
      var first := SetDialogOpen(props, st, requests[0]);
      var rest := OpenRequests(props, first.state, requests[1..]);
      Step(rest.state, first.effects + rest.effects)
  }

  /** Opening and closing, any number of times, leaves the values and errors alone,
      and without a handler the last request decides the internal flag. */
  lemma {:induction false} OpenRequestsKeepForm(props: Props, st: DialogState, requests: seq<bool>)
    ensures OpenRequests(props, st, requests).state.values == st.values
    ensures OpenRequests(props, st, requests).state.errors == st.errors
    ensures !props.hasOnOpenChange && |requests| > 0 ==>
      OpenRequests(props, st, requests).state.internalOpen == requests[|requests| - 1]
    decreases |requests|
  {
    if |requests| > 0 {
      var first := SetDialogOpen(props, st, requests[0]);
      OpenRequestsKeepForm(props, first.state, requests[1..]);
    }
  }

  /** How a select option's value prints (`value.toString()`). */
  function OptionText(v: OptionValue): string {
    match v
    case OptText(t) => t
    case OptNumber(n) => IntToDecimal(n)
  }

  /** The index of the first option whose value prints as `text`. */
  function FindOption(options: seq<SelectOption>, text: string): (r: Option<nat>)
    ensures r.Some? ==> r.value < |options| && OptionText(options[r.value].value) == text
    ensures r.Some? ==> forall j :: 0 <= j < r.value ==> OptionText(options[j].value) != text
    ensures r.None? ==> forall j :: 0 <= j < |options| ==> OptionText(options[j].value) != text
  {
    if |options| == 0 then None
    else if OptionText(options[0].value) == text then Some(0)
    else match FindOption(options[1..], text)
      case Some(i) => Some(i + 1)
      case None => None
  }

  /** `Number(text)`, with every non-integer outcome collapsed to NaN. */
  function NumberOf(text: string, toNumber: string -> Option<int>): Value {
    match toNumber(text)
    case Some(n) => Num(n)
    case None => NaN
  }

  /** What a change event's text becomes in the form values: empty text clears the
      field; a select converts only when the first matching option is numeric; a
      number input converts; anything else stays text. */
  function Normalise(kind: InputKind, options: seq<SelectOption>, text: string, toNumber: string -> Option<int>): (v: Value)
    ensures text == "" <==> v == Undefined
    ensures text != "" && kind == SelectInput ==>
      var i := FindOption(options, text);
      if i.Some? && options[i.value].value.OptNumber? then v == NumberOf(text, toNumber) else v == Str(text)
    ensures text != "" && kind == NumberInput ==> v == NumberOf(text, toNumber)
    ensures text != "" && kind != SelectInput && kind != NumberInput ==> v == Str(text)
  {
    if text == "" then Undefined
    else if kind == SelectInput then
      match FindOption(options, text)
      case Some(i) => if options[i].value.OptNumber? then NumberOf(text, toNumber) else Str(text)
      case None => Str(text)
    else if kind == NumberInput then NumberOf(text, toNumber)
    else Str(text)
  }

  /** The value an option stands for in the form values. */
  function OptionAsValue(v: OptionValue): Value {
    match v
    case OptText(t) => Str(t)
    case OptNumber(n) => Num(n)
  }

  /** Choosing an option stores that option's own value, provided no earlier option
      prints the same, a text option is not empty, and `Number` reads printed integers. */
  lemma SelectStoresOption(options: seq<SelectOption>, i: nat, toNumber: string -> Option<int>)
    requires i < |options|
    requires forall j :: 0 <= j < i ==> OptionText(options[j].value) != OptionText(options[i].value)
    requires options[i].value.OptText? ==> options[i].value.text != ""
    requires options[i].value.OptNumber? ==> toNumber(IntToDecimal(options[i].value.n)) == Some(options[i].value.n)
    ensures Normalise(SelectInput, options, OptionText(options[i].value), toNumber) == OptionAsValue(options[i].value)
  {
    var text := OptionText(options[i].value);
    if options[i].value.OptNumber? {
      var d := NatToDecimal(if options[i].value.n < 0 then -options[i].value.n else options[i].value.n);
      assert |d| >= 1;
    }
    var found := FindOption(options, text);
    assert found == Some(i);
  }

  /** The text an input box shows for a value (`value || ''`). */
  function ShownText(v: Value): (t: string)
    ensures !Truthy(v) ==> t == ""
  {
    if Truthy(v) then JsString(v) else ""
  }

  /** Editing nothing keeps a value: what a text input shows normalises back to it for
      non-empty text, and a number input's for every non-zero integer; a zero shows as
      an empty box, which normalises to undefined. */
  lemma ShownTextRoundTrip(v: Value, toNumber: string -> Option<int>)
    ensures v.Str? && v.s != "" ==> Normalise(TextInput, [], ShownText(v), toNumber) == v
    ensures v.Num? && v.n != 0 && toNumber(IntToDecimal(v.n)) == Some(v.n) ==>
      Normalise(NumberInput, [], ShownText(v), toNumber) == v
    ensures v == Num(0) ==> Normalise(NumberInput, [], ShownText(v), toNumber) == Undefined
  {
    if v.Num? && v.n != 0 {
      var d := NatToDecimal(if v.n < 0 then -v.n else v.n);
      assert |d| >= 1;
    }
  }

  /** Whether an issue names a field: its first path segment is truthy. */
  predicate NamesField(issue: Issue) {
    |issue.path| > 0 && SegmentTruthy(issue.path[0])
  }

  function FieldKey(issue: Issue): string
    requires NamesField(issue)
  {
    SegmentText(issue.path[0])
  }

  /** The field errors after a rejected parse: cleared, then each issue that names a
      field sets that field's message, in order. */
  function IssueErrors(issues: seq<Issue>): (r: map<string, string>)
    ensures forall i :: 0 <= i < |issues| && NamesField(issues[i]) ==> FieldKey(issues[i]) in r
  {
    if |issues| == 0 then map[]
    else
      var prev := IssueErrors(issues[..|issues| - 1]);
      var last := issues[|issues| - 1];
      assert forall i :: 0 <= i < |issues| - 1 ==> issues[i] == issues[..|issues| - 1][i];
      if NamesField(last) then prev[FieldKey(last) := last.message] else prev
  }

  /** The message of the last issue naming field `k`, searching from the front. */
  function LastMessage(issues: seq<Issue>, k: string): Option<string> {
    if |issues| == 0 then None
    else match LastMessage(issues[1..], k)
      case Some(m) => Some(m)
      case None => if NamesField(issues[0]) && FieldKey(issues[0]) == k then Some(issues[0].message) else None
  }

  lemma {:induction false} LastMessageOfSnoc(issues: seq<Issue>, x: Issue, k: string)
    ensures LastMessage(issues + [x], k) ==
      if NamesField(x) && FieldKey(x) == k then Some(x.message) else LastMessage(issues, k)
  {
    if |issues| == 0 {
      assert (issues + [x])[1..] == [];
    } else {
      assert (issues + [x])[1..] == issues[1..] + [x];
      LastMessageOfSnoc(issues[1..], x, k);
    }
  }

  /** A field has an error exactly when some issue names it, and the error shown is
      the message of the last such issue. */
  lemma {:induction false} IssueErrorsAreLastMessages(issues: seq<Issue>, k: string)
    ensures k in IssueErrors(issues) <==> LastMessage(issues, k).Some?
    ensures k in IssueErrors(issues) ==> IssueErrors(issues)[k] == LastMessage(issues, k).value
  {
    if |issues| > 0 {
      var init := issues[..|issues| - 1];
      IssueErrorsAreLastMessages(init, k);
      assert issues == init + [issues[|issues| - 1]];
      LastMessageOfSnoc(init, issues[|issues| - 1], k);
    }
  }

  /** The parsed data without its undefined-valued entries. */
  function DropUndefined(data: Rec): (r: Rec)
    ensures forall k :: k in r <==> k in data && data[k] != Undefined
    ensures forall k :: k in r ==> r[k] == data[k]
  {
    map k | k in data && data[k] != Undefined :: data[k]
  }

  const ValidationNotice := "Please fix the validation errors"
  const FailureNotice := "Something went wrong"
  const SavedNotice := "Saved successfully"

  /** The key react-hook-form keeps form-level errors under; its submit wrapper drops it. */
  const RootErrorKey := "root"

  /** The errors left after react-hook-form's submit wrapper re-validates the form: each
      configured field is registered through `FormField` with no rules, so it passes and
      loses its error, and the form-level error is dropped; an error on any other key
      survives. */
  function StaleErrors(fields: seq<FieldConfig>, errors: map<string, string>): (r: map<string, string>)
    ensures r.Keys <= errors.Keys
    ensures forall k :: k in r ==> k !in Names(fields) && k != RootErrorKey && r[k] == errors[k]
    ensures forall k :: k in errors && k !in Names(fields) && k != RootErrorKey ==> k in r
  {
    map k | k in errors && k !in Names(fields) && k != RootErrorKey :: errors[k]
  }

  /** A surviving error stops the wrapper before it calls `handleSubmit`. */
  predicate Blocked(fields: seq<FieldConfig>, errors: map<string, string>) {
    StaleErrors(fields, errors) != map[]
  }

  /** A submit of the form: react-hook-form's wrapper clears the configured fields'
      errors and, unless an error on another key survives, calls `handleSubmit` on the
      current values. That validates; on rejection it sets the field errors and stops;
      otherwise it calls `onSubmit` once with the defined part of the data and, unless
      it throws, resets to the merged defaults and asks to close. A throw from
      `onSubmit` (or from validation) only produces an error notice. */
  function Submit(cfg: Config, props: Props, st: DialogState): (r: Step)
    ensures Blocked(cfg.fields, st.errors) ==> r == Step(st.(errors := StaleErrors(cfg.fields, st.errors)), [])
    ensures !Blocked(cfg.fields, st.errors) && cfg.schema(st.values).ParseThrew? ==>
      r == Step(st.(errors := map[]), [Notify(ErrorNotice, FailureNotice)])
    ensures !Blocked(cfg.fields, st.errors) && cfg.schema(st.values).Rejected? ==>
      r == Step(st.(errors := IssueErrors(cfg.schema(st.values).issues)), [Notify(ErrorNotice, ValidationNotice)])
    ensures !Blocked(cfg.fields, st.errors) && cfg.schema(st.values).Parsed? ==>
      var payload := DropUndefined(cfg.schema(st.values).data);
      var inv := cfg.onSubmit(payload);
      && |r.effects| >= 2 + |inv.effects|
      && r.effects[..1 + |inv.effects|] == [SubmitCalled(payload)] + inv.effects
      && (inv.outcome.Raised? ==>
        r == Step(st.(errors := map[]), [SubmitCalled(payload)] + inv.effects + [Notify(ErrorNotice, FailureNotice)]))
      && (inv.outcome.Returned? ==>
        && r.state.values == MergedDefaults(cfg, props)
        && r.state.errors == map[]
        && r.effects[1 + |inv.effects|] == Notify(SuccessNotice, SavedNotice)
        && (props.hasOnOpenChange ==> r.effects[|r.effects| - 1] == OpenChangeCalled(false))
        && (!props.hasOnOpenChange ==> !r.state.internalOpen))
  {
    if Blocked(cfg.fields, st.errors) then Step(st.(errors := StaleErrors(cfg.fields, st.errors)), [])
    else
      var ready := st.(errors := map[]);
      match cfg.schema(st.values)
      case ParseThrew => Step(ready, [Notify(ErrorNotice, FailureNotice)])
      case Rejected(issues) => Step(ready.(errors := IssueErrors(issues)), [Notify(ErrorNotice, ValidationNotice)])
      case Parsed(data) =>
        var payload := DropUndefined(data);
        var inv := cfg.onSubmit(payload);
        var called := [SubmitCalled(payload)] + inv.effects;
        match inv.outcome
        case Raised(_) => Step(ready, called + [Notify(ErrorNotice, FailureNotice)])
        case Returned(_) =>
          var reset := ready.(values := MergedDefaults(cfg, props));
          var closed := SetDialogOpen(props, reset, false);
          Step(closed.state, called + [Notify(SuccessNotice, SavedNotice)] + closed.effects)
  }

  /** Errors only on configured fields (or the form-level key) never stop a submit. */
  lemma FieldErrorsDoNotBlock(cfg: Config, st: DialogState)
    requires forall k :: k in st.errors ==> k in Names(cfg.fields) || k == RootErrorKey
    ensures !Blocked(cfg.fields, st.errors)
  {
  }

  /** A blocked submit calls nothing, shows nothing, keeps the values and the open state,
      and leaves exactly the errors on keys outside the configured fields. */
  lemma BlockedSubmitDoesNothing(cfg: Config, props: Props, st: DialogState)
    requires Blocked(cfg.fields, st.errors)
    ensures Submit(cfg, props, st).effects == []
    ensures Submit(cfg, props, st).state.values == st.values
    ensures Submit(cfg, props, st).state.internalOpen == st.internalOpen
    ensures forall k :: k in Submit(cfg, props, st).state.errors <==>
      k in st.errors && k !in Names(cfg.fields) && k != RootErrorKey
  {
  }

  /** A rejection with an issue on a key that is not a configured field leaves an error
      the next submit cannot clear: that submit is blocked, whatever the values. */
  lemma UnconfiguredIssueBlocksNextSubmit(cfg: Config, props: Props, st: DialogState, i: nat, values: Rec)
    requires !Blocked(cfg.fields, st.errors) && cfg.schema(st.values).Rejected?
    requires i < |cfg.schema(st.values).issues| && NamesField(cfg.schema(st.values).issues[i])
    requires FieldKey(cfg.schema(st.values).issues[i]) !in Names(cfg.fields)
    requires FieldKey(cfg.schema(st.values).issues[i]) != RootErrorKey
    ensures Blocked(cfg.fields, Submit(cfg, props, st).state.errors)
  {
  }

  /** A rejected submit never reaches `onSubmit`, keeps the entered values and the open
      state and, unless blocked, leaves an error on every field an issue names. */
  lemma ValidationBlocksSubmit(cfg: Config, props: Props, st: DialogState)
    requires cfg.schema(st.values).Rejected?
    ensures forall e :: e in Submit(cfg, props, st).effects ==> !e.SubmitCalled? && !e.OpenChangeCalled?
    ensures Submit(cfg, props, st).state.values == st.values
    ensures Submit(cfg, props, st).state.internalOpen == st.internalOpen
    ensures !Blocked(cfg.fields, st.errors) ==>
      forall i :: 0 <= i < |cfg.schema(st.values).issues| && NamesField(cfg.schema(st.values).issues[i]) ==>
        FieldKey(cfg.schema(st.values).issues[i]) in Submit(cfg, props, st).state.errors
  {
  }

  /** A submit whose `onSubmit` throws keeps the entered values and the open state,
      clears the configured fields' errors, and asks nobody to close; unless blocked,
      it ends on the error notice. */
  lemma FailedSubmitKeepsInput(cfg: Config, props: Props, st: DialogState)
    requires cfg.schema(st.values).Parsed?
    requires cfg.onSubmit(DropUndefined(cfg.schema(st.values).data)).outcome.Raised?
    requires forall e :: e in cfg.onSubmit(DropUndefined(cfg.schema(st.values).data)).effects ==> !e.OpenChangeCalled?
    ensures Submit(cfg, props, st).state == st.(errors := StaleErrors(cfg.fields, st.errors))
    ensures forall k :: k in Names(cfg.fields) ==> k !in Submit(cfg, props, st).state.errors
    ensures forall e :: e in Submit(cfg, props, st).effects ==> !e.OpenChangeCalled?
    ensures !Blocked(cfg.fields, st.errors) ==>
      Submit(cfg, props, st).effects[|Submit(cfg, props, st).effects| - 1] == Notify(ErrorNotice, FailureNotice)
  {
  }

  /** Whatever `onSubmit` returns, once it returns the uncontrolled dialog is closed and
      shows the merged defaults again. */
  lemma SuccessfulSubmitCloses(cfg: Config, props: Props, st: DialogState)
    requires cfg.schema(st.values).Parsed?
    requires !Blocked(cfg.fields, st.errors)
    requires cfg.onSubmit(DropUndefined(cfg.schema(st.values).data)).outcome.Returned?
    requires props.open.None? && !props.hasOnOpenChange
    ensures !Visible(props, Submit(cfg, props, st).state)
    ensures forall k :: k in props.defaults ==> Submit(cfg, props, st).state.values[k] == props.defaults[k]
  {
  }

  /** After a successful parse the first call is the submit with the payload, and the
      calls `onSubmit` makes follow it in order. */
  lemma SubmitCallsFirst(cfg: Config, props: Props, st: DialogState, i: nat)
    requires cfg.schema(st.values).Parsed?
    requires !Blocked(cfg.fields, st.errors)
    requires i < |cfg.onSubmit(DropUndefined(cfg.schema(st.values).data)).effects|
    ensures |Submit(cfg, props, st).effects| > i + 1
    ensures Submit(cfg, props, st).effects[0] == SubmitCalled(DropUndefined(cfg.schema(st.values).data))
    ensures Submit(cfg, props, st).effects[i + 1] == cfg.onSubmit(DropUndefined(cfg.schema(st.values).data)).effects[i]
  {
    var r := Submit(cfg, props, st);
    var inv := cfg.onSubmit(DropUndefined(cfg.schema(st.values).data));
    assert r.effects[0] == r.effects[..1 + |inv.effects|][0];
    assert r.effects[i + 1] == r.effects[..1 + |inv.effects|][i + 1];
  }

  /** A save under a caller's `onOpenChange`: the submit, the calls `onSubmit` made, the
      saved notice, then one close request, and nothing else. */
  lemma SavedSubmitEffects(cfg: Config, props: Props, st: DialogState)
    requires cfg.schema(st.values).Parsed?
    requires !Blocked(cfg.fields, st.errors)
    requires cfg.onSubmit(DropUndefined(cfg.schema(st.values).data)).outcome.Returned?
    requires props.hasOnOpenChange
    ensures var payload := DropUndefined(cfg.schema(st.values).data);
      Submit(cfg, props, st).effects
        == [SubmitCalled(payload)] + cfg.onSubmit(payload).effects + [Notify(SuccessNotice, SavedNotice), OpenChangeCalled(false)]
  {
    var payload := DropUndefined(cfg.schema(st.values).data);
    var reset := st.(values := MergedDefaults(cfg, props), errors := map[]);
    assert SetDialogOpen(props, reset, false).effects == [OpenChangeCalled(false)];
  }

  /** The payload holds exactly the parsed keys whose value is defined. */
  lemma PayloadIsDefinedData(cfg: Config, props: Props, st: DialogState)
    requires cfg.schema(st.values).Parsed?
    requires !Blocked(cfg.fields, st.errors)
    ensures Submit(cfg, props, st).effects[0].SubmitCalled?
    ensures var payload := Submit(cfg, props, st).effects[0].payload;
      var data := cfg.schema(st.values).data;
      && (forall k :: k in payload <==> k in data && data[k] != Undefined)
      && (forall k :: k in payload ==> payload[k] == data[k])
  {
    var r := Submit(cfg, props, st);
    assert r.effects[..1][0] == r.effects[0];
  }

  /** A value-level change test standing for the effect's `JSON.stringify` dependency:
      two records are the same when their defined entries agree. Like the printed text
      it ignores undefined entries; unlike it, it ignores key order and tells apart
      values that print alike (`NaN` and `null`, nested `undefined` and absence). */
  predicate SameDefinedEntries(a: Rec, b: Rec) {
    DropUndefined(a) == DropUndefined(b)
  }

  predicate SameFactoryDefaults(a: Option<Rec>, b: Option<Rec>) {
    match (a, b)
    case (None, None) => true
    case (Some(x), Some(y)) => SameDefinedEntries(x, y)
    case _ => false
  }

  /** The effect keyed on both defaults: when either changed since the last render,
      the form is reset to the merged defaults. */
  function Resync(prevFactory: Option<Rec>, prevInstance: Rec, cfg: Config, props: Props, st: DialogState): (r: DialogState)
    ensures SameFactoryDefaults(prevFactory, cfg.defaults) && SameDefinedEntries(prevInstance, props.defaults) ==> r == st
    ensures !(SameFactoryDefaults(prevFactory, cfg.defaults) && SameDefinedEntries(prevInstance, props.defaults)) ==>
      r == st.(values := MergedDefaults(cfg, props), errors := map[])
  {
    if SameFactoryDefaults(prevFactory, cfg.defaults) && SameDefinedEntries(prevInstance, props.defaults) then st
    else st.(values := MergedDefaults(cfg, props), errors := map[])
  }

  /** New instance defaults that differ are shown after the resync, and
      the instance defaults win over the factory's. */
  lemma ResyncShowsNewDefaults(prevFactory: Option<Rec>, prevInstance: Rec, cfg: Config, props: Props, st: DialogState)
    requires !SameDefinedEntries(prevInstance, props.defaults)
    ensures forall k :: k in props.defaults ==>
      Resync(prevFactory, prevInstance, cfg, props, st).values[k] == props.defaults[k]
  {
  }

  /** Adding or removing undefined-valued entries alone does not trigger a resync. */
  lemma UndefinedEntriesDoNotResync(prev: Rec, k: string, cfg: Config, props: Props, st: DialogState)
    requires props.defaults == prev[k := Undefined]
    requires k !in prev
    ensures Resync(cfg.defaults, prev, cfg, props, st) == st
  {
    assert DropUndefined(prev) == DropUndefined(prev[k := Undefined]);
    match cfg.defaults
    case None =>
    case Some(x) => assert SameDefinedEntries(x, x);
  }
}

=== FILE: json.dfy ===
/** `JSON.stringify` on the values the formatters meet, with its string quoting and a
    reader for quoted strings that undoes it. */
module Json {
  import opened Wrappers
  import opened Text
  import opened Values

  function HexDigit(d: nat): (c: char)
    requires d < 16
  {
    "0123456789abcdef"[d]
  }

  function HexValue(c: char): Option<nat> {
    if '0' <= c <= '9' then Some(c as int - '0' as int)
    else if 'a' <= c <= 'f' then Some(c as int - 'a' as int + 10)
    else if 'A' <= c <= 'F' then Some(c as int - 'A' as int + 10)
    else None
  }

  lemma HexValueOfDigit(d: nat)
    requires d < 16
    ensures HexValue(HexDigit(d)) == Some(d)
  {
    var digits := "0123456789abcdef";
    if d < 10 {
      assert digits[d] as int == '0' as int + d;
    } else {
      assert digits[d] as int == 'a' as int + d - 10;
    }
  }

  /** How one character is written inside a JSON string: the quote and the backslash
      are escaped, the five named controls get their short escape, the other controls
      below U+0020 a `\u00xx` escape, and everything else stands for itself. */
  function EscapeChar(c: char): string {
    if c == '"' then "\\\""
    else if c == '\\' then "\\\\"
    else if c == '\U{0008}' then "\\b"
    else if c == '\U{000C}' then "\\f"
    else if c == '\n' then "\\n"
    else if c == '\r' then "\\r"
    else if c == '\t' then "\\t"
    else if c < ' ' then "\\u00" + [HexDigit(c as int / 16), HexDigit(c as int % 16)]
    else [c]
  }

  function Escape(s: string): string {
    if |s| == 0 then "" else EscapeChar(s[0]) + Escape(s[1..])
  }

  /** `JSON.stringify` of a string. */
  function Quote(s: string): string {
    "\"" + Escape(s) + "\""
  }

  /** Reads the inside of a JSON string back; `None` for text JSON does not allow there
      (a bare quote, a raw control character, an unknown or cut-off escape). */
  function Unescape(t: string): Option<string>
    decreases |t|
  {
    if |t| == 0 then Some("")
    else if t[0] == '\\' then
      if |t| < 2 then None
      else
        var simple := SimpleEscape(t[1]);
        if simple.Some? then
          match Unescape(t[2..])
          case Some(rest) => Some([simple.value] + rest)
          case None => None
        else if t[1] == 'u' && |t| >= 6 then
          var code := HexCode(t[2..6]);
          if code.Some? && (code.value < 0xD800 || 0xDFFF < code.value) then
            match Unescape(t[6..])
            case Some(rest) => Some([code.value as char] + rest)
            case None => None
          else None
        else None
    else if t[0] == '"' || t[0] < ' ' then None
    else
      match Unescape(t[1..])
      case Some(rest) => Some([t[0]] + rest)
      case None => None
  }

  /** The character a one-letter escape stands for. */
  function SimpleEscape(c: char): Option<char> {
    if c == '"' then Some('"')
    else if c == '\\' then Some('\\')
    else if c == '/' then Some('/')
    else if c == 'b' then Some('\U{0008}')
    else if c == 'f' then Some('\U{000C}')
    else if c == 'n' then Some('\n')
    else if c == 'r' then Some('\r')
    else if c == 't' then Some('\t')
    else None
  }

  /** The value of four hexadecimal digits. */
  function HexCode(h: string): (r: Option<nat>)
    requires |h| == 4
    ensures r.Some? ==> r.value < 0x10000
  {
    match (HexValue(h[0]), HexValue(h[1]), HexValue(h[2]), HexValue(h[3]))
    case (Some(a), Some(b), Some(c), Some(d)) =>
      if a < 16 && b < 16 && c < 16 && d < 16 then Some(((a * 16 + b) * 16 + c) * 16 + d) else None
    case _ => None
  }

  /** `JSON.parse` of a string literal. */
  function Unquote(q: string): Option<string> {
    if |q| >= 2 && q[0] == '"' && q[|q| - 1] == '"' then Unescape(q[1..|q| - 1]) else None
  }

  /** Reading one escaped character back, whatever follows it. */
  lemma UnescapeOneChar(c: char, t: string)
    ensures Unescape(EscapeChar(c) + t) == match Unescape(t) case Some(rest) => Some([c] + rest) case None => None
  {
    var e := EscapeChar(c);
    if c == '"' || c == '\\' || c == '\U{0008}' || c == '\U{000C}' || c == '\n' || c == '\r' || c == '\t' {
      assert (e + t)[0] == '\\' && (e + t)[2..] == t;
    } else if c < ' ' {
      var h := [HexDigit(c as int / 16), HexDigit(c as int % 16)];
      assert e == "\\u00" + h;
      assert (e + t)[2..6] == "00" + h;
      assert (e + t)[6..] == t;
      HexValueOfDigit(c as int / 16);
      HexValueOfDigit(c as int % 16);
      HexValueOfDigit(0);
      assert HexCode((e + t)[2..6]) == Some(c as int);
    } else {
      assert e == [c];
      assert (e + t)[1..] == t;
    }
  }

  /** Quoting round-trips: reading the quoted text gives the string back. */
  lemma {:induction false} UnescapeEscape(s: string)
    ensures Unescape(Escape(s)) == Some(s)
  {
    if |s| > 0 {
      UnescapeEscape(s[1..]);
      UnescapeOneChar(s[0], Escape(s[1..]));
      assert [s[0]] + s[1..] == s;
    }
  }

  lemma UnquoteQuote(s: string)
    ensures Unquote(Quote(s)) == Some(s)
  {
    var q := Quote(s);
    assert q[1..|q| - 1] == Escape(s);
    UnescapeEscape(s);
  }

  /** `JSON.stringify(v)`: `None` where it returns `undefined` (for `undefined` itself).
      Inside an array such an element prints as `null`; inside an object the entry is
      left out. `NaN` prints as `null`. */
  function Stringify(v: Value): (r: Option<string>)
    ensures r.None? <==> v.Undefined?
    decreases v, 1
  {
    match v
    case Undefined => None
    case Null => Some("null")
    case Bool(b) => Some(if b then "true" else "false")
    case Num(n) => Some(IntToDecimal(n))
    case NaN => Some("null")
    case Str(s) => Some(Quote(s))
    case Arr(items) => Some("[" + Join(Elements(v, items), ",") + "]")
    case Obj(entries) => Some("{" + Join(Members(v, entries), ",") + "}")
  }

  function Elements(v: Value, items: seq<Value>): (r: seq<string>)
    requires forall i :: 0 <= i < |items| ==> items[i] < v
    ensures |r| == |items|
    decreases v, 0, |items|
  {
    if |items| == 0 then [] else [Stringify(items[0]).GetOr("null")] + Elements(v, items[1..])
  }

  /** The `"key":value` members of an object, skipping the undefined-valued entries. */
  function Members(v: Value, entries: seq<(string, Value)>): (r: seq<string>)
    requires forall i :: 0 <= i < |entries| ==> entries[i].1 < v
    ensures |r| <= |entries|
    decreases v, 0, |entries|
  {
    if |entries| == 0 then []
    else
      var rest := Members(v, entries[1..]);
      match Stringify(entries[0].1)
      case None => rest
      case Some(text) => [Quote(entries[0].0) + ":" + text] + rest
  }

  /** The members of an object do not depend on which object is being printed. */
  lemma {:induction false} MembersOfEntries(v: Value, w: Value, entries: seq<(string, Value)>)
    requires forall i :: 0 <= i < |entries| ==> entries[i].1 < v
    requires forall i :: 0 <= i < |entries| ==> entries[i].1 < w
    ensures Members(v, entries) == Members(w, entries)
    decreases |entries|
  {
    if |entries| > 0 {
      MembersOfEntries(v, w, entries[1..]);
    }
  }

  /** Each element of an array prints as its own text, and an `undefined` one as `null`. */
  lemma {:induction false} ElementsFollowItems(v: Value, items: seq<Value>)
    requires forall i :: 0 <= i < |items| ==> items[i] < v
    ensures forall i :: 0 <= i < |items| ==> Elements(v, items)[i] == Stringify(items[i]).GetOr("null")
    decreases |items|
  {
    if |items| > 0 {
      ElementsFollowItems(v, items[1..]);
      var e := Elements(v, items);
      assert e == [Stringify(items[0]).GetOr("null")] + Elements(v, items[1..]);
      forall i | 1 <= i < |items| ensures e[i] == Stringify(items[i]).GetOr("null") {
        assert items[1..][i - 1] == items[i];
      }
    }
  }

  /** The entries an object prints, in order: those whose value is defined. */
  function DefinedEntries(entries: seq<(string, Value)>): (d: seq<(string, Value)>)
    ensures forall e :: e in d <==> e in entries && e.1 != Undefined
  {
    if |entries| == 0 then []
    else
      assert forall e :: e in entries <==> e == entries[0] || e in entries[1..];
      (if entries[0].1 == Undefined then [] else [entries[0]]) + DefinedEntries(entries[1..])
  }

  /** An object prints one `"key":value` member for each defined entry, in the entries'
      order. */
  lemma {:induction false} MembersAreDefinedEntries(v: Value, entries: seq<(string, Value)>)
    requires forall i :: 0 <= i < |entries| ==> entries[i].1 < v
    ensures var d := DefinedEntries(entries); var m := Members(v, entries);
      |m| == |d| && forall i :: 0 <= i < |d| ==> m[i] == Quote(d[i].0) + ":" + Stringify(d[i].1).value
    decreases |entries|
  {
    if |entries| > 0 {
      MembersAreDefinedEntries(v, entries[1..]);
      var d := DefinedEntries(entries);
      var m := Members(v, entries);
      if entries[0].1 != Undefined {
        var head := Quote(entries[0].0) + ":" + Stringify(entries[0].1).value;
        assert m == [head] + Members(v, entries[1..]);
        assert d == [entries[0]] + DefinedEntries(entries[1..]);
        forall i | 1 <= i < |d| ensures m[i] == Quote(d[i].0) + ":" + Stringify(d[i].1).value {
          assert d[i] == DefinedEntries(entries[1..])[i - 1];
        }
      } else {
        assert d == DefinedEntries(entries[1..]);
      }
    }
  }

  /** An entry whose value is `undefined` leaves no trace in the printed object. */
  lemma UndefinedEntryVanishes(k: string, entries: seq<(string, Value)>)
    ensures Stringify(Obj([(k, Undefined)] + entries)) == Stringify(Obj(entries))
  {
    var all := [(k, Undefined)] + entries;
    assert all[1..] == entries;
    MembersOfEntries(Obj(all), Obj(entries), entries);
  }

  /** A printed string reads back as that string. */
  lemma StringifyStringRoundTrip(s: string)
    ensures Stringify(Str(s)).Some? && Unquote(Stringify(Str(s)).value) == Some(s)
  {
    UnquoteQuote(s);
  }
}

=== FILE: lookup_edit.dfy ===
/** The lookup-then-edit wrapper `withLookup` (components/dialogs/LookupEditDialog.tsx):
    a two-screen state machine that asks for an ID, fetches the resource, then shows
    an edit dialog seeded from it. `fetchById` is a parameter that either returns a
    value or throws. */
module LookupEdit {
  import opened Wrappers
  import opened Values
  import opened Effects
  import opened FieldInference
  import FormDialog

  datatype Phase = LookupPhase | EditPhase

  /** The wrapper's state: the screen, the fetched resource (null when none) and the
      internal open flag. */
  datatype State = State(phase: Phase, resource: Value, dialogOpen: bool)

  /** The wrapper's own props (`trigger` is presentation only). */
  datatype Props = Props(open: Option<bool>, hasOnOpenChange: bool)

  const Initial := State(LookupPhase, Null, false)

  datatype Transition = Transition(state: State, effects: seq<Effect>)

  /** Whether the wrapper shows: the `open` prop when given, else the internal flag. */
  function IsOpen(props: Props, st: State): bool {
    match props.open
    case Some(o) => o
    case None => st.dialogOpen
  }

  /** `setIsOpen`: the caller's `onOpenChange` when given, else the internal setter. */
  function SetIsOpen(props: Props, st: State, o: bool): (r: Transition)
    ensures r.state.phase == st.phase && r.state.resource == st.resource
    ensures props.hasOnOpenChange ==> r == Transition(st, [OpenChangeCalled(o)])
    ensures !props.hasOnOpenChange ==> r.effects == [] && r.state.dialogOpen == o
  {
    if props.hasOnOpenChange then Transition(st, [OpenChangeCalled(o)])
    else Transition(st.(dialogOpen := o), [])
  }

  const NotFoundNotice := "Could not find that ID"

  datatype Handled = Handled(state: State, inv: Invocation)

  /** `handleIdSubmit`: fetch the submitted id; on success store the resource, move to
      the edit screen and return it; on failure notify and throw the same error again,
      with the state untouched. */
  function HandleIdSubmit(st: State, payload: Rec, fetch: Value -> Outcome): (r: Handled)
    ensures fetch(At(payload, "id")).Returned? ==>
      && r.state == st.(phase := EditPhase, resource := fetch(At(payload, "id")).value)
      && r.inv == Invocation([FetchCalled(At(payload, "id"))], fetch(At(payload, "id")))
    ensures fetch(At(payload, "id")).Raised? ==>
      && r.state == st
      && r.inv == Invocation([FetchCalled(At(payload, "id")), Notify(ErrorNotice, NotFoundNotice)], fetch(At(payload, "id")))
  {
    var id := At(payload, "id");
    match fetch(id)
    case Returned(data) => Handled(st.(phase := EditPhase, resource := data), Invocation([FetchCalled(id)], Returned(data)))
    case Raised(err) => Handled(st, Invocation([FetchCalled(id), Notify(ErrorNotice, NotFoundNotice)], Raised(err)))
  }

  /** `handleDialogClose`: a close request first returns to the lookup screen and
      drops the resource; the request is then passed on. */
  function HandleDialogClose(props: Props, st: State, o: bool): (r: Transition)
    ensures !o ==> r.state.phase == LookupPhase && r.state.resource == Null
    ensures o ==> r.state.phase == st.phase && r.state.resource == st.resource
    ensures r.effects == (if props.hasOnOpenChange then [OpenChangeCalled(o)] else [])
    ensures !props.hasOnOpenChange ==> r.state.dialogOpen == o
    ensures props.hasOnOpenChange ==> r.state.dialogOpen == st.dialogOpen
  {
    var reset := if !o then st.(phase := LookupPhase, resource := Null) else st;
    SetIsOpen(props, reset, o)
  }

  /** The callback handed to the edit dialog: back to lookup, no resource, close. */
  function EditDone(props: Props, st: State): (r: Transition)
    ensures r.state.phase == LookupPhase && r.state.resource == Null
    ensures props.hasOnOpenChange ==> r.effects == [OpenChangeCalled(false)]
    ensures !props.hasOnOpenChange ==> !IsOpen(props, r.state) || props.open == Some(true)
  {
    SetIsOpen(props, st.(phase := LookupPhase, resource := Null), false)
  }

  /** What the wrapper renders. The edit screen carries the instance props it passes on. */
  datatype Screen = IdScreen(dialogProps: FormDialog.Props) | EditScreen(dialogProps: FormDialog.Props) | NoScreen

  /** The props both screens receive: the wrapper's visibility and `handleDialogClose`. */
  function ScreenProps(props: Props, st: State, defaults: Rec): FormDialog.Props {
    FormDialog.Props(defaults, map[], Some(IsOpen(props, st)), true)
  }

  /** The lookup screen, or, on the edit screen, the edit dialog when a resource is
      held (seeded with `defaultsFrom(resource)`) and nothing otherwise. */
  function Render(props: Props, st: State, defaultsFrom: Value -> Rec): (r: Screen)
    ensures st.phase == LookupPhase <==> r.IdScreen?
    ensures r.EditScreen? <==> st.phase == EditPhase && Truthy(st.resource)
    ensures r.EditScreen? ==> r.dialogProps.defaults == defaultsFrom(st.resource)
    ensures !r.NoScreen? ==> r.dialogProps.open == Some(IsOpen(props, st)) && r.dialogProps.hasOnOpenChange
  {
    match st.phase
    case LookupPhase => IdScreen(ScreenProps(props, st, map[]))
    case EditPhase => if Truthy(st.resource) then EditScreen(ScreenProps(props, st, defaultsFrom(st.resource))) else NoScreen
  }

  const IdField := FormDialog.FieldConfig("id", "ID", Some("Enter ID…"), Some(NumberInput), [])

  /** The ID dialog: one field, `id`, always a number input, titled after the wrapper. */
  function IdDialogConfig(title: string, idSchema: Rec -> ParseOutcome, idShape: Shape, st: State, fetch: Value -> Outcome): (cfg: FormDialog.Config)
    ensures cfg.fields == [IdField] && cfg.defaults.None?
    ensures cfg.title == title + " – Select ID"
    ensures forall f :: f in cfg.fields ==> FormDialog.KindOf(cfg, f) == NumberInput
  {
    FormDialog.Config(idSchema, idShape, [IdField], title + " – Select ID",
      payload => HandleIdSubmit(st, payload, fetch).inv, None)
  }

  /** The wrapper's events, as its handlers receive them. */
  datatype Event = IdSubmitted(payload: Rec) | OpenRequested(open: bool) | EditSaved

  function Apply(props: Props, st: State, e: Event, fetch: Value -> Outcome): State {
    match e
    case IdSubmitted(payload) => HandleIdSubmit(st, payload, fetch).state
    case OpenRequested(o) => HandleDialogClose(props, st, o).state
    case EditSaved => EditDone(props, st).state
  }

  function Run(props: Props, st: State, events: seq<Event>, fetch: Value -> Outcome): State
    decreases |events|
  {
    if |events| == 0 then st else Run(props, Apply(props, st, events[0], fetch), events[1..], fetch)
  }

  /** The edit screen always has a resource to show. */
  predicate Consistent(st: State) {
    st.phase == EditPhase ==> Truthy(st.resource)
  }

  /** When every successful fetch yields a truthy value, every sequence of events from a
      consistent state (such as the initial one) keeps the wrapper consistent, so the
      edit screen never renders nothing. */
  lemma {:induction false} RunKeepsConsistent(props: Props, st: State, events: seq<Event>, fetch: Value -> Outcome)
    requires forall v :: fetch(v).Returned? ==> Truthy(fetch(v).value)
    requires Consistent(st)
    ensures Consistent(Run(props, st, events, fetch))
    ensures !Render(props, Run(props, st, events, fetch), v => map[]).NoScreen?
    decreases |events|
  {
    if |events| > 0 {
      var next := Apply(props, st, events[0], fetch);
      assert Consistent(next);
      RunKeepsConsistent(props, next, events[1..], fetch);
    }
  }

  lemma InitialIsConsistent()
    ensures Consistent(Initial)
    ensures Initial.phase == LookupPhase && Initial.resource == Null && !Initial.dialogOpen
  {
  }

  /** An open request changes neither the screen nor the resource. */
  lemma OpenRequestKeepsScreen(props: Props, st: State, defaultsFrom: Value -> Rec)
    ensures var next := HandleDialogClose(props, st, true).state;
      next.phase == st.phase && next.resource == st.resource
      && Render(props, next, defaultsFrom).EditScreen? == Render(props, st, defaultsFrom).EditScreen?
  {
  }

  /** The result of submitting the ID dialog through the factory, as seen by the
      wrapper: its state after `handleIdSubmit` and after every `onOpenChange` call the
      factory makes (each one is `handleDialogClose`), with the effects in order. */
  function SubmitIdDialog(props: Props, st: State, dialog: FormDialog.DialogState, title: string,
                          idSchema: Rec -> ParseOutcome, idShape: Shape, fetch: Value -> Outcome): Transition
  {
    var cfg := IdDialogConfig(title, idSchema, idShape, st, fetch);
    var step := FormDialog.Submit(cfg, ScreenProps(props, st, map[]), dialog);
    var afterFetch :=
      if FormDialog.Blocked(cfg.fields, dialog.errors) then st
      else match idSchema(dialog.values)
        case Parsed(data) => HandleIdSubmit(st, FormDialog.DropUndefined(data), fetch).state
        case _ => st;
    Dispatch(props, afterFetch, step.effects)
  }

  /** Routes the calls a screen makes back into the wrapper: `onOpenChange` is
      `handleDialogClose` and the edit dialog's `onSuccess` is the reset-and-close
      callback; every other effect passes through. */
  function Dispatch(props: Props, st: State, effects: seq<Effect>): (r: Transition)
    ensures (forall e :: e in effects ==> !e.OpenChangeCalled? && !e.SuccessCalled?) ==> r == Transition(st, effects)
    decreases |effects|
  {
    if |effects| == 0 then Transition(st, [])
    else
      var head := DispatchOne(props, st, effects[0]);
      var rest := Dispatch(props, head.state, effects[1..]);
      Transition(rest.state, head.effects + rest.effects)
  }

  function DispatchOne(props: Props, st: State, e: Effect): Transition {
    match e
    case OpenChangeCalled(o) => HandleDialogClose(props, st, o)
    case SuccessCalled => EditDone(props, st)
    case _ => Transition(st, [e])
  }

  /** Once a close request or an edit success has been dispatched, the wrapper is on
      the lookup screen without a resource, whatever follows short of an open request
      or a new lookup. */
  lemma {:induction false} DispatchEndsInLookup(props: Props, st: State, effects: seq<Effect>, i: nat)
    requires i < |effects| && (effects[i] == OpenChangeCalled(false) || effects[i] == SuccessCalled)
    requires forall j :: i < j < |effects| ==> effects[j] != OpenChangeCalled(true)
    ensures Dispatch(props, st, effects).state.phase == LookupPhase
    ensures Dispatch(props, st, effects).state.resource == Null
    decreases |effects|
  {
    var head := DispatchOne(props, st, effects[0]);
    if i == 0 {
      DispatchKeepsLookup(props, head.state, effects[1..]);
    } else {
      DispatchEndsInLookup(props, head.state, effects[1..], i - 1);
    }
  }

  lemma {:induction false} DispatchKeepsLookup(props: Props, st: State, effects: seq<Effect>)
    requires st.phase == LookupPhase && st.resource == Null
    requires forall j :: 0 <= j < |effects| ==> effects[j] != OpenChangeCalled(true)
    ensures Dispatch(props, st, effects).state.phase == LookupPhase
    ensures Dispatch(props, st, effects).state.resource == Null
    decreases |effects|
  {
    if |effects| > 0 {
      DispatchKeepsLookup(props, DispatchOne(props, st, effects[0]).state, effects[1..]);
    }
  }

  /** Calls that are neither a close request nor a success pass through unchanged;
      a final open request is `handleDialogClose`. */
  lemma {:induction false} DispatchThenOpenRequest(props: Props, st: State, pre: seq<Effect>, o: bool)
    requires forall e :: e in pre ==> !e.OpenChangeCalled? && !e.SuccessCalled?
    ensures Dispatch(props, st, pre + [OpenChangeCalled(o)])
      == Transition(HandleDialogClose(props, st, o).state, pre + HandleDialogClose(props, st, o).effects)
    decreases |pre|
  {
    var x := OpenChangeCalled(o);
    if |pre| == 0 {
      assert pre + [x] == [x];
      assert [x][1..] == [];
    } else {
      assert (pre + [x])[0] == pre[0];
      assert (pre + [x])[1..] == pre[1..] + [x];
      assert forall e :: e in pre[1..] ==> e in pre;
      DispatchThenOpenRequest(props, st, pre[1..], o);
      assert [pre[0]] + (pre[1..] + HandleDialogClose(props, st, o).effects) == pre + HandleDialogClose(props, st, o).effects;
    }
  }

  /** With the factory as shown, a successful lookup never reaches the edit screen: the
      factory answers the returned resource by asking to close, which the wrapper
      handles as a close request, so it ends on the lookup screen without a resource.
      A failed lookup leaves the wrapper exactly as it was. */
  lemma LookupSuccessReturnsToLookup(props: Props, st: State, dialog: FormDialog.DialogState, title: string,
                                     idSchema: Rec -> ParseOutcome, idShape: Shape, fetch: Value -> Outcome)
    requires !FormDialog.Blocked([IdField], dialog.errors)
    requires idSchema(dialog.values).Parsed?
    ensures var payload := FormDialog.DropUndefined(idSchema(dialog.values).data);
      fetch(At(payload, "id")).Returned? ==>
        var r := SubmitIdDialog(props, st, dialog, title, idSchema, idShape, fetch);
        r.state.phase == LookupPhase && r.state.resource == Null
    ensures var payload := FormDialog.DropUndefined(idSchema(dialog.values).data);
      fetch(At(payload, "id")).Raised? ==>
        SubmitIdDialog(props, st, dialog, title, idSchema, idShape, fetch).state == st
  {
    var cfg := IdDialogConfig(title, idSchema, idShape, st, fetch);
    var sp := ScreenProps(props, st, map[]);
    var step := FormDialog.Submit(cfg, sp, dialog);
    var payload := FormDialog.DropUndefined(idSchema(dialog.values).data);
    var afterFetch := HandleIdSubmit(st, payload, fetch).state;
    if fetch(At(payload, "id")).Returned? {
      assert cfg.onSubmit(payload).outcome.Returned?;
      DispatchEndsInLookup(props, afterFetch, step.effects, |step.effects| - 1);
    } else {
      assert cfg.onSubmit(payload).outcome.Raised?;
      assert forall e :: e in step.effects ==> !e.OpenChangeCalled? && !e.SuccessCalled?;
    }
  }

  /** Submitting the edit screen's dialog, built by `buildEditDialog` with the
      wrapper's reset-and-close callback standing behind its `onSuccess` calls. */
  function SubmitEditDialog(props: Props, st: State, dialog: FormDialog.DialogState, editCfg: FormDialog.Config,
                            defaultsFrom: Value -> Rec): Transition
  {
    var step := FormDialog.Submit(editCfg, ScreenProps(props, st, defaultsFrom(st.resource)), dialog);
    Dispatch(props, st, step.effects)
  }

  /** A save whose edit action neither closes nor reports success itself: the calls pass
      through, and the factory's close request is `handleDialogClose`. */
  lemma QuietSaveDispatch(props: Props, st: State, dialog: FormDialog.DialogState, editCfg: FormDialog.Config,
                          defaultsFrom: Value -> Rec)
    requires !FormDialog.Blocked(editCfg.fields, dialog.errors)
    requires editCfg.schema(dialog.values).Parsed?
    requires editCfg.onSubmit(FormDialog.DropUndefined(editCfg.schema(dialog.values).data)).outcome.Returned?
    requires forall e :: e in editCfg.onSubmit(FormDialog.DropUndefined(editCfg.schema(dialog.values).data)).effects ==>
      !e.OpenChangeCalled? && !e.SuccessCalled?
    ensures var payload := FormDialog.DropUndefined(editCfg.schema(dialog.values).data);
      var closed := HandleDialogClose(props, st, false);
      SubmitEditDialog(props, st, dialog, editCfg, defaultsFrom)
        == Transition(closed.state, [SubmitCalled(payload)] + editCfg.onSubmit(payload).effects
                                    + [Notify(SuccessNotice, FormDialog.SavedNotice)] + closed.effects)
  {
    var payload := FormDialog.DropUndefined(editCfg.schema(dialog.values).data);
    var sp := ScreenProps(props, st, defaultsFrom(st.resource));
    FormDialog.SavedSubmitEffects(editCfg, sp, dialog);
    var pre := [SubmitCalled(payload)] + editCfg.onSubmit(payload).effects + [Notify(SuccessNotice, FormDialog.SavedNotice)];
    assert FormDialog.Submit(editCfg, sp, dialog).effects == pre + [OpenChangeCalled(false)];
    DispatchThenOpenRequest(props, st, pre, false);
  }

  /** Dispatching two runs of calls one after the other is dispatching their
      concatenation. */
  lemma {:induction false} DispatchAppend(props: Props, st: State, a: seq<Effect>, b: seq<Effect>)
    ensures var first := Dispatch(props, st, a);
      var second := Dispatch(props, first.state, b);
      Dispatch(props, st, a + b) == Transition(second.state, first.effects + second.effects)
    decreases |a|
  {
    if |a| == 0 {
      assert a + b == b;
    } else {
      var head := DispatchOne(props, st, a[0]);
      DispatchAppend(props, head.state, a[1..], b);
      var inner := Dispatch(props, head.state, a[1..]);
      var second := Dispatch(props, inner.state, b);
      DispatchAppendStep(props, st, a, b);
      assert head.effects + (inner.effects + second.effects) == (head.effects + inner.effects) + second.effects;
    }
  }

  /** One step of `DispatchAppend`: the first call of `a + b` is the first call of `a`. */
  lemma DispatchAppendStep(props: Props, st: State, a: seq<Effect>, b: seq<Effect>)
    requires |a| > 0
    ensures var head := DispatchOne(props, st, a[0]);
      var rest := Dispatch(props, head.state, a[1..] + b);
      Dispatch(props, st, a + b) == Transition(rest.state, head.effects + rest.effects)
  {
    assert (a + b)[0] == a[0];
    assert (a + b)[1..] == a[1..] + b;
  }

  /** A save whose edit action ends by calling `onSuccess`: the reset-and-close callback
      runs before the factory reports the save, and the factory's own close request is
      then handled on the already reset wrapper. */
  lemma ReportingSaveDispatch(props: Props, st: State, dialog: FormDialog.DialogState, editCfg: FormDialog.Config,
                              defaultsFrom: Value -> Rec, pre: seq<Effect>)
    requires !FormDialog.Blocked(editCfg.fields, dialog.errors)
    requires editCfg.schema(dialog.values).Parsed?
    requires editCfg.onSubmit(FormDialog.DropUndefined(editCfg.schema(dialog.values).data))
      == Invocation(pre + [SuccessCalled], editCfg.onSubmit(FormDialog.DropUndefined(editCfg.schema(dialog.values).data)).outcome)
    requires editCfg.onSubmit(FormDialog.DropUndefined(editCfg.schema(dialog.values).data)).outcome.Returned?
    requires forall e :: e in pre ==> !e.OpenChangeCalled? && !e.SuccessCalled?
    ensures var payload := FormDialog.DropUndefined(editCfg.schema(dialog.values).data);
      var done := EditDone(props, st);
      var closed := HandleDialogClose(props, done.state, false);
      SubmitEditDialog(props, st, dialog, editCfg, defaultsFrom)
        == Transition(closed.state, [SubmitCalled(payload)] + pre + done.effects
                                    + [Notify(SuccessNotice, FormDialog.SavedNotice)] + closed.effects)
  {
    var payload := FormDialog.DropUndefined(editCfg.schema(dialog.values).data);
    var sp := ScreenProps(props, st, defaultsFrom(st.resource));
    FormDialog.SavedSubmitEffects(editCfg, sp, dialog);
    var n := Notify(SuccessNotice, FormDialog.SavedNotice);
    assert FormDialog.Submit(editCfg, sp, dialog).effects == [SubmitCalled(payload)] + pre + [SuccessCalled, n, OpenChangeCalled(false)];
    ReportedThenClosed(props, st, [SubmitCalled(payload)] + pre, n);
  }

  /** Calls that pass through, then `onSuccess`, one more pass-through call and a close
      request. */
  lemma ReportedThenClosed(props: Props, st: State, a: seq<Effect>, n: Effect)
    requires forall e :: e in a ==> !e.OpenChangeCalled? && !e.SuccessCalled?
    requires !n.OpenChangeCalled? && !n.SuccessCalled?
    ensures var done := EditDone(props, st);
      var closed := HandleDialogClose(props, done.state, false);
      Dispatch(props, st, a + [SuccessCalled, n, OpenChangeCalled(false)])
        == Transition(closed.state, a + done.effects + [n] + closed.effects)
  {
    DispatchAppend(props, st, a, [SuccessCalled, n, OpenChangeCalled(false)]);
    SuccessThenClose(props, st, n);
  }

  /** The tail of a reporting save: `onSuccess`, one pass-through call, a close request. */
  lemma SuccessThenClose(props: Props, st: State, n: Effect)
    requires !n.OpenChangeCalled? && !n.SuccessCalled?
    ensures var done := EditDone(props, st);
      var closed := HandleDialogClose(props, done.state, false);
      Dispatch(props, st, [SuccessCalled, n, OpenChangeCalled(false)])
        == Transition(closed.state, done.effects + [n] + closed.effects)
  {
    var x := [SuccessCalled, n, OpenChangeCalled(false)];
    var done := EditDone(props, st);
    assert x[1..] == [n] + [OpenChangeCalled(false)];
    DispatchThenOpenRequest(props, done.state, [n], false);
  }

  /** A save the edit action reports as done brings the wrapper back to the lookup
      screen, whether or not the edit dialog calls `onSuccess` itself. */
  lemma EditSaveReturnsToLookup(props: Props, st: State, dialog: FormDialog.DialogState, editCfg: FormDialog.Config,
                                defaultsFrom: Value -> Rec)
    requires !FormDialog.Blocked(editCfg.fields, dialog.errors)
    requires editCfg.schema(dialog.values).Parsed?
    requires editCfg.onSubmit(FormDialog.DropUndefined(editCfg.schema(dialog.values).data)).outcome.Returned?
    requires forall e :: e in editCfg.onSubmit(FormDialog.DropUndefined(editCfg.schema(dialog.values).data)).effects ==>
      !e.OpenChangeCalled?
    ensures SubmitEditDialog(props, st, dialog, editCfg, defaultsFrom).state.phase == LookupPhase
    ensures SubmitEditDialog(props, st, dialog, editCfg, defaultsFrom).state.resource == Null
  {
    var step := FormDialog.Submit(editCfg, ScreenProps(props, st, defaultsFrom(st.resource)), dialog);
    var inv := editCfg.onSubmit(FormDialog.DropUndefined(editCfg.schema(dialog.values).data));
    assert step.effects[|step.effects| - 1] == OpenChangeCalled(false);
    forall j | 0 <= j < |step.effects| ensures step.effects[j] != OpenChangeCalled(true) {
      if 1 <= j < 1 + |inv.effects| {
        assert step.effects[j] == step.effects[..1 + |inv.effects|][j] == inv.effects[j - 1];
        assert inv.effects[j - 1] in inv.effects;
      }
    }
    DispatchEndsInLookup(props, st, step.effects, |step.effects| - 1);
  }
}

=== FILE: member.dfy ===
/** Members: the entity schema, the create and update request schemas built from it,
    and the `MemberModel` wrapper (app/lib/schemas/member.ts). */
module MemberSchemas {
  import opened Wrappers
  import opened Values
  import opened Schemas
  import opened Common

  datatype Member = Member(memberID: int, firstName: string, lastName: string, email: string)

  const MemberIdField := ("memberID", Field(PositiveInteger, false))
  const FirstNameField := ("firstName", Field(NonEmptyString, false))
  const LastNameField := ("lastName", Field(NonEmptyString, false))
  const EmailField := ("email", Field(EmailFormat, false))

  const MemberSchema := ObjectSchema([MemberIdField, FirstNameField, LastNameField, EmailField], [])

  const UsernameMessage := "Username must be at least 3 characters"
  const PasswordMessage := "Password must be at least 6 characters"
  const UsernameField := ("username", Field(MinLength(3, UsernameMessage), false))
  const PasswordField := ("password", Field(MinLength(6, PasswordMessage), false))

  /** `MemberSchema.omit({memberID}).extend({username, password})`. */
  const CreateMemberSchema := Extend(Omit(MemberSchema, {"memberID"}), [UsernameField, PasswordField])

  /** `MemberSchema.partial().omit({memberID})`. */
  const UpdateMemberSchema := Omit(Partial(MemberSchema), {"memberID"})

  predicate EmailText(v: Value, fm: Formats) {
    v.Str? && fm.isEmail(v.s)
  }

  /** A value of at least `n` characters. */
  predicate TextOfLength(v: Value, n: nat) {
    v.Str? && |v.s| >= n
  }

  /** Absent (or undefined), or else passing `p`. */
  predicate AbsentOr(v: Value, p: bool) {
    v == Undefined || p
  }

  lemma MemberEntries()
    ensures forall e :: e in MemberSchema.shape <==>
      e == MemberIdField || e == FirstNameField || e == LastNameField || e == EmailField
    ensures Keys(MemberSchema) == {"memberID", "firstName", "lastName", "email"}
  {
    var shape := MemberSchema.shape;
    assert shape[0] in shape && shape[1] in shape && shape[2] in shape && shape[3] in shape;
  }

  lemma OmitMemberIdEntries()
    ensures forall e :: e in Omit(MemberSchema, {"memberID"}).shape <==>
      e == FirstNameField || e == LastNameField || e == EmailField
  {
    MemberEntries();
  }

  lemma ExtendWithCredentials(o: ObjectSchema)
    requires forall e :: e in o.shape <==> e == FirstNameField || e == LastNameField || e == EmailField
    ensures forall e :: e in Extend(o, [UsernameField, PasswordField]).shape <==>
      e == FirstNameField || e == LastNameField || e == EmailField || e == UsernameField || e == PasswordField
  {
    var added := [UsernameField, PasswordField];
    assert Keys(ObjectSchema(added, [])) == {"username", "password"} by {
      assert added[0] in added && added[1] in added;
    }
  }

  /** The five entries of the create schema, as a property of any schema. */
  ghost predicate HasCreateEntries(s: ObjectSchema) {
    && s.refinements == []
    && forall e :: e in s.shape <==>
      e == FirstNameField || e == LastNameField || e == EmailField || e == UsernameField || e == PasswordField
  }

  lemma CreateMemberEntries()
    ensures HasCreateEntries(CreateMemberSchema)
  {
    OmitMemberIdEntries();
    ExtendWithCredentials(Omit(MemberSchema, {"memberID"}));
  }

  /** The three optional entries of the update schema, as a property of any schema. */
  ghost predicate HasUpdateEntries(s: ObjectSchema) {
    && s.refinements == []
    && forall e :: e in s.shape <==>
      e == ("firstName", Field(NonEmptyString, true)) || e == ("lastName", Field(NonEmptyString, true))
      || e == ("email", Field(EmailFormat, true))
  }

  lemma UpdateMemberEntries()
    ensures HasUpdateEntries(UpdateMemberSchema)
  {
    MemberEntries();
    var p := Partial(MemberSchema);
    assert forall e :: e in p.shape <==>
      e == ("memberID", Field(PositiveInteger, true)) || e == ("firstName", Field(NonEmptyString, true))
      || e == ("lastName", Field(NonEmptyString, true)) || e == ("email", Field(EmailFormat, true));
  }

  lemma MemberSchemaAccepts(r: Rec, fm: Formats)
    ensures Valid(MemberSchema, r, fm) <==>
      && At(r, "memberID").Num? && SafePositive(At(r, "memberID").n)
      && NonEmptyText(At(r, "firstName")) && NonEmptyText(At(r, "lastName"))
      && EmailText(At(r, "email"), fm)
  {
    MemberEntries();
  }

  lemma CreateEntriesKeys(s: ObjectSchema)
    requires HasCreateEntries(s)
    ensures Keys(s) == {"firstName", "lastName", "email", "username", "password"}
  {
    assert FirstNameField in s.shape && LastNameField in s.shape && EmailField in s.shape;
    assert UsernameField in s.shape && PasswordField in s.shape;
  }

  lemma CreateEntriesAccept(s: ObjectSchema, r: Rec, fm: Formats)
    requires HasCreateEntries(s)
    ensures Valid(s, r, fm) <==>
      && NonEmptyText(At(r, "firstName")) && NonEmptyText(At(r, "lastName"))
      && EmailText(At(r, "email"), fm)
      && TextOfLength(At(r, "username"), 3) && TextOfLength(At(r, "password"), 6)
  {
    assert FirstNameField in s.shape && LastNameField in s.shape && EmailField in s.shape;
    assert UsernameField in s.shape && PasswordField in s.shape;
  }

  /** The create schema declares the names, the email and the credentials, and no id. */
  lemma CreateMemberKeys()
    ensures Keys(CreateMemberSchema) == {"firstName", "lastName", "email", "username", "password"}
  {
    CreateMemberEntries();
    CreateEntriesKeys(CreateMemberSchema);
  }

  lemma CreateMemberAccepts(r: Rec, fm: Formats)
    ensures Valid(CreateMemberSchema, r, fm) <==>
      && NonEmptyText(At(r, "firstName")) && NonEmptyText(At(r, "lastName"))
      && EmailText(At(r, "email"), fm)
      && TextOfLength(At(r, "username"), 3) && TextOfLength(At(r, "password"), 6)
  {
    CreateMemberEntries();
    CreateEntriesAccept(CreateMemberSchema, r, fm);
  }

  /** The update schema declares only the two names and the email, and none is required. */
  lemma UpdateMemberKeys()
    ensures Keys(UpdateMemberSchema) == {"firstName", "lastName", "email"}
  {
    UpdateMemberEntries();
    UpdateEntriesKeys(UpdateMemberSchema);
  }

  lemma UpdateEntriesKeys(s: ObjectSchema)
    requires HasUpdateEntries(s)
    ensures Keys(s) == {"firstName", "lastName", "email"}
  {
    assert ("firstName", Field(NonEmptyString, true)) in s.shape;
    assert ("lastName", Field(NonEmptyString, true)) in s.shape;
    assert ("email", Field(EmailFormat, true)) in s.shape;
  }

  lemma UpdateMemberAccepts(r: Rec, fm: Formats)
    ensures Valid(UpdateMemberSchema, r, fm) <==>
      && AbsentOr(At(r, "firstName"), NonEmptyText(At(r, "firstName")))
      && AbsentOr(At(r, "lastName"), NonEmptyText(At(r, "lastName")))
      && AbsentOr(At(r, "email"), EmailText(At(r, "email"), fm))
  {
    UpdateMemberEntries();
    UpdateEntriesAccept(UpdateMemberSchema, r, fm);
  }

  lemma UpdateEntriesAccept(s: ObjectSchema, r: Rec, fm: Formats)
    requires HasUpdateEntries(s)
    ensures Valid(s, r, fm) <==>
      && AbsentOr(At(r, "firstName"), NonEmptyText(At(r, "firstName")))
      && AbsentOr(At(r, "lastName"), NonEmptyText(At(r, "lastName")))
      && AbsentOr(At(r, "email"), EmailText(At(r, "email"), fm))
  {
    assert ("firstName", Field(NonEmptyString, true)) in s.shape;
    assert ("lastName", Field(NonEmptyString, true)) in s.shape;
    assert ("email", Field(EmailFormat, true)) in s.shape;
  }

  /** Whatever the create schema accepts, the update schema accepts too, also after
      restricting the record to the names and the email. */
  lemma CreateValidIsUpdateValid(r: Rec, fm: Formats)
    requires Valid(CreateMemberSchema, r, fm)
    ensures Valid(UpdateMemberSchema, r, fm)
    ensures Valid(UpdateMemberSchema, map k | k in r && k in {"firstName", "lastName", "email"} :: r[k], fm)
  {
    CreateMemberAccepts(r, fm);
    UpdateMemberAccepts(r, fm);
    var q := map k | k in r && k in {"firstName", "lastName", "email"} :: r[k];
    assert At(q, "firstName") == At(r, "firstName") && At(q, "lastName") == At(r, "lastName");
    assert At(q, "email") == At(r, "email");
    UpdateMemberAccepts(q, fm);
  }

  /** A member as a record (the JSON object the API exchanges). */
  function MemberRecord(m: Member): Rec {
    map["memberID" := Num(m.memberID), "firstName" := Str(m.firstName),
        "lastName" := Str(m.lastName), "email" := Str(m.email)]
  }

  /** A member as a JavaScript object, with the keys in declaration order. */
  function MemberObject(m: Member): Value {
    Obj([("memberID", Num(m.memberID)), ("firstName", Str(m.firstName)),
         ("lastName", Str(m.lastName)), ("email", Str(m.email))])
  }

  /** Reading a field off a member object gives that field of the member. */
  lemma MemberObjectFields(m: Member)
    ensures Get(MemberObject(m), "memberID") == Num(m.memberID)
    ensures Get(MemberObject(m), "firstName") == Str(m.firstName)
    ensures Get(MemberObject(m), "lastName") == Str(m.lastName)
    ensures Get(MemberObject(m), "email") == Str(m.email)
  {
    var e := MemberObject(m).entries;
    LookupFindsFirst(e, "memberID", 0);
    LookupFindsFirst(e, "firstName", 1);
    LookupFindsFirst(e, "lastName", 2);
    LookupFindsFirst(e, "email", 3);
  }

  predicate MemberValid(m: Member, fm: Formats) {
    SafePositive(m.memberID) && m.firstName != "" && m.lastName != "" && fm.isEmail(m.email)
  }

  /** `MemberModel`: a validated member behind accessors. */
  datatype MemberModel = MemberModel(props: Member)

  function Wrap(m: Member): MemberModel {
    MemberModel(m)
  }

  function ToJson(model: MemberModel): Member {
    model.props
  }

  /** `toJSON` gives back exactly the member that was wrapped. */
  lemma WrapToJsonIdentity(m: Member)
    ensures ToJson(Wrap(m)) == m
  {
  }

  /** `fullName`: the first name, one space, the last name. */
  function FullName(model: MemberModel): (r: string)
    ensures |r| == |model.props.firstName| + 1 + |model.props.lastName|
    ensures r[..|model.props.firstName|] == model.props.firstName
    ensures r[|model.props.firstName|] == ' '
    ensures r[|model.props.firstName| + 1..] == model.props.lastName
  {
    model.props.firstName + " " + model.props.lastName
  }

  /** `MemberModel.parse`: a model, or None where the library throws. */
  function Parse(raw: Rec, fm: Formats): (r: Option<MemberModel>)
    ensures r.Some? <==> Valid(MemberSchema, raw, fm)
    ensures r.Some? ==> MemberValid(r.value.props, fm) && MemberRecord(r.value.props) == map k | k in raw && k in Keys(MemberSchema) :: raw[k]
  {
    MemberSchemaAccepts(raw, fm);
    if !Valid(MemberSchema, raw, fm) then None
    else
      MemberEntries();
      var m := Member(raw["memberID"].n, raw["firstName"].s, raw["lastName"].s, raw["email"].s);
      assert MemberRecord(m) == map k | k in raw && k in Keys(MemberSchema) :: raw[k];
      Some(Wrap(m))
  }

  /** Parsing a member's own record succeeds exactly for valid members and gives back
      that member. */
  lemma ParseRoundTrip(m: Member, fm: Formats)
    ensures Parse(MemberRecord(m), fm) == (if MemberValid(m, fm) then Some(Wrap(m)) else None)
  {
    MemberSchemaAccepts(MemberRecord(m), fm);
  }
}

=== FILE: member_dialogs.dfy ===
/** The member dialogs (components/dialogs/memberDialogs.tsx): the add dialog, the
    edit wrapper's dialog, and the flexible edit dialog. The API calls `createMember`
    and `updateMember` are parameters. */
module MemberDialogs {
  import opened Wrappers
  import opened Values
  import opened Effects
  import opened FieldInference
  import opened Schemas
  import opened MemberSchemas
  import opened EntityDialogs
  import FormDialog

  const AddMemberFields := [
    Plain("firstName", "First Name", "Enter first name"),
    Plain("lastName", "Last Name", "Enter last name"),
    Typed("email", "Email", EmailInput, "Enter email address"),
    Plain("username", "Username", "Enter username"),
    Typed("password", "Password", PasswordInput, "Enter password")]

  /** The edit forms' fields: the same five, with the credentials marked optional. */
  const EditMemberFields := [
    Plain("firstName", "First Name", "Enter first name"),
    Plain("lastName", "Last Name", "Enter last name"),
    Typed("email", "Email", EmailInput, "Enter email address"),
    Plain("username", "Username", "Enter username (optional)"),
    Typed("password", "Password", PasswordInput, "Enter new password (optional)")]

  lemma FieldNames()
    ensures FormDialog.Names(AddMemberFields) == {"firstName", "lastName", "email", "username", "password"}
    ensures FormDialog.Names(EditMemberFields) == {"firstName", "lastName", "email", "username", "password"}
  {
    var fs := AddMemberFields;
    assert fs[0] in fs && fs[1] in fs && fs[2] in fs && fs[3] in fs && fs[4] in fs;
    var gs := EditMemberFields;
    assert gs[0] in gs && gs[1] in gs && gs[2] in gs && gs[3] in gs && gs[4] in gs;
  }

  lemma CredentialFieldsOffered()
    ensures "username" in FormDialog.Names(EditMemberFields) && "password" in FormDialog.Names(EditMemberFields)
  {
    var fs := EditMemberFields;
    assert fs[3] in fs && fs[4] in fs;
  }

  /** `AddMemberDialog`: creates a member from the create schema's payload. */
  function AddMemberDialog(fm: Formats, create: Rec -> Outcome): (cfg: FormDialog.Config)
    ensures cfg.title == "Add Member" && cfg.fields == AddMemberFields && cfg.defaults.None?
    ensures forall r :: cfg.schema(r) == SafeParse(CreateMemberSchema, r, fm)
    ensures forall p :: cfg.onSubmit(p) == Invocation([CreateCalled(p)], create(p))
  {
    FormDialog.Config(Validator(CreateMemberSchema, fm), Describe(CreateMemberSchema), AddMemberFields,
      "Add Member", p => Invocation([CreateCalled(p)], create(p)), None)
  }

  /** The add dialog's fields are exactly the keys the create schema declares. */
  lemma AddMemberFieldsDeclared()
    ensures FormDialog.Names(AddMemberFields) == Keys(CreateMemberSchema)
  {
    CreateMemberKeys();
    FieldNames();
  }

  /** The factory defaults the edit forms take from a member. */
  function MemberDefaults(m: Member): Rec {
    NameEmailRecord(Str(m.firstName), Str(m.lastName), Str(m.email))
  }

  /** The record of a member's names and email that the edit forms start from. */
  function NameEmailRecord(firstName: Value, lastName: Value, email: Value): Rec {
    map["firstName" := firstName, "lastName" := lastName, "email" := email]
  }

  lemma NameEmailRecordAgrees(f: Value, l: Value, e: Value, f': Value, l': Value, e': Value)
    requires f == f' && l == l' && e == e'
    ensures NameEmailRecord(f, l, e) == NameEmailRecord(f', l', e')
  {
  }

  /** The dialog `EditMemberDialogWrapper` builds for member `m`. */
  function EditMemberDialog(m: Member, fm: Formats, update: (Value, Rec) -> Outcome): FormDialog.Config {
    EditDialog(UpdateMemberSchema, "Edit Member", EditMemberFields, Num(m.memberID), Some(MemberDefaults(m)), fm, update)
  }

  /** The wrapper's memo: a dialog built for a member keeps that member's names and
      email as defaults while the id stays the same, and submits to that id. */
  lemma SameIdKeepsDefaults(first: Member, later: Member, fm: Formats, update: (Value, Rec) -> Outcome)
    requires first.memberID == later.memberID
    ensures var kept := Memo(Some((first.memberID, first)), later.memberID, later).1;
      EditMemberDialog(kept, fm, update).defaults == Some(MemberDefaults(first))
  {
  }

  /** The edit forms offer a username and a password (`FieldNames`), but the update
      schema declares neither, so (by `EntityDialogs.EditSendsDeclaredValues`) a
      submitted edit never sends them, whatever was typed. */
  lemma CredentialsNeverSent()
    ensures "username" !in Keys(UpdateMemberSchema) && "password" !in Keys(UpdateMemberSchema)
  {
    UpdateMemberEntries();
    CredentialsUndeclared(UpdateMemberSchema);
  }

  lemma CredentialsUndeclared(s: ObjectSchema)
    requires HasUpdateEntries(s)
    ensures "username" !in Keys(s) && "password" !in Keys(s)
  {
    UpdateEntriesKeys(s);
  }

  /** `FlexibleEditMemberDialog`'s dialog. */
  function FlexibleEditMemberDialog(m: Member, fm: Formats, update: (Value, Rec) -> Outcome, hasOnSuccess: bool): FormDialog.Config {
    FlexibleDialog(UpdateMemberSchema, "Edit Member", EditMemberFields, Num(m.memberID), fm, update, hasOnSuccess)
  }

  /** The flexible form starts from the caller's defaults over the member's names and
      email. */
  lemma FlexibleFormStartsFromMember(m: Member, fm: Formats, update: (Value, Rec) -> Outcome, hasOnSuccess: bool,
                                     defaults: Option<Rec>, placeholders: Option<map<string, string>>,
                                     open: Option<bool>, hasOnOpenChange: bool, k: string)
    requires k in MemberDefaults(m)
    ensures var merged := FormDialog.MergedDefaults(FlexibleEditMemberDialog(m, fm, update, hasOnSuccess),
                                                    FlexibleProps(MemberDefaults(m), defaults, placeholders, open, hasOnOpenChange));
      merged[k] == if k in defaults.GetOr(map[]) then defaults.GetOr(map[])[k] else MemberDefaults(m)[k]
  {
    FlexibleFormStart(UpdateMemberSchema, "Edit Member", EditMemberFields, Num(m.memberID), fm, update, hasOnSuccess,
      MemberDefaults(m), defaults, placeholders, open, hasOnOpenChange, k);
  }

  /** A field the member does not supply (the credentials, by `CredentialFieldsOffered`
      and `MemberDefaults`) starts undefined unless the caller sets it. */
  lemma FlexibleUnsuppliedFieldStartsUndefined(m: Member, fm: Formats, update: (Value, Rec) -> Outcome, hasOnSuccess: bool,
                                          defaults: Option<Rec>, placeholders: Option<map<string, string>>,
                                          open: Option<bool>, hasOnOpenChange: bool, k: string)
    requires k in FormDialog.Names(EditMemberFields) && k !in MemberDefaults(m)
    requires k !in defaults.GetOr(map[])
    ensures var merged := FormDialog.MergedDefaults(FlexibleEditMemberDialog(m, fm, update, hasOnSuccess),
                                                    FlexibleProps(MemberDefaults(m), defaults, placeholders, open, hasOnOpenChange));
      merged[k] == Undefined
  {
    FlexibleFormStart(UpdateMemberSchema, "Edit Member", EditMemberFields, Num(m.memberID), fm, update, hasOnSuccess,
      MemberDefaults(m), defaults, placeholders, open, hasOnOpenChange, k);
  }
}

=== FILE: member_lookup_edit.dfy ===
/** `EditMemberByIdDialog` (components/dialogs/MemberLookupEdit.tsx): the lookup
    wrapper over `getMember`, with an edit dialog that updates the fetched member and
    never calls the wrapper's `onSuccess`. `getMember` and `updateMember` are
    parameters. */
module MemberLookupEdit {
  import opened Wrappers
  import opened Values
  import opened Effects
  import opened Schemas
  import opened MemberSchemas
  import opened EntityDialogs
  import FormDialog
  import LookupEdit
  import MemberDialogs

  /** `buildMemberEditDialog`: the update schema, the five member fields, and a submit
      that updates the member under the fetched object's `memberID`. */
  function BuildEditDialog(member: Value, fm: Formats, update: (Value, Rec) -> Outcome): (cfg: FormDialog.Config)
    ensures cfg.title == "Edit Member" && cfg.fields == MemberDialogs.EditMemberFields && cfg.defaults.None?
    ensures forall p :: cfg.onSubmit(p).effects == [UpdateCalled(Get(member, "memberID"), p)]
    ensures forall p :: cfg.onSubmit(p).outcome == update(Get(member, "memberID"), p)
  {
    EditDialog(UpdateMemberSchema, "Edit Member", MemberDialogs.EditMemberFields, Get(member, "memberID"), None, fm, update)
  }

  /** `defaultsFrom`: the names and the email read off the fetched object. */
  function DefaultsFrom(member: Value): Rec {
    MemberDialogs.NameEmailRecord(Get(member, "firstName"), Get(member, "lastName"), Get(member, "email"))
  }

  /** For a fetched member, the edit screen starts from the same values the member
      edit dialog takes as defaults, and submits to that member's id. */
  lemma FetchedMemberDefaults(m: Member)
    ensures DefaultsFrom(MemberObject(m)) == MemberDialogs.MemberDefaults(m)
    ensures Get(MemberObject(m), "memberID") == Num(m.memberID)
  {
    var o := MemberObject(m);
    MemberObjectFields(m);
    MemberDialogs.NameEmailRecordAgrees(Get(o, "firstName"), Get(o, "lastName"), Get(o, "email"),
      Str(m.firstName), Str(m.lastName), Str(m.email));
  }

  /** The lookup: `getMember` under the wrapper's title. */
  function SubmitLookup(props: LookupEdit.Props, st: LookupEdit.State, dialog: FormDialog.DialogState,
                        idSchema: Rec -> ParseOutcome, idShape: FieldInference.Shape, getMember: Value -> Outcome): LookupEdit.Transition
  {
    LookupEdit.SubmitIdDialog(props, st, dialog, "Edit Member", idSchema, idShape, getMember)
  }

  /** Saving the edit screen: the wrapper's edit dialog built from the held member. */
  function SubmitEdit(props: LookupEdit.Props, st: LookupEdit.State, dialog: FormDialog.DialogState,
                      fm: Formats, update: (Value, Rec) -> Outcome): LookupEdit.Transition
  {
    LookupEdit.SubmitEditDialog(props, st, dialog, BuildEditDialog(st.resource, fm, update), DefaultsFrom)
  }

  /** A member save the API accepts brings the wrapper back to the lookup screen, and
      the caller's `onOpenChange`, if any, hears one close request: the member dialog
      does not call `onSuccess`, so only the factory's own close request reaches the
      wrapper. */
  lemma SaveReturnsToLookup(props: LookupEdit.Props, st: LookupEdit.State, dialog: FormDialog.DialogState,
                            fm: Formats, update: (Value, Rec) -> Outcome)
    requires !FormDialog.Blocked(MemberDialogs.EditMemberFields, dialog.errors)
    requires SafeParse(UpdateMemberSchema, dialog.values, fm).Parsed?
    requires update(Get(st.resource, "memberID"), FormDialog.DropUndefined(SafeParse(UpdateMemberSchema, dialog.values, fm).data)).Returned?
    ensures SubmitEdit(props, st, dialog, fm, update).state.phase == LookupEdit.LookupPhase
    ensures SubmitEdit(props, st, dialog, fm, update).state.resource == Null
    ensures SuccessCalled !in SubmitEdit(props, st, dialog, fm, update).effects
    ensures props.hasOnOpenChange ==>
      multiset(SubmitEdit(props, st, dialog, fm, update).effects)[OpenChangeCalled(false)] == 1
  {
    SaveForSchema(UpdateMemberSchema, props, st, dialog, fm, update);
  }

  lemma SaveForSchema(s: ObjectSchema, props: LookupEdit.Props, st: LookupEdit.State, dialog: FormDialog.DialogState,
                      fm: Formats, update: (Value, Rec) -> Outcome)
    requires !FormDialog.Blocked(MemberDialogs.EditMemberFields, dialog.errors)
    requires SafeParse(s, dialog.values, fm).Parsed?
    requires update(Get(st.resource, "memberID"), FormDialog.DropUndefined(SafeParse(s, dialog.values, fm).data)).Returned?
    ensures var cfg := EditDialog(s, "Edit Member", MemberDialogs.EditMemberFields, Get(st.resource, "memberID"), None, fm, update);
      var r := LookupEdit.SubmitEditDialog(props, st, dialog, cfg, DefaultsFrom);
      && r.state.phase == LookupEdit.LookupPhase && r.state.resource == Null
      && SuccessCalled !in r.effects
      && (props.hasOnOpenChange ==> multiset(r.effects)[OpenChangeCalled(false)] == 1)
  {
    var cfg := EditDialog(s, "Edit Member", MemberDialogs.EditMemberFields, Get(st.resource, "memberID"), None, fm, update);
    var payload := FormDialog.DropUndefined(SafeParse(s, dialog.values, fm).data);
    var id := Get(st.resource, "memberID");
    assert cfg.schema(dialog.values) == SafeParse(s, dialog.values, fm);
    assert cfg.onSubmit(payload) == Invocation([UpdateCalled(id, payload)], update(id, payload));
    LookupEdit.QuietSaveDispatch(props, st, dialog, cfg, DefaultsFrom);
  }

}

=== FILE: report_tables.dfy ===
/** The staff reports screen (components/staff/ReportTables.tsx): which view a report
    shows, which table draws it, and the cards, badges and colours of each table. The
    clock and the date functions are parameters. */
module ReportTables {
  import opened Wrappers
  import opened Text
  import opened Values
  import opened Badges

  /** The report kinds the reports API serves (`ReportType`, app/lib/api/reports.ts). */
  datatype ReportType =
    | Transactions | TransactionsOverdue | TransactionsCompliant
    | Members | MembersOverdue | MembersBorrowing
    | Books | BooksOverdue | BooksAvailable
    | OverdueSummary | BorrowingSummary

  /** The string each kind is written as. */
  function WireName(t: ReportType): string {
    match t
    case Transactions => "transactions"
    case TransactionsOverdue => "transactions-overdue"
    case TransactionsCompliant => "transactions-compliant"
    case Members => "members"
    case MembersOverdue => "members-overdue"
    case MembersBorrowing => "members-borrowing"
    case Books => "books"
    case BooksOverdue => "books-overdue"
    case BooksAvailable => "books-available"
    case OverdueSummary => "overdue-summary"
    case BorrowingSummary => "borrowing-summary"
  }

  /** The kind a report-type string names; `None` for any other string, which the
      type annotation does not keep out at run time. */
  function Classify(s: string): (r: Option<ReportType>)
    ensures r.Some? ==> WireName(r.value) == s
  {
    if s == "transactions" then Some(Transactions)
    else if s == "transactions-overdue" then Some(TransactionsOverdue)
    else if s == "transactions-compliant" then Some(TransactionsCompliant)
    else if s == "members" then Some(Members)
    else if s == "members-overdue" then Some(MembersOverdue)
    else if s == "members-borrowing" then Some(MembersBorrowing)
    else if s == "books" then Some(Books)
    else if s == "books-overdue" then Some(BooksOverdue)
    else if s == "books-available" then Some(BooksAvailable)
    else if s == "overdue-summary" then Some(OverdueSummary)
    else if s == "borrowing-summary" then Some(BorrowingSummary)
    else None
  }

  /** Every kind is recognised from its own name, so a string is a report type exactly
      when `Classify` finds one, and distinct kinds have distinct names. */
  lemma ClassifyWireName(t: ReportType)
    ensures Classify(WireName(t)) == Some(t)
  {
  }

  /** The entries of `getReportDisplayName`'s table. */
  function ReportName(t: ReportType): (name: string)
    ensures name != ""
  {
    match t
    case Transactions => "transactions"
    case TransactionsOverdue => "overdue transactions"
    case TransactionsCompliant => "compliant transactions"
    case Members => "members"
    case MembersOverdue => "members with overdue books"
    case MembersBorrowing => "members currently borrowing"
    case Books => "books"
    case BooksOverdue => "overdue books"
    case BooksAvailable => "available books"
    case OverdueSummary => "overdue summary"
    case BorrowingSummary => "borrowing summary"
  }

  /** `getReportDisplayName`: the table entry, or the string itself when the lookup
      finds nothing (or an empty entry). */
  function DisplayName(s: string): (r: string)
    ensures Classify(s).Some? ==> r == ReportName(Classify(s).value)
    ensures Classify(s).None? ==> r == s
    ensures r != "" || s == ""
  {
    var entry := Classify(s);
    if entry.Some? && ReportName(entry.value) != "" then ReportName(entry.value) else s
  }

  lemma DisplayNameOfReport(t: ReportType)
    ensures DisplayName(WireName(t)) == ReportName(t)
  {
    ClassifyWireName(t);
  }

  /** The five tables `renderReportTable` chooses from; each carries the kind it was
      chosen for. */
  datatype Table =
    | TransactionsTable(kind: ReportType)
    | MembersTable(kind: ReportType)
    | BooksTable(kind: ReportType)
    | OverdueSummaryTable
    | BorrowingSummaryTable

  /** The table `renderReportTable`'s switch draws a kind with. */
  function TableOf(t: ReportType): Table {
    match t
    case Transactions | TransactionsOverdue | TransactionsCompliant => TransactionsTable(t)
    case Members | MembersOverdue | MembersBorrowing => MembersTable(t)
    case Books | BooksOverdue | BooksAvailable => BooksTable(t)
    case OverdueSummary => OverdueSummaryTable
    case BorrowingSummary => BorrowingSummaryTable
  }

  /** `renderReportTable`'s switch on the type string; `None` is its default branch. */
  function TableFor(s: string): (r: Option<Table>)
    ensures r.None? <==> Classify(s).None?
    ensures r.Some? ==> r.value == TableOf(Classify(s).value)
  {
    match Classify(s)
    case None => None
    case Some(t) => Some(TableOf(t))
  }

  /** The three list tables serve exactly the kinds whose names start with their
      entity: the switch groups the kinds by name. */
  lemma TableByPrefix(t: ReportType)
    ensures TableOf(t) == TransactionsTable(t) <==> "transactions" <= WireName(t)
    ensures TableOf(t) == MembersTable(t) <==> "members" <= WireName(t)
    ensures TableOf(t) == BooksTable(t) <==> "books" <= WireName(t)
  {
    PrefixesOf(t);
  }

  lemma PrefixesOf(t: ReportType)
    ensures "transactions" <= WireName(t) <==> t in {Transactions, TransactionsOverdue, TransactionsCompliant}
    ensures "members" <= WireName(t) <==> t in {Members, MembersOverdue, MembersBorrowing}
    ensures "books" <= WireName(t) <==> t in {Books, BooksOverdue, BooksAvailable}
  {
    var w := WireName(t);
    assert w[0] == "transactions"[0] <==> t in {Transactions, TransactionsOverdue, TransactionsCompliant};
    assert w[0] == "members"[0] <==> t in {Members, MembersOverdue, MembersBorrowing};
    assert w[0] == "books"[0] <==> t in {Books, BooksOverdue, BooksAvailable, BorrowingSummary};
    if t == BorrowingSummary {
      assert w[2] != "books"[2];
    }
  }

  const MillisPerDay := 1000 * 60 * 60 * 24

  /** `Math.floor((Date.now() - dueTime) / day)`; `None` (NaN) when the due date is
      not a date. */
  function DaysOverdue(now: int, due: Option<int>): (r: Option<int>)
    ensures r.None? <==> due.None?
    ensures r.Some? ==> r.value * MillisPerDay <= now - due.value < (r.value + 1) * MillisPerDay
  {
    if due.None? then None else Some((now - due.value) / MillisPerDay)
  }

  /** How a number renders as a JSX child: its decimal text, or `NaN`. */
  function CountText(days: Option<int>): string {
    if days.None? then "NaN" else IntToDecimal(days.value)
  }

  /** The overdue badge's text: the count, then "day" for exactly one and "days" for
      anything else, NaN included. */
  function OverdueText(days: Option<int>): (r: string) {
    CountText(days) + " day" + (if days == Some(1) then "" else "s") + " overdue"
  }

  predicate EndsWith(s: string, suffix: string) {
    |suffix| <= |s| && s[|s| - |suffix|..] == suffix
  }

  /** The badge starts with the count, which reads back as the count (NaN reads as no
      number), and ends in "day overdue" exactly when the count is one. */
  lemma OverdueTextReadsBack(days: Option<int>)
    ensures |CountText(days)| <= |OverdueText(days)|
    ensures ParseInt(OverdueText(days)[..|CountText(days)|]) == days
    ensures EndsWith(OverdueText(days), " day overdue") <==> days == Some(1)
  {
    var count := CountText(days);
    var r := OverdueText(days);
    assert r[..|count|] == count;
    if days.Some? {
      IntDecimalRoundTrip(days.value);
    } else {
      assert !IsDigit(count[0]);
    }
    if days == Some(1) {
      assert r == count + " day overdue";
      assert r[|r| - 12..] == " day overdue";
    } else {
      assert r == count + " days overdue";
      assert r[|r| - 9] == 's';
      assert " day overdue"[3] == 'y';
      assert r[|r| - 12..][3] == r[|r| - 9];
    }
  }

  /** How a value renders as a JSX child: strings and numbers as text, `null`,
      `undefined` and booleans as nothing, an array as its elements one after another.
      React refuses an object child; `ChildThrows` says when, and `Render` throws
      before such a card is drawn, so the object case here is never shown. */
  function JsxText(v: Value): string
    decreases v
  {
    match v
    case Str(s) => s
    case Num(n) => IntToDecimal(n)
    case NaN => "NaN"
    case Arr(items) => JsxTexts(v, items)
    case _ => ""
  }

  function JsxTexts(v: Value, items: seq<Value>): string
    requires forall i :: 0 <= i < |items| ==> items[i] < v
    decreases v, |items|
  {
    if |items| == 0 then "" else JsxText(items[0]) + JsxTexts(v, items[1..])
  }

  /** The colours a card is drawn in. */
  datatype Tone = Red | Green | Blue | Yellow | Purple

  /** One card of a report: its icon colour, whether it has the red alert border, its
      heading, the lines under it and the badges on its right, in order. */
  datatype Card = Card(tone: Tone, alert: bool, title: string, lines: seq<string>, badges: seq<Badge>)

  /** The clock and the date functions the tables use: `Date.now()`, the time of
      `new Date(v)` (`None` for an invalid date) and its `toLocaleDateString()`. */
  datatype Clock = Clock(now: int, millis: Value -> Option<int>, localDate: Value -> string)

  const Bullet := " \U{2022} "

  /** `TransactionsTable`'s card; only the overdue transactions report is drawn in red
      with a badge. */
  function TransactionCard(t: ReportType, clock: Clock, row: Value): (c: Card)
    ensures c.badges != [] <==> t == TransactionsOverdue
    ensures c.tone == Red <==> t == TransactionsOverdue
    ensures c.alert <==> t == TransactionsOverdue
    ensures t == TransactionsOverdue ==>
      c.badges == [Badge(Destructive, OverdueText(DaysOverdue(clock.now, clock.millis(Get(row, "dueDate")))))]
  {
    var overdue := t == TransactionsOverdue;
    var days := if overdue then DaysOverdue(clock.now, clock.millis(Get(row, "dueDate"))) else Some(0);
    Card(if overdue then Red else Blue, overdue,
      "Transaction #" + JsxText(Get(row, "transactionID")),
      ["Book ID: " + JsxText(Get(row, "bookID")) + Bullet + "Member ID: " + JsxText(Get(row, "memberID")),
       "Due: " + clock.localDate(Get(row, "dueDate")),
       "Borrowed: " + clock.localDate(Get(row, "borrowDate"))],
      if overdue then [Badge(Destructive, OverdueText(days))] else [])
  }

  /** `getBookStatusColor` and the books table's `getStatusBadge`. */
  function BookStatus(t: ReportType): (Tone, Badge) {
    if t == BooksOverdue then (Red, Badge(Destructive, "Overdue"))
    else if t == BooksAvailable then (Green, Badge(Secondary, "Available"))
    else (Blue, Badge(Outline, "Book"))
  }

  /** `getMemberStatusColor` and the members table's `getStatusBadge`. */
  function MemberStatus(t: ReportType): (Tone, Badge) {
    if t == MembersOverdue then (Red, Badge(Destructive, "Has Overdue Books"))
    else if t == MembersBorrowing then (Yellow, Badge(Secondary, "Currently Borrowing"))
    else (Purple, Badge(Outline, "Member"))
  }

  function BookCard(t: ReportType, row: Value): (c: Card)
    ensures |c.badges| == 2 && c.badges[1].variant == Outline
    ensures c.tone == BookStatus(t).0 && c.badges[0] == BookStatus(t).1 && !c.alert
  {
    var (tone, status) := BookStatus(t);
    Card(tone, false, JsxText(Get(row, "bookName")),
      ["by " + JsxText(Get(row, "authorName")), "ISBN: " + JsxText(Get(row, "isbn"))],
      [status, Badge(Outline, "ID: " + JsxText(Get(row, "bookID")))])
  }

  function MemberCard(t: ReportType, row: Value): (c: Card)
    ensures |c.badges| == 2 && c.badges[1].variant == Outline
    ensures c.tone == MemberStatus(t).0 && c.badges[0] == MemberStatus(t).1 && !c.alert
  {
    var (tone, status) := MemberStatus(t);
    Card(tone, false, JsxText(Get(row, "firstName")) + " " + JsxText(Get(row, "lastName")),
      [JsxText(Get(row, "email"))],
      [status, Badge(Outline, "ID: " + JsxText(Get(row, "memberID")))])
  }

  function BorrowerLine(row: Value): string {
    "Borrowed by " + JsxText(Get(row, "memberFirstName")) + " " + JsxText(Get(row, "memberLastName"))
  }

  function ReferenceLine(row: Value): string {
    "Transaction #" + JsxText(Get(row, "transactionID")) + Bullet + "Member ID: " + JsxText(Get(row, "memberID"))
      + Bullet + "Book ID: " + JsxText(Get(row, "bookID"))
  }

  /** `OverdueSummaryTable`'s card: always red, always with the day count. */
  function OverdueSummaryCard(clock: Clock, row: Value): (c: Card)
    ensures c.tone == Red && c.alert
    ensures c.badges == [Badge(Destructive, OverdueText(DaysOverdue(clock.now, clock.millis(Get(row, "dueDate")))))]
  {
    var days := DaysOverdue(clock.now, clock.millis(Get(row, "dueDate")));
    Card(Red, true, JsxText(Get(row, "bookName")),
      [BorrowerLine(row), ReferenceLine(row), "Due: " + clock.localDate(Get(row, "dueDate"))],
      [Badge(Destructive, OverdueText(days))])
  }

  /** `BorrowingSummaryTable`'s card: no badge and no alert. */
  function BorrowingSummaryCard(clock: Clock, row: Value): (c: Card)
    ensures c.tone == Blue && !c.alert && c.badges == []
  {
    Card(Blue, false, JsxText(Get(row, "bookName")),
      [BorrowerLine(row), ReferenceLine(row),
       "Due: " + clock.localDate(Get(row, "dueDate")), "Borrowed: " + clock.localDate(Get(row, "borrowDate"))],
      [])
  }

  function CardFor(table: Table, clock: Clock, row: Value): Card {
    match table
    case TransactionsTable(t) => TransactionCard(t, clock, row)
    case MembersTable(t) => MemberCard(t, row)
    case BooksTable(t) => BookCard(t, row)
    case OverdueSummaryTable => OverdueSummaryCard(clock, row)
    case BorrowingSummaryTable => BorrowingSummaryCard(clock, row)
  }

  /** What `renderReportTable` draws: one card per row, or the unsupported-type note. */
  datatype Content = Cards(cards: seq<Card>) | Unsupported(message: string)

  function TableContent(data: seq<Value>, s: string, clock: Clock): (c: Content)
    ensures c.Unsupported? <==> Classify(s).None?
    ensures c.Unsupported? ==> c.message == "Unsupported report type: " + s
    ensures c.Cards? ==> c.cards == CardsFor(TableOf(Classify(s).value), clock, data)
  {
    match TableFor(s)
    case None => Unsupported("Unsupported report type: " + s)
    case Some(table) => Cards(CardsFor(table, clock, data))
  }

  /** One card per row, in the rows' order. */
  function CardsFor(table: Table, clock: Clock, data: seq<Value>): (cards: seq<Card>)
    ensures |cards| == |data|
  {
    seq(|data|, i requires 0 <= i < |data| => CardFor(table, clock, data[i]))
  }

  /** The cards of a report are drawn row by row: the cards of two lists of rows are
      the cards of each, one after the other. */
  lemma CardsFollowRows(table: Table, clock: Clock, a: seq<Value>, b: seq<Value>)
    ensures CardsFor(table, clock, a + b) == CardsFor(table, clock, a) + CardsFor(table, clock, b)
  {
    var all := CardsFor(table, clock, a + b);
    var both := CardsFor(table, clock, a) + CardsFor(table, clock, b);
    forall i | 0 <= i < |all| ensures all[i] == both[i] {
      if i < |a| {
        assert (a + b)[i] == a[i];
      } else {
        assert (a + b)[i] == b[i - |a|];
      }
    }
  }

  /** The overdue reports: the one kind per table that is about lateness. */
  predicate IsOverdueReport(t: ReportType) {
    t == TransactionsOverdue || t == MembersOverdue || t == BooksOverdue || t == OverdueSummary
  }

  predicate HasDestructiveBadge(c: Card) {
    exists j :: 0 <= j < |c.badges| && c.badges[j].variant == Destructive
  }

  /** Across all five tables, a card is red exactly in the overdue reports, and so is
      a destructive badge on it. */
  lemma RedMeansOverdue(t: ReportType, clock: Clock, row: Value)
    ensures CardFor(TableOf(t), clock, row).tone == Red <==> IsOverdueReport(t)
    ensures HasDestructiveBadge(CardFor(TableOf(t), clock, row)) <==> IsOverdueReport(t)
  {
    match TableOf(t)
    case TransactionsTable(_) => TransactionCardMarks(t, clock, row);
    case MembersTable(_) => MemberCardMarks(t, row);
    case BooksTable(_) => BookCardMarks(t, row);
    case OverdueSummaryTable => assert OverdueSummaryCard(clock, row).badges[0].variant == Destructive;
    case BorrowingSummaryTable =>
  }

  lemma TransactionCardMarks(t: ReportType, clock: Clock, row: Value)
    requires TableOf(t).TransactionsTable?
    ensures TransactionCard(t, clock, row).tone == Red <==> IsOverdueReport(t)
    ensures HasDestructiveBadge(TransactionCard(t, clock, row)) <==> IsOverdueReport(t)
  {
    if IsOverdueReport(t) {
      assert TransactionCard(t, clock, row).badges[0].variant == Destructive;
    }
  }

  lemma MemberCardMarks(t: ReportType, row: Value)
    requires TableOf(t).MembersTable?
    ensures MemberCard(t, row).tone == Red <==> IsOverdueReport(t)
    ensures HasDestructiveBadge(MemberCard(t, row)) <==> IsOverdueReport(t)
  {
    StatusCardMarks(MemberCard(t, row), IsOverdueReport(t));
  }

  lemma BookCardMarks(t: ReportType, row: Value)
    requires TableOf(t).BooksTable?
    ensures BookCard(t, row).tone == Red <==> IsOverdueReport(t)
    ensures HasDestructiveBadge(BookCard(t, row)) <==> IsOverdueReport(t)
  {
    StatusCardMarks(BookCard(t, row), IsOverdueReport(t));
  }

  /** A card with a status badge and an outline id badge is marked by its status. */
  lemma StatusCardMarks(c: Card, overdue: bool)
    requires |c.badges| == 2 && c.badges[1].variant == Outline
    requires c.tone == Red <==> overdue
    requires c.badges[0].variant == Destructive <==> overdue
    ensures HasDestructiveBadge(c) <==> overdue
  {
    if HasDestructiveBadge(c) {
      var j :| 0 <= j < |c.badges| && c.badges[j].variant == Destructive;
      assert j == 0;
    }
  }

  /** Every card of a report of a known kind follows `RedMeansOverdue`. */
  lemma ReportCardsMarkOverdue(data: seq<Value>, t: ReportType, clock: Clock, i: nat)
    requires i < |data|
    ensures var c := TableContent(data, WireName(t), clock);
      c.Cards? && (c.cards[i].tone == Red <==> IsOverdueReport(t))
      && (HasDestructiveBadge(c.cards[i]) <==> IsOverdueReport(t))
  {
    ClassifyWireName(t);
    RedMeansOverdue(t, clock, data[i]);
  }

  /** What `ReportTable` shows; `Thrown` is a render that throws a TypeError. */
  datatype View = Loading | Failed(message: string) | NoData(message: string) | Report(content: Content) | Thrown

  /** A row read as `null` or `undefined`: reading any property of it throws. */
  predicate Nullish(row: Value) {
    row.Undefined? || row.Null?
  }

  /** Calling `row.hasOwnProperty(...)` throws: on a nullish row, and on an object whose
      own `hasOwnProperty` entry hides the inherited method (no JSON value is callable). */
  predicate ProbeThrows(row: Value) {
    Nullish(row) || (row.Obj? && exists j :: 0 <= j < |row.entries| && row.entries[j].0 == "hasOwnProperty")
  }

  /** The debug log at the top of `ReportTable` probes the first row before any other
      check, so this throws whatever `loading` and `error` say. */
  predicate FirstRowThrows(data: seq<Value>) {
    |data| > 0 && ProbeThrows(data[0])
  }

  /** A JSX child React refuses: an object, also inside an array. */
  predicate ChildThrows(v: Value)
    decreases v
  {
    match v
    case Obj(_) => true
    case Arr(items) => exists i :: 0 <= i < |items| && ChildThrows(items[i])
    case _ => false
  }

  /** The row fields a table's cards render as JSX children (the dates go through
      `new Date(...)` and are text by then). */
  function ShownFields(table: Table): seq<string> {
    match table
    case TransactionsTable(_) => ["transactionID", "bookID", "memberID"]
    case MembersTable(_) => ["firstName", "lastName", "email", "memberID"]
    case BooksTable(_) => ["bookName", "authorName", "isbn", "bookID"]
    case OverdueSummaryTable => ["bookName", "memberFirstName", "memberLastName", "transactionID", "memberID", "bookID"]
    case BorrowingSummaryTable => ["bookName", "memberFirstName", "memberLastName", "transactionID", "memberID", "bookID"]
  }

  /** Drawing a row's card throws: the row is nullish, so reading its id fails, or a
      field the card shows is a child React refuses. */
  predicate RowThrows(table: Table, row: Value) {
    Nullish(row) || exists j :: 0 <= j < |ShownFields(table)| && ChildThrows(Get(row, ShownFields(table)[j]))
  }

  /** A known report throws when one of its rows does; the unsupported-type branch
      reads no row. */
  predicate TableThrows(data: seq<Value>, s: string) {
    TableFor(s).Some? && exists i :: 0 <= i < |data| && RowThrows(TableFor(s).value, data[i])
  }

  /** `ReportTable`: a throwing first-row probe wins over everything, then loading wins
      over an error, an error over empty data, and only a loaded, error-free, non-empty
      report whose table can read every row reaches a table. */
  function Render(data: seq<Value>, loading: bool, error: Option<string>, s: string, clock: Clock): (v: View)
    ensures v.Thrown? <==> FirstRowThrows(data) || (!loading && error.None? && TableThrows(data, s))
    ensures v.Loading? <==> loading && !FirstRowThrows(data)
    ensures v.Failed? <==> !loading && error.Some? && !FirstRowThrows(data)
    ensures v.NoData? <==> !loading && error.None? && |data| == 0
    ensures v.Report? <==> !loading && error.None? && |data| > 0 && !FirstRowThrows(data) && !TableThrows(data, s)
    ensures v.Failed? ==> v.message == "Error: " + error.value
    ensures v.NoData? ==> v.message == "No data found for " + DisplayName(s)
    ensures v.Report? ==> v.content == TableContent(data, s, clock)
    ensures v.Report? && v.content.Cards? ==> forall i :: 0 <= i < |data| ==> !RowThrows(TableOf(Classify(s).value), data[i])
  {
    if FirstRowThrows(data) then Thrown
    else if loading then Loading
    else if error.Some? then Failed("Error: " + error.value)
    else if |data| == 0 then NoData("No data found for " + DisplayName(s))
    else if TableThrows(data, s) then Thrown
    else Report(TableContent(data, s, clock))
  }

  /** A null or undefined row is never drawn: as the first row it throws even while
      loading, and anywhere in a known report it throws once the data is shown. */
  lemma NullRowsThrow(data: seq<Value>, loading: bool, error: Option<string>, s: string, clock: Clock, i: nat)
    requires i < |data| && Nullish(data[i])
    ensures i == 0 ==> Render(data, loading, error, s, clock) == Thrown
    ensures Classify(s).Some? && !loading && error.None? ==> Render(data, loading, error, s, clock) == Thrown
    ensures Render(data, loading, error, s, clock).Report? ==> Render(data, loading, error, s, clock).content.Unsupported?
  {
  }

  /** A card field holding an object, even inside an array, makes a shown report throw
      instead of drawing its cards. */
  lemma ObjectFieldThrows(data: seq<Value>, s: string, clock: Clock, i: nat, j: nat, items: seq<Value>)
    requires Classify(s).Some? && i < |data|
    requires j < |ShownFields(TableOf(Classify(s).value))|
    requires var v := Get(data[i], ShownFields(TableOf(Classify(s).value))[j]);
      v.Obj? || (v == Arr(items) && exists m :: 0 <= m < |items| && items[m].Obj?)
    ensures Render(data, false, None, s, clock) == Thrown
  {
    var v := Get(data[i], ShownFields(TableOf(Classify(s).value))[j]);
    if !v.Obj? {
      var m :| 0 <= m < |items| && items[m].Obj?;
      assert ChildThrows(items[m]);
    }
    assert RowThrows(TableOf(Classify(s).value), data[i]);
  }

  /** An empty report of a known kind names the kind by its display name. */
  lemma EmptyReportNamesKind(t: ReportType, clock: Clock)
    ensures Render([], false, None, WireName(t), clock) == NoData("No data found for " + ReportName(t))
  {
    DisplayNameOfReport(t);
  }
}

=== FILE: schemas.dfy ===
/** The part of the validation library the schemas use: object schemas whose fields
    carry one check each, the shape operations `omit`, `partial`, `extend`, `pick`
    and `refine`, and `safeParse`, which strips undeclared keys. */
module Schemas {
  import opened Wrappers
  import opened Text
  import opened Values
  import opened Effects
  import FieldInference

  /** Checks whose outcome the model does not define: the email format, the ISO
      datetime format, and the milliseconds `new Date(text)` reads from a string
      (None for an invalid date). */
  datatype Formats = Formats(
    isEmail: string -> bool,
    isDateTime: string -> bool,
    dateMillis: string -> Option<int>)

  /** One field's validator. */
  datatype Check =
    | PositiveInt                        // number().int().positive()
    | AnyNumber                          // number()
    | AnyString                          // string()
    | MinLength(min: nat, message: string) // string().min(min, message)
    | EmailFormat                        // email()
    | DateTimeFormat                     // iso.datetime()
    | StringArray                        // array(string())
    | Anything                           // any()

  datatype Field = Field(check: Check, optional: bool)

  /** `refine(d => new Date(d[later]) > new Date(d[earlier]), {message, path: [later]})`. */
  datatype Refinement = LaterThan(later: string, earlier: string, message: string)

  /** An object schema: declared keys in declaration order, and the refinements attached to it. */
  datatype ObjectSchema = ObjectSchema(shape: seq<(string, Field)>, refinements: seq<Refinement>)

  function Keys(s: ObjectSchema): set<string> {
    set e | e in s.shape :: e.0
  }

  /** JavaScript's name for the kind of a value, as issue messages print it. */
  function TypeName(v: Value): string {
    match v
    case Undefined => "undefined"
    case Null => "null"
    case Bool(_) => "boolean"
    case Num(_) => "number"
    case NaN => "NaN"
    case Str(_) => "string"
    case Arr(_) => "array"
    case Obj(_) => "object"
  }

  /** `Number.MAX_SAFE_INTEGER`, 2^53 - 1: the integer check accepts only integers of at
      most this magnitude. */
  const MaxSafeInteger: int := 0x1F_FFFF_FFFF_FFFF

  /** A number the positive-integer check accepts: a safe integer above zero. */
  predicate SafePositive(n: int) {
    0 < n <= MaxSafeInteger
  }

  predicate CheckPasses(c: Check, v: Value, fm: Formats) {
    match c
    case PositiveInt => v.Num? && SafePositive(v.n)
    case AnyNumber => v.Num?
    case AnyString => v.Str?
    case MinLength(min, _) => v.Str? && |v.s| >= min
    case EmailFormat => v.Str? && fm.isEmail(v.s)
    case DateTimeFormat => v.Str? && fm.isDateTime(v.s)
    case StringArray => v.Arr? && forall i :: 0 <= i < |v.items| ==> v.items[i].Str?
    case Anything => true
  }

  /** An optional field also accepts undefined, which is what an absent key reads as. */
  predicate FieldPasses(f: Field, v: Value, fm: Formats) {
    (f.optional && v == Undefined) || CheckPasses(f.check, v, fm)
  }

  function Mismatch(expected: string, v: Value): string {
    "Invalid input: expected " + expected + ", received " + TypeName(v)
  }

  /** The issues an array of strings raises: one per element that is not a string. */
  function ElementIssues(key: string, items: seq<Value>, from: nat): (r: seq<Issue>)
    requires from <= |items|
    ensures r == [] <==> forall i :: from <= i < |items| ==> items[i].Str?
    decreases |items| - from
  {
    if from == |items| then []
    else
      var here := if items[from].Str? then []
                  else [Issue([Key(key), Index(from)], Mismatch("string", items[from]))];
      here + ElementIssues(key, items, from + 1)
  }

  /** The issues one field raises; the messages other than the ones a schema states
      are the library's wording. */
  function FieldIssues(key: string, f: Field, v: Value, fm: Formats): (r: seq<Issue>)
    ensures r == [] <==> FieldPasses(f, v, fm)
  {
    if FieldPasses(f, v, fm) then []
    else
      var at := [Key(key)];
      match f.check
      case PositiveInt =>
        if v.Num? then
          // the integer check's range issues, then the positivity check's
          (if v.n > MaxSafeInteger then [Issue(at, "Too big: expected int to be <=9007199254740991")] else [])
          + (if v.n < -MaxSafeInteger then [Issue(at, "Too small: expected int to be >=-9007199254740991")] else [])
          + (if v.n <= 0 then [Issue(at, "Too small: expected number to be >0")] else [])
        else [Issue(at, Mismatch("number", v))]
      case AnyNumber => [Issue(at, Mismatch("number", v))]
      case AnyString => [Issue(at, Mismatch("string", v))]
      case MinLength(_, message) =>
        if v.Str? then [Issue(at, message)] else [Issue(at, Mismatch("string", v))]
      case EmailFormat =>
        if v.Str? then [Issue(at, "Invalid email address")] else [Issue(at, Mismatch("string", v))]
      case DateTimeFormat =>
        if v.Str? then [Issue(at, "Invalid ISO datetime")] else [Issue(at, Mismatch("string", v))]
      case StringArray =>
        if v.Arr? then ElementIssues(key, v.items, 0) else [Issue(at, Mismatch("array", v))]
      case Anything => []
  }

  /** The issues of every declared field, in declaration order. */
  function ShapeIssues(shape: seq<(string, Field)>, input: Rec, fm: Formats): (r: seq<Issue>)
    ensures r == [] <==> forall e :: e in shape ==> FieldPasses(e.1, At(input, e.0), fm)
  {
    if |shape| == 0 then []
    else
      assert forall e :: e in shape <==> e == shape[0] || e in shape[1..];
      FieldIssues(shape[0].0, shape[0].1, At(input, shape[0].0), fm) + ShapeIssues(shape[1..], input, fm)
  }

  /** `new Date(v).getTime()` for the values a record can hold (None for an invalid date). */
  function DateOf(v: Value, fm: Formats): Option<int> {
    match v
    case Str(s) => fm.dateMillis(s)
    case Num(n) => Some(n)
    case Null => Some(0)
    case _ => None
  }

  /** Comparing two dates with `>` is false when either is invalid. */
  predicate RefinementHolds(r: Refinement, input: Rec, fm: Formats) {
    var later := DateOf(At(input, r.later), fm);
    var earlier := DateOf(At(input, r.earlier), fm);
    later.Some? && earlier.Some? && later.value > earlier.value
  }

  function RefinementIssues(rs: seq<Refinement>, input: Rec, fm: Formats): (r: seq<Issue>)
    ensures r == [] <==> forall x :: x in rs ==> RefinementHolds(x, input, fm)
  {
    if |rs| == 0 then []
    else
      assert forall x :: x in rs <==> x == rs[0] || x in rs[1..];
      (if RefinementHolds(rs[0], input, fm) then [] else [Issue([Key(rs[0].later)], rs[0].message)])
      + RefinementIssues(rs[1..], input, fm)
  }

  /** What the schema accepts: every declared field passes and every refinement holds. */
  predicate Valid(s: ObjectSchema, input: Rec, fm: Formats) {
    && (forall e :: e in s.shape ==> FieldPasses(e.1, At(input, e.0), fm))
    && (forall x :: x in s.refinements ==> RefinementHolds(x, input, fm))
  }

  /** The parsed data: the input restricted to the declared keys (undeclared keys are stripped). */
  function Strip(s: ObjectSchema, input: Rec): (d: Rec)
    ensures d.Keys == input.Keys * Keys(s)
    ensures forall k :: k in d ==> d[k] == input[k]
  {
    map k | k in input && k in Keys(s) :: input[k]
  }

  /** Whether a value has the type a check is about. A failed check on a value of the
      right type (too short, out of range, bad format) is an issue the library lets
      parsing continue past; a value of the wrong type is not. */
  predicate TypeMatches(c: Check, v: Value) {
    match c
    case PositiveInt => v.Num?
    case AnyNumber => v.Num?
    case AnyString => v.Str?
    case MinLength(_, _) => v.Str?
    case EmailFormat => v.Str?
    case DateTimeFormat => v.Str?
    case StringArray => v.Arr? && forall i :: 0 <= i < |v.items| ==> v.items[i].Str?
    case Anything => true
  }

  /** A field whose issues stop the object's refinements: a wrong type, or a missing
      required value. */
  predicate FieldAborts(f: Field, v: Value) {
    !(f.optional && v == Undefined) && !TypeMatches(f.check, v)
  }

  predicate ShapeAborts(shape: seq<(string, Field)>, input: Rec) {
    exists e :: e in shape && FieldAborts(e.1, At(input, e.0))
  }

  /** A field that passes never stops the refinements. */
  lemma PassingFieldDoesNotAbort(f: Field, v: Value, fm: Formats)
    requires FieldPasses(f, v, fm)
    ensures !FieldAborts(f, v)
  {
  }

  /** `schema.safeParse(input)`: the fields' issues in declaration order, then, unless a
      field had the wrong type, the issues of the refinements, which see the input as
      it is. */
  function SafeParse(s: ObjectSchema, input: Rec, fm: Formats): (r: ParseOutcome)
    ensures !r.ParseThrew?
    ensures r.Parsed? <==> Valid(s, input, fm)
    ensures r.Parsed? ==> r.data.Keys == input.Keys * Keys(s)
    ensures r.Parsed? ==> forall k :: k in r.data ==> r.data[k] == input[k]
    ensures r.Rejected? ==> |r.issues| > 0
  {
    var issues := ShapeIssues(s.shape, input, fm);
    var refined := if ShapeAborts(s.shape, input) then [] else RefinementIssues(s.refinements, input, fm);
    if issues == [] then
      assert !ShapeAborts(s.shape, input) by {
        forall e | e in s.shape ensures !FieldAborts(e.1, At(input, e.0)) {
          PassingFieldDoesNotAbort(e.1, At(input, e.0), fm);
        }
      }
      if refined == [] then Parsed(Strip(s, input)) else Rejected(refined)
    else Rejected(issues + refined)
  }

  /** The issues of a rejection: a wrong-typed field hides the refinements, and
      otherwise every failing refinement is reported after the fields, even when a
      field already failed one of its checks. */
  lemma SafeParseIssues(s: ObjectSchema, input: Rec, fm: Formats)
    requires SafeParse(s, input, fm).Rejected?
    ensures ShapeAborts(s.shape, input) ==> SafeParse(s, input, fm).issues == ShapeIssues(s.shape, input, fm)
    ensures !ShapeAborts(s.shape, input) ==>
      SafeParse(s, input, fm).issues == ShapeIssues(s.shape, input, fm) + RefinementIssues(s.refinements, input, fm)
  {
  }

  /** The entries of `shape` whose key `keep` admits, in order. */
  function Filter(shape: seq<(string, Field)>, keep: string -> bool): (r: seq<(string, Field)>)
    ensures forall e :: e in r <==> e in shape && keep(e.0)
    ensures |r| <= |shape|
  {
    if |shape| == 0 then []
    else
      assert forall e :: e in shape <==> e == shape[0] || e in shape[1..];
      (if keep(shape[0].0) then [shape[0]] else []) + Filter(shape[1..], keep)
  }

  /** `schema.omit(keys)`; like the library, the copy carries no refinements. */
  function Omit(s: ObjectSchema, keys: set<string>): (r: ObjectSchema)
    ensures Keys(r) == Keys(s) - keys
    ensures forall e :: e in r.shape <==> e in s.shape && e.0 !in keys
    ensures r.refinements == []
  {
    var r := ObjectSchema(Filter(s.shape, k => k !in keys), []);
    assert forall k :: k in Keys(r) ==> k in Keys(s) - keys;
    assert forall k :: k in Keys(s) - keys ==> (exists e :: e in s.shape && e.0 == k) && k in Keys(r);
    r
  }

  /** `schema.pick(keys)`; the copy carries no refinements. */
  function Pick(s: ObjectSchema, keys: set<string>): (r: ObjectSchema)
    ensures Keys(r) == Keys(s) * keys
    ensures forall e :: e in r.shape <==> e in s.shape && e.0 in keys
    ensures r.refinements == []
  {
    var r := ObjectSchema(Filter(s.shape, k => k in keys), []);
    assert forall k :: k in Keys(s) * keys ==> (exists e :: e in s.shape && e.0 == k) && k in Keys(r);
    r
  }

  /** `schema.partial()`: every field becomes optional; the copy carries no refinements. */
  function Partial(s: ObjectSchema): (r: ObjectSchema)
    ensures Keys(r) == Keys(s)
    ensures forall e :: e in s.shape ==> (e.0, Field(e.1.check, true)) in r.shape
    ensures forall e :: e in r.shape ==> e.1.optional && exists f :: f in s.shape && e == (f.0, Field(f.1.check, true))
    ensures r.refinements == []
  {
    var r := ObjectSchema(seq(|s.shape|, i requires 0 <= i < |s.shape| => (s.shape[i].0, Field(s.shape[i].1.check, true))), []);
    assert forall e :: e in s.shape ==> (exists i :: 0 <= i < |s.shape| && s.shape[i] == e && r.shape[i] == (e.0, Field(e.1.check, true)));
    assert forall k :: k in Keys(s) ==> exists e :: e in s.shape && e.0 == k && (e.0, Field(e.1.check, true)) in r.shape;
    r
  }

  /** `schema.extend(fields)`: added keys replace declared ones of the same name, and
      like `omit` the copy carries no refinements. The model lists an overridden key
      after the kept ones, where the library keeps it in place. */
  function Extend(s: ObjectSchema, fields: seq<(string, Field)>): (r: ObjectSchema)
    ensures Keys(r) == Keys(s) + Keys(ObjectSchema(fields, []))
    ensures forall e :: e in r.shape <==> (e in s.shape && e.0 !in Keys(ObjectSchema(fields, []))) || e in fields
    ensures r.refinements == []
  {
    var added := Keys(ObjectSchema(fields, []));
    var r := ObjectSchema(Filter(s.shape, k => k !in added) + fields, []);
    assert forall k :: k in Keys(s) - added ==> (exists e :: e in s.shape && e.0 == k) && k in Keys(r);
    r
  }

  /** `schema.refine(...)`. */
  function Refine(s: ObjectSchema, x: Refinement): (r: ObjectSchema)
    ensures r.shape == s.shape && r.refinements == s.refinements + [x]
  {
    ObjectSchema(s.shape, s.refinements + [x])
  }

  /** The first declared field of a key. */
  function FieldOf(shape: seq<(string, Field)>, key: string): (f: Field)
    requires exists e :: e in shape && e.0 == key
    ensures (key, f) in shape
  {
    if shape[0].0 == key then shape[0].1
    else
      assert exists e :: e in shape[1..] && e.0 == key;
      FieldOf(shape[1..], key)
  }

  /** The runtime type description the field-type inference reads for a field. The
      validation library (zod 4) builds `email()` and `iso.datetime()` as classes of
      their own, which the inference's switch does not list, and a string's checks
      carry no `kind`, so no field is ever described as an email-checked string. */
  function TypeOf(f: Field): FieldInference.SchemaType {
    var base := match f.check
      case PositiveInt => FieldInference.NumberType
      case AnyNumber => FieldInference.NumberType
      case AnyString => FieldInference.StringType(false)
      case MinLength(_, _) => FieldInference.StringType(false)
      case EmailFormat => FieldInference.OtherType
      case DateTimeFormat => FieldInference.OtherType
      case StringArray => FieldInference.OtherType
      case Anything => FieldInference.OtherType;
    if f.optional then FieldInference.Optional(base) else base
  }

  /** The schema's shape as the inference sees it. */
  function Describe(s: ObjectSchema): (d: FieldInference.Shape)
    ensures d.Keys == Keys(s)
  {
    map k | k in Keys(s) :: TypeOf(FieldOf(s.shape, k))
  }

  /** Without an explicit input type, an email or datetime field is a plain text input,
      and no declared field is ever inferred as an email input. */
  lemma FormatFieldsInferText(s: ObjectSchema, k: string)
    requires k in Keys(s)
    ensures FieldOf(s.shape, k).check in {EmailFormat, DateTimeFormat} ==>
      FieldInference.Infer(Describe(s), k) == FieldInference.TextInput
    ensures FieldInference.Infer(Describe(s), k) != FieldInference.EmailInput
  {
  }
}

=== FILE: text.dfy ===
/** String helpers shared by the formatters: decimal integers, joining and splitting,
    ASCII case, and JavaScript's `trim`. */
module Text {
  import opened Wrappers

  predicate IsDigit(c: char) {
    '0' <= c <= '9'
  }

  function DigitChar(d: nat): (c: char)
    requires d < 10
    ensures IsDigit(c)
  {
    ['0', '1', '2', '3', '4', '5', '6', '7', '8', '9'][d]
  }

  function DigitValue(c: char): (d: nat)
    requires IsDigit(c)
    ensures d < 10
  {
    (c as int - '0' as int) as nat
  }

  lemma DigitValueOfDigitChar(d: nat)
    requires d < 10
    ensures DigitValue(DigitChar(d)) == d
  {
  }

  predicate AllDigits(s: string) {
    forall i :: 0 <= i < |s| ==> IsDigit(s[i])
  }

  /** The decimal text of a natural number, without leading zeros (Number.prototype.toString). */
  function NatToDecimal(n: nat): (s: string)
    ensures |s| >= 1 && AllDigits(s)
    ensures s[0] == '0' ==> n == 0
  {
    if n < 10 then [DigitChar(n)] else NatToDecimal(n / 10) + [DigitChar(n % 10)]
  }

  /** Reads a non-empty run of decimal digits. */
  function DecimalToNat(s: string): nat
    requires AllDigits(s)
  {
    if |s| == 0 then 0 else DecimalToNat(s[..|s| - 1]) * 10 + DigitValue(s[|s| - 1])
  }

  lemma {:induction false} NatDecimalRoundTrip(n: nat)
    ensures DecimalToNat(NatToDecimal(n)) == n
  {
    if n < 10 {
      DigitValueOfDigitChar(n);
    } else {
      var s := NatToDecimal(n);
      assert s[..|s| - 1] == NatToDecimal(n / 10);
      NatDecimalRoundTrip(n / 10);
      DigitValueOfDigitChar(n % 10);
    }
  }

  /** The decimal text of an integer: a minus sign, then the digits of its magnitude. */
  function IntToDecimal(n: int): string {
    if n < 0 then "-" + NatToDecimal(-n) else NatToDecimal(n)
  }

  /** The inverse reader: an optional minus sign followed by at least one digit. */
  function ParseInt(s: string): Option<int> {
    if |s| >= 2 && s[0] == '-' && AllDigits(s[1..]) then Some(-(DecimalToNat(s[1..]) as int))
    else if |s| >= 1 && AllDigits(s) then Some(DecimalToNat(s))
    else None
  }

  /** Every integer's decimal text reads back as that integer, so distinct numbers print differently. */
  lemma IntDecimalRoundTrip(n: int)
    ensures ParseInt(IntToDecimal(n)) == Some(n)
  {
    var s := IntToDecimal(n);
    if n < 0 {
      var d := NatToDecimal(-n);
      assert s[1..] == d;
      assert |s| >= 2 && s[0] == '-' && AllDigits(s[1..]);
      NatDecimalRoundTrip(-n);
    } else {
      assert IsDigit(s[0]);
      NatDecimalRoundTrip(n);
    }
  }

  lemma IntToDecimalInjective(m: int, n: int)
    ensures IntToDecimal(m) == IntToDecimal(n) ==> m == n
  {
    IntDecimalRoundTrip(m);
    IntDecimalRoundTrip(n);
  }

  /** `parts.join(sep)` of JavaScript. */
  function Join(parts: seq<string>, sep: string): string {
    if |parts| == 0 then ""
    else if |parts| == 1 then parts[0]
    else parts[0] + sep + Join(parts[1..], sep)
  }

  /** `s.split(c)` for a one-character separator: the pieces between separators, never empty. */
  function Split(s: string, c: char): (parts: seq<string>)
    ensures |parts| >= 1
  {
    if |s| == 0 then [""]
    else
      var rest := Split(s[1..], c);
      if s[0] == c then [""] + rest else [[s[0]] + rest[0]] + rest[1..]
  }

  lemma {:induction false} SplitAfterPiece(a: string, c: char, b: string)
    requires c !in a
    ensures Split(a + [c] + b, c) == [a] + Split(b, c)
  {
    if |a| == 0 {
      assert a + [c] + b == [c] + b;
      assert ([c] + b)[1..] == b;
    } else {
      assert (a + [c] + b)[1..] == a[1..] + [c] + b;
      SplitAfterPiece(a[1..], c, b);
      assert [a[0]] + a[1..] == a;
    }
  }

  lemma {:induction false} SplitOfPiece(a: string, c: char)
    requires c !in a
    ensures Split(a, c) == [a]
  {
    if |a| > 0 {
      SplitOfPiece(a[1..], c);
      assert [a[0]] + a[1..] == a;
    }
  }

  /** Joining with a one-character separator that no part contains can be undone by splitting. */
  lemma {:induction false} SplitJoin(parts: seq<string>, c: char)
    requires |parts| >= 1
    requires forall i :: 0 <= i < |parts| ==> c !in parts[i]
    ensures Split(Join(parts, [c]), c) == parts
  {
    if |parts| == 1 {
      SplitOfPiece(parts[0], c);
    } else {
      SplitJoin(parts[1..], c);
      assert parts[0] + [c] + Join(parts[1..], [c]) == Join(parts, [c]);
      SplitAfterPiece(parts[0], c, Join(parts[1..], [c]));
      assert [parts[0]] + parts[1..] == parts;
    }
  }

  /** The parts with `pad` put in front of every one but the first. */
  function PadTail(parts: seq<string>, pad: string): (r: seq<string>)
    ensures |r| == |parts|
    ensures |parts| > 0 ==> r[0] == parts[0]
    ensures forall i :: 1 <= i < |parts| ==> r[i] == pad + parts[i]
  {
    if |parts| == 0 then [] else [parts[0]] + seq(|parts| - 1, i requires 0 <= i < |parts| - 1 => pad + parts[i + 1])
  }

  /** Joining with a separator that starts with `c` is joining with `c` alone once the
      rest of the separator is moved onto the parts after the first. */
  lemma {:induction false} JoinLongSeparator(parts: seq<string>, c: char, pad: string)
    ensures Join(parts, [c] + pad) == Join(PadTail(parts, pad), [c])
  {
    if |parts| > 1 {
      var rest := parts[1..];
      JoinLongSeparator(rest, c, pad);
      var padded := PadTail(parts, pad);
      assert padded[1..] == [pad + rest[0]] + PadTail(rest, pad)[1..];
      PadHead(PadTail(rest, pad), pad, [c]);
      assert Join(parts, [c] + pad) == parts[0] + [c] + (pad + Join(PadTail(rest, pad), [c]));
    }
  }

  /** Text put in front of a join goes onto its first part. */
  lemma PadHead(q: seq<string>, pad: string, sep: string)
    requires |q| >= 1
    ensures pad + Join(q, sep) == Join([pad + q[0]] + q[1..], sep)
  {
    var q' := [pad + q[0]] + q[1..];
    assert q'[1..] == q[1..];
  }

  predicate IsLower(c: char) {
    'a' <= c <= 'z'
  }

  predicate IsUpper(c: char) {
    'A' <= c <= 'Z'
  }

  /** `toUpperCase` on one character, for the ASCII letters. */
  function UpperChar(c: char): (u: char)
    ensures IsLower(c) ==> IsUpper(u)
    ensures !IsLower(c) ==> u == c
  {
    if IsLower(c) then (c as int - 32) as char else c
  }

  /** The white-space and line-terminator characters `String.prototype.trim` removes. */
  predicate IsWhiteSpace(c: char) {
    c == ' ' || c == '\t' || c == '\n' || c == '\r' || c == '\U{000B}' || c == '\U{000C}'
    || c == '\U{00A0}' || c == '\U{1680}' || ('\U{2000}' <= c <= '\U{200A}')
    || c == '\U{2028}' || c == '\U{2029}' || c == '\U{202F}' || c == '\U{205F}'
    || c == '\U{3000}' || c == '\U{FEFF}'
  }

  /** How many white-space characters `s` starts with. */
  function LeadingWhiteSpace(s: string): (k: nat)
    ensures k <= |s|
    ensures forall i :: 0 <= i < k ==> IsWhiteSpace(s[i])
    ensures k < |s| ==> !IsWhiteSpace(s[k])
  {
    if |s| > 0 && IsWhiteSpace(s[0]) then 1 + LeadingWhiteSpace(s[1..]) else 0
  }

  function TrimEnd(s: string): (r: string)
    ensures |r| <= |s| && r == s[..|r|]
    ensures forall i :: |r| <= i < |s| ==> IsWhiteSpace(s[i])
    ensures |r| > 0 ==> !IsWhiteSpace(r[|r| - 1])
  {
    if |s| > 0 && IsWhiteSpace(s[|s| - 1]) then TrimEnd(s[..|s| - 1]) else s
  }

  /** `s.trim()`: the contiguous middle of `s` left after removing white space at both ends;
      nothing but white space is removed. */
  function Trim(s: string): (r: string)
    ensures |r| == 0 || (!IsWhiteSpace(r[0]) && !IsWhiteSpace(r[|r| - 1]))
    ensures LeadingWhiteSpace(s) + |r| <= |s|
    ensures r == s[LeadingWhiteSpace(s)..LeadingWhiteSpace(s) + |r|]
    ensures forall j :: LeadingWhiteSpace(s) + |r| <= j < |s| ==> IsWhiteSpace(s[j])
  {
    TrimEnd(s[LeadingWhiteSpace(s)..])
  }
}

=== FILE: transaction.dfy ===
/** Transactions (loans): the entity schema with its date refinement, the request
    schemas, and the `TransactionModel` date arithmetic (app/lib/schemas/transaction.ts).
    Dates are integer milliseconds; the current time is a parameter. */
module TransactionSchemas {
  import opened Wrappers
  import opened Values
  import opened Schemas
  import opened Common
  import opened Effects

  datatype Transaction = Transaction(
    transactionID: int, bookID: int, memberID: int, borrowDate: string, dueDate: string)

  const TransactionIdField := ("transactionID", Field(PositiveInteger, false))
  const BookIdField := ("bookID", Field(PositiveInteger, false))
  const MemberIdField := ("memberID", Field(PositiveInteger, false))
  const BorrowDateField := ("borrowDate", Field(DateTimeFormat, false))
  const DueDateField := ("dueDate", Field(DateTimeFormat, false))

  const DueDateMessage := "Due date must be after borrow date"
  const DueAfterBorrow := LaterThan("dueDate", "borrowDate", DueDateMessage)

  const TransactionSchema := Refine(
    ObjectSchema([TransactionIdField, BookIdField, MemberIdField, BorrowDateField, DueDateField], []),
    DueAfterBorrow)

  /** Only the two ids; the dates are set by the server. */
  const CreateTransactionSchema := ObjectSchema([BookIdField, MemberIdField], [])

  /** `TransactionSchema.partial().omit({transactionID})`. */
  const UpdateTransactionSchema := Omit(Partial(TransactionSchema), {"transactionID"})

  predicate PositiveNumber(v: Value) {
    v.Num? && SafePositive(v.n)
  }

  predicate DateTimeText(v: Value, fm: Formats) {
    v.Str? && fm.isDateTime(v.s)
  }

  lemma TransactionEntries()
    ensures forall e :: e in TransactionSchema.shape <==>
      e == TransactionIdField || e == BookIdField || e == MemberIdField || e == BorrowDateField || e == DueDateField
    ensures TransactionSchema.refinements == [DueAfterBorrow]
    ensures Keys(TransactionSchema) == {"transactionID", "bookID", "memberID", "borrowDate", "dueDate"}
  {
    var shape := TransactionSchema.shape;
    assert shape[0] in shape && shape[1] in shape && shape[2] in shape && shape[3] in shape && shape[4] in shape;
  }

  /** A transaction is valid exactly when its three ids are positive integers, both
      dates are ISO datetimes, and the due date is strictly after the borrow date. */
  lemma TransactionAccepts(r: Rec, fm: Formats)
    ensures Valid(TransactionSchema, r, fm) <==>
      && PositiveNumber(At(r, "transactionID")) && PositiveNumber(At(r, "bookID")) && PositiveNumber(At(r, "memberID"))
      && DateTimeText(At(r, "borrowDate"), fm) && DateTimeText(At(r, "dueDate"), fm)
      && RefinementHolds(DueAfterBorrow, r, fm)
  {
    TransactionEntries();
  }

  /** A record whose fields all pass but whose due date is not after its borrow date is
      rejected with exactly one issue, on `dueDate`, with the schema's message. */
  lemma DueDateIssue(r: Rec, fm: Formats)
    requires forall e :: e in TransactionSchema.shape ==> FieldPasses(e.1, At(r, e.0), fm)
    requires !RefinementHolds(DueAfterBorrow, r, fm)
    ensures SafeParse(TransactionSchema, r, fm) == Rejected([Issue([Key("dueDate")], DueDateMessage)])
  {
    TransactionEntries();
    assert RefinementIssues(TransactionSchema.refinements, r, fm) == [Issue([Key("dueDate")], DueDateMessage)];
  }

  /** A due date that is a string but not an ISO datetime is reported twice: once by
      its format check and, since that check lets parsing continue, once more by the
      refinement, which cannot read the date. */
  lemma BadDueDateAlsoReportsRefinement(r: Rec, fm: Formats, x: string)
    requires PositiveNumber(At(r, "transactionID")) && PositiveNumber(At(r, "bookID")) && PositiveNumber(At(r, "memberID"))
    requires DateTimeText(At(r, "borrowDate"), fm)
    requires At(r, "dueDate") == Str(x) && !fm.isDateTime(x) && fm.dateMillis(x).None?
    ensures SafeParse(TransactionSchema, r, fm)
      == Rejected([Issue([Key("dueDate")], "Invalid ISO datetime"), Issue([Key("dueDate")], DueDateMessage)])
  {
    BadDueDateFieldIssues(r, fm, x);
    BadDueDateDoesNotAbort(r, fm, x);
    assert RefinementIssues(TransactionSchema.refinements, r, fm) == [Issue([Key("dueDate")], DueDateMessage)];
  }

  lemma BadDueDateFieldIssues(r: Rec, fm: Formats, x: string)
    requires PositiveNumber(At(r, "transactionID")) && PositiveNumber(At(r, "bookID")) && PositiveNumber(At(r, "memberID"))
    requires DateTimeText(At(r, "borrowDate"), fm)
    requires At(r, "dueDate") == Str(x) && !fm.isDateTime(x)
    ensures ShapeIssues(TransactionSchema.shape, r, fm) == [Issue([Key("dueDate")], "Invalid ISO datetime")]
  {
    var shape := TransactionSchema.shape;
    assert ShapeIssues(shape[4..], r, fm) == [Issue([Key("dueDate")], "Invalid ISO datetime")];
    assert ShapeIssues(shape[3..], r, fm) == ShapeIssues(shape[4..], r, fm);
    assert ShapeIssues(shape[2..], r, fm) == ShapeIssues(shape[3..], r, fm);
    assert ShapeIssues(shape[1..], r, fm) == ShapeIssues(shape[2..], r, fm);
  }

  lemma BadDueDateDoesNotAbort(r: Rec, fm: Formats, x: string)
    requires PositiveNumber(At(r, "transactionID")) && PositiveNumber(At(r, "bookID")) && PositiveNumber(At(r, "memberID"))
    requires DateTimeText(At(r, "borrowDate"), fm)
    requires At(r, "dueDate") == Str(x)
    ensures !ShapeAborts(TransactionSchema.shape, r)
  {
    TransactionEntries();
  }

  lemma CreateTransactionAccepts(r: Rec, fm: Formats)
    ensures Keys(CreateTransactionSchema) == {"bookID", "memberID"}
    ensures Valid(CreateTransactionSchema, r, fm) <==> PositiveNumber(At(r, "bookID")) && PositiveNumber(At(r, "memberID"))
  {
    var shape := CreateTransactionSchema.shape;
    assert shape[0] in shape && shape[1] in shape;
  }

  ghost predicate HasUpdateEntries(s: ObjectSchema) {
    && s.refinements == []
    && forall e :: e in s.shape <==>
      e == ("bookID", Field(PositiveInteger, true)) || e == ("memberID", Field(PositiveInteger, true))
      || e == ("borrowDate", Field(DateTimeFormat, true)) || e == ("dueDate", Field(DateTimeFormat, true))
  }

  lemma UpdateTransactionEntries()
    ensures HasUpdateEntries(UpdateTransactionSchema)
  {
    TransactionEntries();
    var p := Partial(TransactionSchema);
    assert forall e :: e in p.shape <==>
      e == ("transactionID", Field(PositiveInteger, true)) || e == ("bookID", Field(PositiveInteger, true))
      || e == ("memberID", Field(PositiveInteger, true))
      || e == ("borrowDate", Field(DateTimeFormat, true)) || e == ("dueDate", Field(DateTimeFormat, true));
  }

  lemma UpdateEntriesFacts(s: ObjectSchema, r: Rec, fm: Formats)
    requires HasUpdateEntries(s)
    ensures Keys(s) == {"bookID", "memberID", "borrowDate", "dueDate"}
    ensures Valid(s, r, fm) <==>
      && (At(r, "bookID") == Undefined || PositiveNumber(At(r, "bookID")))
      && (At(r, "memberID") == Undefined || PositiveNumber(At(r, "memberID")))
      && (At(r, "borrowDate") == Undefined || DateTimeText(At(r, "borrowDate"), fm))
      && (At(r, "dueDate") == Undefined || DateTimeText(At(r, "dueDate"), fm))
  {
    assert ("bookID", Field(PositiveInteger, true)) in s.shape;
    assert ("memberID", Field(PositiveInteger, true)) in s.shape;
    assert ("borrowDate", Field(DateTimeFormat, true)) in s.shape;
    assert ("dueDate", Field(DateTimeFormat, true)) in s.shape;
  }

  /** The update schema drops the id, makes every other field optional, and, like
      every copy the library makes of an object schema, no longer carries the date
      refinement. */
  lemma UpdateTransactionAccepts(r: Rec, fm: Formats)
    ensures Keys(UpdateTransactionSchema) == {"bookID", "memberID", "borrowDate", "dueDate"}
    ensures UpdateTransactionSchema.refinements == []
    ensures Valid(UpdateTransactionSchema, r, fm) <==>
      && (At(r, "bookID") == Undefined || PositiveNumber(At(r, "bookID")))
      && (At(r, "memberID") == Undefined || PositiveNumber(At(r, "memberID")))
      && (At(r, "borrowDate") == Undefined || DateTimeText(At(r, "borrowDate"), fm))
      && (At(r, "dueDate") == Undefined || DateTimeText(At(r, "dueDate"), fm))
  {
    UpdateTransactionEntries();
    UpdateEntriesFacts(UpdateTransactionSchema, r, fm);
  }

  /** Milliseconds in a day. */
  const DayMs: int := 1000 * 60 * 60 * 24

  /** `Math.ceil(a / d)` for a positive divisor. */
  function CeilDiv(a: int, d: int): (q: int)
    requires d > 0
    ensures (q - 1) * d < a <= q * d
  {
    -((-a) / d)
  }

  /** `Math.floor(a / d)` for a positive divisor. */
  function FloorDiv(a: int, d: int): (q: int)
    requires d > 0
    ensures q * d <= a < (q + 1) * d
  {
    a / d
  }

  function TransactionRecord(t: Transaction): Rec {
    map["transactionID" := Num(t.transactionID), "bookID" := Num(t.bookID), "memberID" := Num(t.memberID),
        "borrowDate" := Str(t.borrowDate), "dueDate" := Str(t.dueDate)]
  }

  /** The date rules: both dates are datetimes and they parse with the due date later. */
  predicate TransactionValid(t: Transaction, fm: Formats) {
    && SafePositive(t.transactionID) && SafePositive(t.bookID) && SafePositive(t.memberID)
    && fm.isDateTime(t.borrowDate) && fm.isDateTime(t.dueDate)
    && fm.dateMillis(t.dueDate).Some? && fm.dateMillis(t.borrowDate).Some?
    && fm.dateMillis(t.dueDate).value > fm.dateMillis(t.borrowDate).value
  }

  /** `TransactionModel`: a transaction behind date accessors. */
  datatype TransactionModel = TransactionModel(props: Transaction)

  function Wrap(t: Transaction): TransactionModel {
    TransactionModel(t)
  }

  function ToJson(model: TransactionModel): Transaction {
    model.props
  }

  /** `toJSON` gives back exactly the transaction that was wrapped. */
  lemma WrapToJsonIdentity(t: Transaction)
    ensures ToJson(Wrap(t)) == t
  {
  }

  /** `isOverdue`: the current time is after the due date (false for an invalid date). */
  function IsOverdue(model: TransactionModel, now: int, fm: Formats): (r: bool)
    ensures r <==> fm.dateMillis(model.props.dueDate).Some? && now > fm.dateMillis(model.props.dueDate).value
  {
    match fm.dateMillis(model.props.dueDate)
    case Some(due) => now > due
    case None => false
  }

  /** `daysUntilDue`: whole days from now to the due date, rounded up (None for NaN). */
  function DaysUntilDue(model: TransactionModel, now: int, fm: Formats): (r: Option<int>)
    ensures r.Some? <==> fm.dateMillis(model.props.dueDate).Some?
    ensures r.Some? ==> (r.value - 1) * DayMs < fm.dateMillis(model.props.dueDate).value - now <= r.value * DayMs
  {
    match fm.dateMillis(model.props.dueDate)
    case Some(due) => Some(CeilDiv(due - now, DayMs))
    case None => None
  }

  /** `borrowDuration`: whole days from borrowing to the due date, rounded up. */
  function BorrowDuration(model: TransactionModel, fm: Formats): (r: Option<int>)
    ensures r.Some? <==> fm.dateMillis(model.props.dueDate).Some? && fm.dateMillis(model.props.borrowDate).Some?
    ensures r.Some? ==>
      var span := fm.dateMillis(model.props.dueDate).value - fm.dateMillis(model.props.borrowDate).value;
      (r.value - 1) * DayMs < span <= r.value * DayMs
  {
    match (fm.dateMillis(model.props.dueDate), fm.dateMillis(model.props.borrowDate))
    case (Some(due), Some(borrow)) => Some(CeilDiv(due - borrow, DayMs))
    case _ => None
  }

  /** An overdue transaction has no days left; one that is not overdue has none negative. */
  lemma OverdueMeansNoDaysLeft(model: TransactionModel, now: int, fm: Formats)
    requires fm.dateMillis(model.props.dueDate).Some?
    ensures IsOverdue(model, now, fm) ==> DaysUntilDue(model, now, fm).value <= 0
    ensures !IsOverdue(model, now, fm) ==> DaysUntilDue(model, now, fm).value >= 0
  {
  }

  /** Every transaction the schema accepts is borrowed for at least one day. */
  lemma BorrowDurationAtLeastOneDay(t: Transaction, fm: Formats)
    requires Valid(TransactionSchema, TransactionRecord(t), fm)
    ensures BorrowDuration(Wrap(t), fm).Some? && BorrowDuration(Wrap(t), fm).value >= 1
  {
    TransactionAccepts(TransactionRecord(t), fm);
  }

  /** A transaction's own record passes the schema exactly when it is valid, provided
      every string the datetime check accepts reads as a date. */
  lemma RecordValidIffValid(t: Transaction, fm: Formats)
    requires forall s :: fm.isDateTime(s) ==> fm.dateMillis(s).Some?
    ensures Valid(TransactionSchema, TransactionRecord(t), fm) <==> TransactionValid(t, fm)
  {
    TransactionAccepts(TransactionRecord(t), fm);
  }
}

=== FILE: transaction_dialogs.dfy ===
/** The transaction dialogs (components/dialogs/transactionDialogs.tsx): the add
    dialog, and the return-book dialog that deletes a transaction after a confirmation
    form with no fields. The API calls `createTransaction` and `deleteTransaction` are
    parameters. */
module TransactionDialogs {
  import opened Wrappers
  import opened Values
  import opened Effects
  import opened FieldInference
  import opened Schemas
  import opened TransactionSchemas
  import opened EntityDialogs
  import FormDialog

  const AddTransactionFields := [
    Typed("bookID", "Book ID", NumberInput, "Enter book ID"),
    Typed("memberID", "Member ID", NumberInput, "Enter member ID")]

  /** `AddTransactionDialog`: creates a transaction from the two ids. */
  function AddTransactionDialog(fm: Formats, create: Rec -> Outcome): (cfg: FormDialog.Config)
    ensures cfg.title == "Add Transaction" && cfg.fields == AddTransactionFields && cfg.defaults.None?
    ensures forall r :: cfg.schema(r) == SafeParse(CreateTransactionSchema, r, fm)
    ensures forall p :: cfg.onSubmit(p) == Invocation([CreateCalled(p)], create(p))
  {
    FormDialog.Config(Validator(CreateTransactionSchema, fm), Describe(CreateTransactionSchema), AddTransactionFields,
      "Add Transaction", p => Invocation([CreateCalled(p)], create(p)), None)
  }

  lemma IdPairKeys(s: ObjectSchema)
    requires s.shape == [BookIdField, MemberIdField]
    ensures Keys(s) == {"bookID", "memberID"}
  {
    assert s.shape[0] in s.shape && s.shape[1] in s.shape;
  }

  /** Both ids are asked for in number inputs, and they are exactly the keys the create
      schema declares. */
  lemma AddTransactionFieldsDeclared(fm: Formats, create: Rec -> Outcome)
    ensures FormDialog.Names(AddTransactionFields) == Keys(CreateTransactionSchema)
    ensures var cfg := AddTransactionDialog(fm, create);
      forall f :: f in cfg.fields ==> FormDialog.KindOf(cfg, f) == NumberInput
  {
    var fs := AddTransactionFields;
    assert fs[0] in fs && fs[1] in fs;
    IdPairKeys(CreateTransactionSchema);
  }

  /** The return dialog's own state. */
  datatype DeleteState = DeleteState(isDeleting: bool, dialogOpen: bool)

  /** The caller's props besides the transaction and `trigger`. */
  datatype DeleteProps = DeleteProps(open: Option<bool>, hasOnOpenChange: bool, hasOnSuccess: bool)

  /** What a handler did: the state while the delete request is awaited, the state
      afterwards, and the calls made, in order. */
  datatype DeleteStep = DeleteStep(pending: DeleteState, state: DeleteState, effects: seq<Effect>)

  /** `handleDelete`: delete the transaction; once that succeeds call `onSuccess`, close,
      and tell the caller. A failed delete is swallowed. Either way it ends not deleting. */
  function HandleDelete(props: DeleteProps, st: DeleteState, t: Transaction, delete: Value -> Outcome): (r: DeleteStep)
    ensures r.pending.isDeleting && !r.state.isDeleting
    ensures |r.effects| >= 1 && r.effects[0] == DeleteCalled(Num(t.transactionID))
    ensures delete(Num(t.transactionID)).Raised? ==> r.effects == [DeleteCalled(Num(t.transactionID))]
    ensures delete(Num(t.transactionID)).Raised? ==> r.state.dialogOpen == st.dialogOpen
    ensures delete(Num(t.transactionID)).Returned? ==> !r.state.dialogOpen
    ensures SuccessCalled in r.effects <==> props.hasOnSuccess && delete(Num(t.transactionID)).Returned?
    ensures OpenChangeCalled(false) in r.effects <==> props.hasOnOpenChange && delete(Num(t.transactionID)).Returned?
    ensures forall e :: e in r.effects ==> e == DeleteCalled(Num(t.transactionID)) || e == SuccessCalled || e == OpenChangeCalled(false)
  {
    var id := Num(t.transactionID);
    var pending := st.(isDeleting := true);
    match delete(id)
    case Returned(_) =>
      var success := if props.hasOnSuccess then [SuccessCalled] else [];
      var told := if props.hasOnOpenChange then [OpenChangeCalled(false)] else [];
      DeleteStep(pending, pending.(dialogOpen := false, isDeleting := false), [DeleteCalled(id)] + success + told)
    case Raised(_) =>
      DeleteStep(pending, pending.(isDeleting := false), [DeleteCalled(id)])
  }

  /** `handleOpenChange`: store the request and pass it on to the caller. */
  function HandleOpenChange(props: DeleteProps, st: DeleteState, o: bool): (r: (DeleteState, seq<Effect>))
    ensures r.0.dialogOpen == o && r.0.isDeleting == st.isDeleting
    ensures r.1 == (if props.hasOnOpenChange then [OpenChangeCalled(o)] else [])
  {
    (st.(dialogOpen := o), if props.hasOnOpenChange then [OpenChangeCalled(o)] else [])
  }

  /** `CreateTransactionSchema.pick({})`: a schema with no fields. */
  function ConfirmSchema(): ObjectSchema {
    Pick(CreateTransactionSchema, {})
  }

  /** A schema without fields or refinements accepts every form and parses it to
      nothing; picking no keys gives one. */
  lemma EmptySchemaAcceptsAll(s: ObjectSchema, r: Rec, fm: Formats)
    requires s.shape == [] && s.refinements == []
    ensures SafeParse(s, r, fm) == Parsed(map[])
  {
    assert Valid(s, r, fm);
    assert SafeParse(s, r, fm).data.Keys == {};
  }

  lemma {:induction false} PickNothingIsEmpty(s: ObjectSchema)
    ensures Pick(s, {}).shape == [] && Pick(s, {}).refinements == []
    decreases |s.shape|
  {
    if |s.shape| > 0 {
      PickNothingIsEmpty(ObjectSchema(s.shape[1..], s.refinements));
    }
  }

  /** The confirmation dialog `DeleteTransactionDialog` renders: no fields, and a submit
      that runs `handleDelete` and returns `true` whatever happened. */
  function ConfirmDialog(s: ObjectSchema, props: DeleteProps, st: DeleteState, t: Transaction, delete: Value -> Outcome, fm: Formats): (cfg: FormDialog.Config)
    ensures cfg.title == "Return Book" && cfg.fields == [] && cfg.defaults.None?
    ensures forall r :: cfg.schema(r) == SafeParse(s, r, fm)
    ensures forall p :: cfg.onSubmit(p) == Invocation(HandleDelete(props, st, t, delete).effects, Returned(Bool(true)))
  {
    FormDialog.Config(Validator(s, fm), Describe(s), [], "Return Book",
      p => Invocation(HandleDelete(props, st, t, delete).effects, Returned(Bool(true))), None)
  }

  /** The confirmation dialog is shown as the caller's `open` says, else as the internal
      flag says, and always reports open requests to `handleOpenChange`. */
  function ConfirmProps(props: DeleteProps, st: DeleteState): (r: FormDialog.Props)
    ensures r.open == Some(props.open.GetOr(st.dialogOpen)) && r.hasOnOpenChange
  {
    FormDialog.Props(map[], map[], Some(props.open.GetOr(st.dialogOpen)), true)
  }

  /** Routes the calls the factory itself makes: its `onOpenChange` is
      `handleOpenChange`; a notice passes through. */
  function Route(props: DeleteProps, st: DeleteState, effects: seq<Effect>): (r: (DeleteState, seq<Effect>))
    ensures (forall e :: e in effects ==> !e.OpenChangeCalled?) ==> r == (st, effects)
    decreases |effects|
  {
    if |effects| == 0 then (st, [])
    else
      var head := if effects[0].OpenChangeCalled? then HandleOpenChange(props, st, effects[0].open) else (st, [effects[0]]);
      assert forall e :: e in effects[1..] ==> e in effects;
      var rest := Route(props, head.0, effects[1..]);
      assert [effects[0]] + effects[1..] == effects;
      (rest.0, head.1 + rest.1)
  }

  /** Confirming a return: the factory validates the empty form, awaits the submit
      (which runs `handleDelete`), reports the save and asks `handleOpenChange` to
      close. The calls `handleDelete` makes reach the caller directly; the calls the
      factory makes itself go through `Route`. A submit the form's wrapper blocks
      changes and calls nothing. */
  function ConfirmReturn(s: ObjectSchema, props: DeleteProps, st: DeleteState, dialog: FormDialog.DialogState, t: Transaction,
                         delete: Value -> Outcome, fm: Formats): (r: (DeleteState, seq<Effect>))
  {
    var cfg := ConfirmDialog(s, props, st, t, delete, fm);
    var step := FormDialog.Submit(cfg, ConfirmProps(props, st), dialog);
    var deleted := HandleDelete(props, st, t, delete);
    if FormDialog.Blocked(cfg.fields, dialog.errors) then (st, [])
    else match cfg.schema(dialog.values)
    case Parsed(_) =>
      var routed := Route(props, deleted.state, step.effects[1 + |deleted.effects|..]);
      (routed.0, step.effects[..1 + |deleted.effects|] + routed.1)
    case _ => Route(props, st, step.effects)
  }

  /** The factory's calls when the return is confirmed: the submit with an empty
      payload, what `handleDelete` did, the saved notice, and the close request. */
  lemma ConfirmStep(s: ObjectSchema, props: DeleteProps, st: DeleteState, dialog: FormDialog.DialogState, t: Transaction,
                    delete: Value -> Outcome, fm: Formats)
    requires !FormDialog.Blocked([], dialog.errors)
    requires s.shape == [] && s.refinements == []
    ensures FormDialog.Submit(ConfirmDialog(s, props, st, t, delete, fm), ConfirmProps(props, st), dialog).effects
      == [SubmitCalled(map[])] + HandleDelete(props, st, t, delete).effects
         + [Notify(SuccessNotice, FormDialog.SavedNotice), OpenChangeCalled(false)]
  {
    var cfg := ConfirmDialog(s, props, st, t, delete, fm);
    EmptySchemaAcceptsAll(s, dialog.values, fm);
    assert cfg.schema(dialog.values) == Parsed(map[]);
    assert FormDialog.DropUndefined(map[]) == map[];
  }

  /** The notice passes through; the close request reaches `handleOpenChange`. */
  lemma RouteSavedThenClose(props: DeleteProps, st: DeleteState)
    ensures var r := Route(props, st, [Notify(SuccessNotice, FormDialog.SavedNotice), OpenChangeCalled(false)]);
      && r.0 == st.(dialogOpen := false)
      && r.1 == [Notify(SuccessNotice, FormDialog.SavedNotice)] + (if props.hasOnOpenChange then [OpenChangeCalled(false)] else [])
  {
    var effects := [Notify(SuccessNotice, FormDialog.SavedNotice), OpenChangeCalled(false)];
    assert effects[1..] == [OpenChangeCalled(false)];
    assert effects[1..][1..] == [];
  }

  lemma ConfirmReturnRoutesOwnCalls(s: ObjectSchema, props: DeleteProps, st: DeleteState, dialog: FormDialog.DialogState,
                                    t: Transaction, delete: Value -> Outcome, fm: Formats)
    requires !FormDialog.Blocked([], dialog.errors)
    requires s.shape == [] && s.refinements == []
    ensures var deleted := HandleDelete(props, st, t, delete);
      var routed := Route(props, deleted.state, [Notify(SuccessNotice, FormDialog.SavedNotice), OpenChangeCalled(false)]);
      ConfirmReturn(s, props, st, dialog, t, delete, fm) == (routed.0, [SubmitCalled(map[])] + deleted.effects + routed.1)
  {
    var cfg := ConfirmDialog(s, props, st, t, delete, fm);
    EmptySchemaAcceptsAll(s, dialog.values, fm);
    var deleted := HandleDelete(props, st, t, delete);
    var step := FormDialog.Submit(cfg, ConfirmProps(props, st), dialog);
    ConfirmStep(s, props, st, dialog, t, delete, fm);
    assert step.effects[1 + |deleted.effects|..] == [Notify(SuccessNotice, FormDialog.SavedNotice), OpenChangeCalled(false)];
    assert step.effects[..1 + |deleted.effects|] == [SubmitCalled(map[])] + deleted.effects;
  }

  /** Whatever the delete request does, confirming a return reports "Saved
      successfully", closes the dialog and ends not deleting: the caller sees the
      submit, what `handleDelete` did, the notice and, through `handleOpenChange`, a
      close request. */
  lemma ReturnAlwaysReportsSaved(props: DeleteProps, st: DeleteState, dialog: FormDialog.DialogState, t: Transaction,
                                 delete: Value -> Outcome, fm: Formats)
    requires !FormDialog.Blocked([], dialog.errors)
    ensures var r := ConfirmReturn(ConfirmSchema(), props, st, dialog, t, delete, fm);
      && r.1 == [SubmitCalled(map[])] + HandleDelete(props, st, t, delete).effects
                + [Notify(SuccessNotice, FormDialog.SavedNotice)] + (if props.hasOnOpenChange then [OpenChangeCalled(false)] else [])
      && !r.0.dialogOpen && !r.0.isDeleting
  {
    PickNothingIsEmpty(CreateTransactionSchema);
    EmptyConfirmReturn(ConfirmSchema(), props, st, dialog, t, delete, fm);
  }

  lemma EmptyConfirmReturn(s: ObjectSchema, props: DeleteProps, st: DeleteState, dialog: FormDialog.DialogState, t: Transaction,
                           delete: Value -> Outcome, fm: Formats)
    requires !FormDialog.Blocked([], dialog.errors)
    requires s.shape == [] && s.refinements == []
    ensures var r := ConfirmReturn(s, props, st, dialog, t, delete, fm);
      && r.1 == [SubmitCalled(map[])] + HandleDelete(props, st, t, delete).effects
                + [Notify(SuccessNotice, FormDialog.SavedNotice)] + (if props.hasOnOpenChange then [OpenChangeCalled(false)] else [])
      && !r.0.dialogOpen && !r.0.isDeleting
  {
    ConfirmReturnRoutesOwnCalls(s, props, st, dialog, t, delete, fm);
    RouteSavedThenClose(props, HandleDelete(props, st, t, delete).state);
  }

  /** A failed delete is still reported as saved, and `onSuccess` is not called. */
  lemma FailedReturnReportsSaved(props: DeleteProps, st: DeleteState, dialog: FormDialog.DialogState, t: Transaction,
                                 delete: Value -> Outcome, fm: Formats)
    requires !FormDialog.Blocked([], dialog.errors)
    requires delete(Num(t.transactionID)).Raised?
    ensures var r := ConfirmReturn(ConfirmSchema(), props, st, dialog, t, delete, fm);
      && Notify(SuccessNotice, FormDialog.SavedNotice) in r.1
      && SuccessCalled !in r.1
      && !r.0.dialogOpen
  {
    ReturnAlwaysReportsSaved(props, st, dialog, t, delete, fm);
  }

  /** With a caller `onOpenChange`, a successful return tells the caller to close
      twice: once from `handleDelete`, once from the factory through
      `handleOpenChange`. */
  lemma SuccessfulReturnClosesTwice(props: DeleteProps, st: DeleteState, dialog: FormDialog.DialogState, t: Transaction,
                                    delete: Value -> Outcome, fm: Formats)
    requires !FormDialog.Blocked([], dialog.errors)
    requires delete(Num(t.transactionID)).Returned? && props.hasOnOpenChange
    ensures multiset(ConfirmReturn(ConfirmSchema(), props, st, dialog, t, delete, fm).1)[OpenChangeCalled(false)] == 2
  {
    ReturnAlwaysReportsSaved(props, st, dialog, t, delete, fm);
  }
}

=== FILE: values.dfy ===
/** JavaScript values as the dialogs, schemas and formatters see them. */
module Values {
  import opened Text

  /** A JavaScript value. Numbers are integers; `NaN` stands for every number that is
      not an integer (NaN itself, the infinities and fractions). Objects keep their
      entries in enumeration order. */
  datatype Value =
    | Undefined
    | Null
    | Bool(b: bool)
    | Num(n: int)
    | NaN
    | Str(s: string)
    | Arr(items: seq<Value>)
    | Obj(entries: seq<(string, Value)>)

  /** A plain record such as form values or a request payload: a key that is present
      with value `Undefined` is different from a key that is absent. */
  type Rec = map<string, Value>

  /** JavaScript truthiness. */
  predicate Truthy(v: Value) {
    match v
    case Undefined => false
    case Null => false
    case NaN => false
    case Bool(b) => b
    case Num(n) => n != 0
    case Str(s) => s != ""
    case Arr(_) => true
    case Obj(_) => true
  }

  /** `String(v)`; an array prints its elements joined by commas, with null and
      undefined elements printed as empty strings. */
  function JsString(v: Value): string
    decreases v
  {
    match v
    case Undefined => "undefined"
    case Null => "null"
    case Bool(b) => if b then "true" else "false"
    case Num(n) => IntToDecimal(n)
    case NaN => "NaN"
    case Str(s) => s
    case Arr(items) =>
      Join(seq(|items|, i requires 0 <= i < |items| =>
        if items[i].Undefined? || items[i].Null? then "" else JsString(items[i])), ",")
    case Obj(_) => "[object Object]"
  }

  /** Property access `v[key]` on an object; any other value yields undefined. */
  function Get(v: Value, key: string): Value {
    match v
    case Obj(entries) => Lookup(entries, key)
    case _ => Undefined
  }

  function Lookup(entries: seq<(string, Value)>, key: string): (r: Value)
    ensures r != Undefined ==> exists i :: 0 <= i < |entries| && entries[i] == (key, r)
  {
    if |entries| == 0 then Undefined
    else if entries[0].0 == key then entries[0].1
    else Lookup(entries[1..], key)
  }

  /** Property access reads the first entry under the key. */
  lemma {:induction false} LookupFindsFirst(entries: seq<(string, Value)>, key: string, i: nat)
    requires i < |entries| && entries[i].0 == key
    requires forall j :: 0 <= j < i ==> entries[j].0 != key
    ensures Lookup(entries, key) == entries[i].1
  {
    if i > 0 {
      LookupFindsFirst(entries[1..], key, i - 1);
    }
  }

  /** `rec[key]`, which is undefined for an absent key. */
  function At(rec: Rec, key: string): Value {
    if key in rec then rec[key] else Undefined
  }

  /** One segment of a validation issue's path: an object key or an array index. */
  datatype Segment = Key(name: string) | Index(i: int)

  predicate SegmentTruthy(s: Segment) {
    match s
    case Key(name) => name != ""
    case Index(i) => i != 0
  }

  /** The segment as a property name (`String(segment)`). */
  function SegmentText(s: Segment): string {
    match s
    case Key(name) => name
    case Index(i) => IntToDecimal(i)
  }

  /** A validation issue: where it is and what it says. */
  datatype Issue = Issue(path: seq<Segment>, message: string)
}

=== FILE: wrappers.dfy ===
/** Optional values, standing for JavaScript's `T | undefined` where the model needs one. */
module Wrappers {

  datatype Option<+T> = None | Some(value: T) {

    /** The wrapped value, or `default` when there is none (JavaScript's `x ?? default`). */
    function GetOr(default: T): T {
      match this
      case Some(v) => v
      case None => default
    }
  }
}

=== FILE: zod_error.dfy ===
/** `handleZodError` (app/lib/schemas/index.ts): turns a validation failure into a
    problem-details body and lets every other error through. */
module ZodErrors {
  import opened Text
  import opened Values
  import opened Schemas
  import opened Common
  import opened Effects

  /** What reaches the handler: a validation error with its issues, or anything else. */
  datatype Thrown = ZodError(issues: seq<Issue>) | OtherError(error: Value)

  /** The handler either returns a body or throws its argument again. */
  datatype Handled = Problem(body: Rec) | Rethrown(error: Thrown)

  const ValidationErrorType := "validation-error"
  const ValidationTitle := "Validation Failed"
  const ValidationStatus := 400
  const ValidationDetail := "The request contains invalid data"

  function SegmentTexts(path: seq<Segment>): (r: seq<string>)
    ensures |r| == |path|
    ensures forall i :: 0 <= i < |path| ==> r[i] == SegmentText(path[i])
  {
    if |path| == 0 then [] else [SegmentText(path[0])] + SegmentTexts(path[1..])
  }

  /** One `invalid-params` entry: the dotted path, a colon and a space, the message. */
  function InvalidParam(issue: Issue): string {
    Join(SegmentTexts(issue.path), ".") + ": " + issue.message
  }

  function InvalidParams(issues: seq<Issue>): (r: seq<Value>)
    ensures |r| == |issues|
    ensures forall i :: 0 <= i < |issues| ==> r[i] == Str(InvalidParam(issues[i]))
  {
    if |issues| == 0 then [] else [Str(InvalidParam(issues[0]))] + InvalidParams(issues[1..])
  }

  /** A validation error becomes a 400 problem-details body with one entry per issue,
      in issue order, and no `data` member; any other error is thrown again unchanged. */
  function HandleZodError(e: Thrown): (h: Handled)
    ensures h.Rethrown? <==> e.OtherError?
    ensures h.Rethrown? ==> h.error == e
    ensures h.Problem? ==> h.body.Keys == {"type", "title", "status", "detail", "invalid-params"}
    ensures h.Problem? ==> At(h.body, "status") == Num(ValidationStatus)
    ensures h.Problem? ==> At(h.body, "type") == Str(ValidationErrorType)
    ensures h.Problem? ==> At(h.body, "title") == Str(ValidationTitle) && At(h.body, "detail") == Str(ValidationDetail)
    ensures h.Problem? ==> (
      && At(h.body, "invalid-params").Arr?
      && |At(h.body, "invalid-params").items| == |e.issues|
      && forall i :: 0 <= i < |e.issues| ==> At(h.body, "invalid-params").items[i] == Str(InvalidParam(e.issues[i])))
  {
    match e
    case ZodError(issues) =>
      Problem(map[
        "type" := Str(ValidationErrorType),
        "title" := Str(ValidationTitle),
        "status" := Num(ValidationStatus),
        "detail" := Str(ValidationDetail),
        "invalid-params" := Arr(InvalidParams(issues))])
    case OtherError(_) => Rethrown(e)
  }

  /** Every body the handler builds is one the problem-details schema accepts. */
  lemma HandledBodyIsProblemDetails(issues: seq<Issue>, fm: Formats)
    ensures HandleZodError(ZodError(issues)).Problem?
    ensures Valid(ProblemDetailsSchema, HandleZodError(ZodError(issues)).body, fm)
  {
    ProblemDetailsAccepts(HandleZodError(ZodError(issues)).body, fm);
  }

  /** A rejected parse always yields a body that lists at least one invalid parameter. */
  lemma RejectionIsReported(s: ObjectSchema, input: Rec, fm: Formats)
    requires SafeParse(s, input, fm).Rejected?
    ensures var h := HandleZodError(ZodError(SafeParse(s, input, fm).issues));
      h.Problem? && |At(h.body, "invalid-params").items| > 0
  {
  }

  predicate SeparatorFree(t: string) {
    '.' !in t && ':' !in t
  }

  /** Printed indices hold only a sign and digits. */
  lemma IndexTextSeparatorFree(i: int)
    ensures SeparatorFree(IntToDecimal(i))
  {
    var d := NatToDecimal(if i < 0 then -i else i);
    assert forall k :: 0 <= k < |d| ==> d[k] != '.' && d[k] != ':';
  }

  /** Keys with no dot or colon, so the printed path can be taken apart again. */
  predicate PlainPath(path: seq<Segment>) {
    forall i :: 0 <= i < |path| ==> path[i].Key? ==> SeparatorFree(path[i].name)
  }

  /** The path of an issue can be read back from its entry, by cutting at the first colon
      and splitting at the dots, when its keys hold no dot or colon (indices never do). */
  lemma {:induction false} InvalidParamPathReadBack(issue: Issue)
    requires |issue.path| >= 1
    requires PlainPath(issue.path)
    ensures Split(Split(InvalidParam(issue), ':')[0], '.') == SegmentTexts(issue.path)
  {
    var texts := SegmentTexts(issue.path);
    forall i | 0 <= i < |texts| ensures SeparatorFree(texts[i]) {
      if issue.path[i].Index? {
        IndexTextSeparatorFree(issue.path[i].i);
      }
    }
    var joined := Join(texts, ".");
    JoinFree(texts, ".", ':');
    assert InvalidParam(issue) == joined + [':'] + (" " + issue.message);
    SplitAfterPiece(joined, ':', " " + issue.message);
    SplitJoin(texts, '.');
  }

  /** Joining pieces free of a character, with a separator free of it, gives text free of it. */
  lemma {:induction false} JoinFree(parts: seq<string>, sep: string, c: char)
    requires c !in sep
    requires forall i :: 0 <= i < |parts| ==> SeparatorFree(parts[i])
    requires c == '.' || c == ':'
    ensures c !in Join(parts, sep)
  {
    if |parts| > 1 {
      JoinFree(parts[1..], sep, c);
    }
  }
}
